=== FILE: README.md ===
# Company, user and employee directory: a Dafny model

This project models the core of a Go gRPC service. The service keeps three
kinds of records in PostgreSQL:

- users: an email and a name;
- companies: a name, a code and an optional description;
- employees: a company, an employee code, a user and an employment period.

The model covers four layers of that core:

- **Transactions.** This is `internal/platform/db/postgres/transaction.go`.
  - The `TransactionManager` opens a read-only or read-write transaction and stores it in the request context.
  - It runs the unit of work in that context.
  - It commits or rolls back, and joins a rollback failure onto the original error.
  - `QueryerFromContext` picks the ambient transaction, or falls back to the pool.
- **Repositories.** These are the three PostgreSQL repositories.
  - Each is a class holding the queryer it was built with, plus an oracle for the database engine.
  - Every method returns the request it issues: the queryer it ran on, the statement kind, the placeholders and the argument list.
  - Each method states its result in terms of the engine's answer.
  - The scan functions and the PostgreSQL error translations are functions, proved against `errors.Is` / `errors.As` over a model of Go error chains.
  - The list methods build their placeholders and arguments step by step, as the Go code does.
  - They fetch one row more than the page and cut the page at that fencepost.
- **Services.** These are the three use-case services.
  - The services run over the in-memory repositories that the services' tests define.
  - Those repositories are classes whose `map` and insertion-order fields the methods update.
  - Each service method states:
    - which validation error it returns;
    - whether it would open a transaction, and in which access mode (a ghost output);
    - the exact new record map and insertion order of the repository.
  - The load-modify-save of the update operations is specified by a merge function. Lemmas about that function state what the update changes and what uniqueness it keeps.
- **Error mapping.** This is `toStatusError`, which turns a domain error into a gRPC status code.
  - It is a function over error chains.
  - It is proved equal to an independent reading by sentinel sets.

Time is a parameter wherever the source reads the clock. Email address
parsing (`net/mail.ParseAddress`) is a function parameter of the user
service. The database engine is a datatype of three functions (query, query
one row, exec), and every repository method is stated relative to it.

The employee code (`internal/core/employee/service.go` and
`employee_repository.go`) refers to `ErrInvalidUserID` and `ErrUserNotFound`.
The employee `errors.go` does not declare them. The model follows the code
and adds both to the employee error kinds.

In the same way, `internal/core/user/service.go:315` and `:327` return
`ErrInvalidPageSize` and `ErrInvalidPageToken`, and `error_mapping.go:20-21`
tests them, but `internal/core/user/errors.go:5-18` does not declare them.
The model adds both to the user error kinds (`UserErrors.Kind`).

`internal/core/employee/entity.go:14-26` declares an employee with `Email`,
`LastName` and `FirstName` and without `UserID` or a user snapshot. The
employee service and repository work with `UserID` and a joined user
snapshot instead. The model's `EmployeeCore.Employee` follows the service
and the repository, not `entity.go`.

The source files' own `normalizePageSize`/`parsePageToken` copies are
identical in the three services. The model states the shared rule once, in
`Paging`. Each service keeps a thin wrapper that returns its own sentinel.

## Model

| member | source | states |
|---|---|---|
| Errors.AsPg | internal/adapters/repository/postgres/company_repository.go:214-222 | `errors.As` for a PostgreSQL error: whatever it returns is a PostgreSQL error present in the chain |
| Errors.IsIffReachable | internal/adapters/grpc/handler/error_mapping.go:16-32 | `errors.Is(e, s)` holds exactly when `s` is among the sentinels reachable through wrapping and joining |
| Errors.AsPgFindsAny | internal/adapters/repository/postgres/employee_repository.go:351-368 | `errors.As` finds a PostgreSQL error whenever the chain holds one |
| Strings.TrimSpace | internal/core/company/service.go:315-321 | the trimmed string has no white space at either end and is no longer than the input |
| Strings.TrimSpaceSlice | internal/core/company/service.go:315-321 | the trimmed string is the slice of `s` left between its leading and trailing white space, and both are all white space |
| Strings.BlankIffAllSpace | internal/core/user/service.go:157-159 | `strings.TrimSpace(s) == ""` exactly when every character of `s` is white space |
| Strings.TrimSpaceIdempotent | internal/core/company/service.go:315-321 | trimming twice is trimming once |
| Strings.ToLower | internal/core/company/service.go:323-335 | lower-casing keeps the length and maps each character |
| Strings.ToLowerIdempotent | internal/core/user/service.go:287-299 | lower-casing twice is lower-casing once |
| Strings.Atoi | internal/core/company/service.go:370-381 | `strconv.Atoi` accepts an optional sign and decimal digits, and only values in the 64-bit range |
| Strings.AtoiItoa | internal/adapters/repository/postgres/company_repository.go:171-175 | `strconv.Atoi(strconv.Itoa(n)) == n` for every 64-bit `n` |
| Strings.CodePatternIsNormal | internal/core/company/service.go:51 | a string matching `^[a-z0-9][a-z0-9_-]*$` is already trimmed and lower case |
| Clock.MidnightUTC | internal/adapters/repository/postgres/employee_repository.go:373-378 | midnight UTC of a date has that date both locally and in UTC |
| Clock.DateOrderTotal | internal/core/employee/service.go:391-399 | the calendar order is strict and total |
| Clock.MidnightBefore | internal/core/employee/service.go:391-399 | for valid dates, one midnight is before another exactly when its date is earlier |
| Validation.NormalizeRequired | internal/core/company/service.go:315-321 | a required text field fails exactly when blank, and otherwise yields a non-empty, already trimmed value |
| Validation.NormalizeCodeText | internal/core/company/service.go:323-335 | a code is the trimmed, lower-cased input; it is accepted exactly when that matches the code pattern |
| Validation.NormalizeCodeIdempotent | internal/core/company/service.go:323-335 | normalising an accepted code again gives the same code |
| Validation.CodeWithSpaceRejected | internal/core/company/service.go:323-335 | a code with inner white space is rejected |
| Validation.CodeCaseInsensitive | internal/core/company/service.go:323-335 | the case of the input does not change the normalised code |
| Validation.TrimLowerCommute | internal/core/company/service.go:324-329 | trimming and lower-casing commute |
| Paging.NormalizePageSize | internal/core/company/service.go:360-368 | a size ≤ 0 becomes 50; a size above 200 is rejected; any other size is kept |
| Paging.ParsePageToken | internal/core/company/service.go:370-381 | a blank token is offset 0; any other token must parse as a non-negative integer, which is the offset |
| Paging.TokenRoundTrip | internal/core/company/service.go:370-381 | a token written by `strconv.Itoa` parses back to the same offset |
| Paging.BadLeadRejected | internal/core/company/service.go:375-378 | a token that is not blank and opens with neither a sign nor a digit is refused |
| Paging.PageTokensReadBack | internal/core/company/service.go:370-381 | the page-token parser reads back every offset `strconv.Itoa` renders |
| Paging.NegativeTokenRejected | internal/core/company/service.go:375-378 | a negative token is rejected |
| Paging.PaddedTokenRejected | internal/core/company/service.go:371-378 | a token with surrounding spaces is rejected, since only the blank test trims |
| Paging.WordTokenRejected | internal/core/company/service.go:375-378 | a non-numeric token is rejected |
| Paging.FencepostOverSound | internal/adapters/repository/postgres/company_repository.go:171-175 | the page has at most `limit` items and is a prefix of the fetched rows; a next token exists exactly when more than `limit` rows came back, and it parses to `offset + limit` |
| Paging.FencepostsAgree | internal/adapters/repository/postgres/employee_repository.go:257-263 | the employee test `len == limit+1` and the company/user test `len > limit` cut the same page whenever at most `limit+1` rows come back |
| Paging.FencepostExactSound | internal/adapters/repository/postgres/employee_repository.go:257-263 | the employee page has at most `limit` items; a token exists exactly when `limit+1` rows came back, and it parses to the next offset |
| Paging.OffsetWindow | internal/core/company/service_test.go:89-116 | the in-memory list returns at most `limit` items from `offset` |
| Paging.TakeWindow | internal/core/company/service_test.go:99-115 | the in-memory list cuts exactly the offset window out of the filtered records |
| Paging.LimitOffset | internal/adapters/repository/postgres/company_repository.go:143-149 | `LIMIT n OFFSET k` returns at most `n` rows |
| Paging.WindowMatchesFencepost | internal/adapters/repository/postgres/company_repository.go:122-175 | fetching `limit+1` rows from `offset` and cutting at the fencepost gives the same page as the in-memory window |
| Paging.WalkVisitsAll | internal/core/company/service.go:257-302 | following the next-page tokens from an offset returns every remaining record once, in order |
| Paging.WalkWithVisitsAll | internal/core/company/service.go:257-302 | with any token parser that reads rendered offsets back, following the tokens returns every remaining record once, in order |
| Sql.Placeholder | internal/adapters/repository/postgres/company_repository.go:128 | a placeholder is `$` followed by digits |
| Sql.PlaceholderInjective | internal/adapters/repository/postgres/company_repository.go:138-141 | different argument positions get different placeholders |
| Sql.ScanAllPointwise | internal/adapters/repository/postgres/company_repository.go:158-165 | when every row scans, the result has one record per row, in row order |
| Sql.ScanAllFirstFailure | internal/adapters/repository/postgres/company_repository.go:159-163 | when scanning fails, the error is that of the first row that fails to scan |
| Sql.CollectRows | internal/adapters/repository/postgres/company_repository.go:158-165 | the scan loop stops at the first failing row with its error, or returns all scanned records |
| Sql.WhereClause | internal/adapters/repository/postgres/company_repository.go:133-136 | the WHERE clause is empty exactly when there are no conditions |
| Sql.QueryOutcomeOk | internal/adapters/repository/postgres/company_repository.go:151-169 | a list query succeeds only if the engine answered, no row failed to scan and the row stream ended without error; the items are the scanned rows |
| Sql.QueryOutcomeErr | internal/adapters/repository/postgres/company_repository.go:151-169 | a failed list query reports the translated query error, the translated error of a row that failed to scan, or the translated end-of-stream error |
| Store.SequentialId | internal/core/company/service_test.go:30-43 | the in-memory repositories' ids carry their prefix |
| Store.SequentialIdInjective | internal/core/company/service_test.go:30-43 | sequential ids never repeat |
| Store.IndexOf | internal/core/company/service_test.go:58-70 | finds the first position of a record id in the insertion order |
| Store.InOrder | internal/core/company/service_test.go:89-116 | lists the stored records in insertion order |
| Transaction.Tx.constructor | internal/platform/db/postgres/transaction.go:60 | a new transaction is open, in the requested mode, with no calls made |
| Transaction.Tx.Commit | internal/platform/db/postgres/transaction.go:81-88 | commit on a closed transaction reports "tx closed"; otherwise it reports the engine's fault and closes the transaction unless the fault leaves it open |
| Transaction.Tx.Rollback | internal/platform/db/postgres/transaction.go:66-78 | rollback on a closed transaction reports "tx closed"; on an open one it always closes it |
| Transaction.Pool.constructor | internal/platform/db/postgres/transaction.go:18-20 | a pool with scripted begin, commit and rollback faults |
| Transaction.Pool.BeginTx | internal/platform/db/postgres/transaction.go:60-63 | begin either fails with its fault and starts nothing, or starts a fresh open transaction in the requested mode |
| Transaction.TxFromContext | internal/platform/db/postgres/transaction.go:98-104 | a nil or background context holds no transaction |
| Transaction.QueryerFromContext | internal/platform/db/postgres/transaction.go:107-112 | the queryer is the context's transaction when there is one, and the fallback otherwise |
| Transaction.ContextWithTx | internal/platform/db/postgres/transaction.go:94-96 | a context built with a transaction yields that transaction, and every query on it runs in it |
| Transaction.OtherValuesKeepTx | internal/platform/db/postgres/transaction.go:98-104 | layering other context values keeps the transaction visible |
| Transaction.WorkFailureKeepsCause | internal/platform/db/postgres/transaction.go:74-78 | a failed unit of work's error stays visible to `errors.Is` even after a rollback failure is joined on |
| Transaction.CommitFailureKeepsCause | internal/platform/db/postgres/transaction.go:81-87 | a commit failure stays visible to `errors.Is`, wrapped and possibly joined with a rollback failure |
| Transaction.TransactionManager.constructor | internal/platform/db/postgres/transaction.go:28-33 | the manager holds the given pool |
| Transaction.TransactionManager.Within | internal/platform/db/postgres/transaction.go:51-92 | nil work is an error; work inside an ambient transaction runs directly; a begin failure is wrapped. Otherwise the work runs in a fresh transaction that ends committed or rolled back, with each error path's exact error and call sequence |
| Transaction.NewTransactionManager | internal/platform/db/postgres/transaction.go:28-33 | a nil pool gives a nil manager, and otherwise a fresh manager over it |
| Transaction.WithinReadOnly | internal/platform/db/postgres/transaction.go:36-41 | a nil manager runs the work directly; otherwise the error is exactly `within`'s (`WithinError`: nil function, nested pass-through, begin, work, commit) and any transaction begun is read-only and ends closed |
| Transaction.WithinReadWrite | internal/platform/db/postgres/transaction.go:44-49 | a nil manager runs the work directly; otherwise the error is exactly `within`'s (`WithinError`: nil function, nested pass-through, begin, work, commit) and any transaction begun is read-write and ends closed |
| UserCore.NormalizeEmail | internal/core/user/service.go:287-299 | an email is accepted exactly when it is not blank and the address parser accepts it trimmed; the result is the parsed address lower-cased |
| UserCore.NormalizedEmailIsLower | internal/core/user/service.go:287-299 | a normalised email is lower case |
| UserCore.NormalizeEmailIgnoresPadding | internal/core/user/service.go:287-289 | surrounding white space does not change the normalised email |
| UserCore.NormalizeName | internal/core/user/service.go:121-124 | a name fails with `ErrInvalidName` exactly when blank, and is otherwise trimmed and non-empty |
| UserCore.PageSize | internal/core/user/service.go:310-318 | size ≤ 0 gives 50; above 200 gives `ErrInvalidPageSize`; otherwise the size is kept |
| UserCore.PageToken | internal/core/user/service.go:320-331 | the token's offset, or `ErrInvalidPageToken` exactly when the shared rule rejects it |
| UserCore.WithStatus | internal/core/user/service_test.go:85-112 | the status filter keeps exactly the records of that status (every kept record matches, every matching record is kept) |
| UserCore.InsertKeepsEmailsUnique | internal/core/user/service.go:127-146 | inserting a user whose email is free keeps emails unique |
| UserCore.MergeUserSpec | internal/core/user/service.go:162-185 | an update fails exactly on a blank name or an unknown status, the name checked first; otherwise only the supplied fields change, the email and creation time never do, and the update time is now |
| UserCore.MergeKeepsEmailsUnique | internal/core/user/service.go:162-185 | an update never breaks email uniqueness |
| UserCore.MemoryRepository.Listing | internal/core/user/service_test.go:85-112 | the stored users in insertion order |
| UserCore.MemoryRepository.constructor | internal/core/user/service_test.go:26-28 | the repository starts empty |
| UserCore.MemoryRepository.Create | internal/core/user/service_test.go:30-43 | a taken email is `ErrEmailAlreadyExists` and nothing changes; otherwise the user is stored under a new id and appended to the order |
| UserCore.MemoryRepository.Update | internal/core/user/service_test.go:45-52 | an unknown id is `ErrUserNotFound`; otherwise the stored user is replaced |
| UserCore.MemoryRepository.Delete | internal/core/user/service_test.go:54-66 | an unknown id is `ErrUserNotFound`; otherwise the user is removed from the map and the order |
| UserCore.MemoryRepository.FindByID | internal/core/user/service_test.go:68-74 | the stored user, or `ErrUserNotFound` |
| UserCore.MemoryRepository.FindByEmail | internal/core/user/service_test.go:76-83 | the user with that email, or `ErrUserNotFound` exactly when none has it |
| UserCore.MemoryRepository.Matching | internal/core/user/service_test.go:85-112 | the filtering loop computes the status filter over the insertion order |
| UserCore.MemoryRepository.List | internal/core/user/service_test.go:85-112 | the page is the offset window over the filtered users |
| UserCore.Service.constructor | internal/core/user/service.go:68-76 | the service holds its repository and address parser |
| UserCore.Service.EnsureEmailNotExists | internal/core/user/service.go:276-285 | no error exactly when no user has the email; otherwise `ErrEmailAlreadyExists` |
| UserCore.Service.CreateUser | internal/core/user/service.go:115-153 | an invalid email or name fails before any transaction; a taken email fails in a read-write transaction; otherwise a new active user is stored with both times set to now and its id appended to the insertion order; every failure leaves users and order unchanged; emails stay unique |
| UserCore.Service.UpdateUser | internal/core/user/service.go:156-197 | a blank id fails with wrapped `ErrInvalidID` before any transaction; an unknown id is not found; otherwise the result is the merge, stored when it succeeds |
| UserCore.Service.DeleteUser | internal/core/user/service.go:200-207 | a blank id fails before any transaction; otherwise the user is removed from the map and the insertion order in a read-write transaction, or not found with both unchanged |
| UserCore.Service.GetUser | internal/core/user/service.go:210-226 | a blank id fails before any transaction; otherwise the stored user, read in a read-only transaction, or not found |
| UserCore.Service.ListUsers | internal/core/user/service.go:229-274 | size, token and status are checked in that order before any transaction; otherwise the page is the window over the status-filtered users, with at most 200 items |
| CompanyCore.NormalizeName | internal/core/company/service.go:315-321 | a name fails with `ErrInvalidName` exactly when blank, and is otherwise trimmed and non-empty |
| CompanyCore.NormalizeCode | internal/core/company/service.go:323-335 | a code is accepted exactly when its trimmed lower-case form matches the pattern, and is that form |
| CompanyCore.NormalizeDescription | internal/core/company/service.go:337-349 | an absent or blank description becomes absent; otherwise it is trimmed |
| CompanyCore.PageSize | internal/core/company/service.go:360-368 | size ≤ 0 gives 50; above 200 gives `ErrInvalidPageSize`; otherwise the size is kept |
| CompanyCore.PageToken | internal/core/company/service.go:370-381 | the token's offset, or `ErrInvalidPageToken` exactly when the shared rule rejects it |
| CompanyCore.WithStatus | internal/core/company/service_test.go:89-116 | the status filter keeps exactly the records of that status (every kept record matches, every matching record is kept) |
| CompanyCore.MergeChangesOnlySupplied | internal/core/company/service.go:170-208 | a successful update keeps the id and creation time and stamps the update time; an omitted field is kept; a supplied name is its trimmed text, a supplied code its trimmed lower-case form, a supplied status itself, and a supplied description its trimmed text or, when blank, absent |
| CompanyCore.MergeFailures | internal/core/company/service.go:170-208 | each update error is explained by the input: blank name, bad code, a code that differs from the stored one and is taken, unknown status |
| CompanyCore.MergeKeepsCodesUnique | internal/core/company/service.go:184-195 | an update never gives a company a code another company holds |
| CompanyCore.MemoryRepository.Listing | internal/core/company/service_test.go:89-116 | the stored companies in insertion order |
| CompanyCore.MemoryRepository.constructor | internal/core/company/service_test.go:26-28 | the repository starts empty |
| CompanyCore.MemoryRepository.Create | internal/core/company/service_test.go:30-43 | a taken code is `ErrCodeAlreadyExists` and nothing changes; otherwise the company is stored under a new id and appended to the order |
| CompanyCore.MemoryRepository.Update | internal/core/company/service_test.go:45-56 | an unknown id is not found; a code held by another company is a duplicate; otherwise the company is replaced |
| CompanyCore.MemoryRepository.Delete | internal/core/company/service_test.go:58-70 | an unknown id is `ErrCompanyNotFound`; otherwise the company is removed from the map and the order |
| CompanyCore.MemoryRepository.FindByID | internal/core/company/service_test.go:72-78 | the stored company, or `ErrCompanyNotFound` |
| CompanyCore.MemoryRepository.FindByCode | internal/core/company/service_test.go:80-87 | the company with that code, or `ErrCompanyNotFound` exactly when none has it |
| CompanyCore.MemoryRepository.Matching | internal/core/company/service_test.go:89-116 | the filtering loop computes the status filter over the insertion order |
| CompanyCore.MemoryRepository.List | internal/core/company/service_test.go:89-116 | the page is the offset window over the filtered companies |
| CompanyCore.Service.ApplyChanges | internal/core/company/service.go:176-208 | the field-by-field update of the loaded company yields exactly the load-modify-save merge `MergeCompany`, error cases included |
| CompanyCore.Service.constructor | internal/core/company/service.go:70-78 | the service holds its repository |
| CompanyCore.Service.EnsureCodeNotExists | internal/core/company/service.go:304-313 | no error exactly when no company has the code; otherwise `ErrCodeAlreadyExists` |
| CompanyCore.Service.CreateCompany | internal/core/company/service.go:120-161 | an invalid name or code fails before any transaction; a taken code fails in a read-write transaction; otherwise a new active company is stored with the normalised fields and both times set to now, and its id appended to the insertion order; every failure leaves companies and order unchanged |
| CompanyCore.Service.UpdateCompany | internal/core/company/service.go:164-222 | a blank id fails with wrapped `ErrInvalidID` before any transaction; an unknown id is not found; otherwise the result is the merge, stored when it succeeds |
| CompanyCore.Service.DeleteCompany | internal/core/company/service.go:225-233 | a blank id fails before any transaction; otherwise the company is removed from the map and the insertion order in a read-write transaction, or not found with both unchanged |
| CompanyCore.Service.GetCompany | internal/core/company/service.go:236-254 | a blank id fails before any transaction; otherwise the stored company, read in a read-only transaction, or not found |
| CompanyCore.Service.ListCompanies | internal/core/company/service.go:257-302 | size, token and status are checked in that order before any transaction; otherwise the page is the window over the status-filtered companies, with at most 200 items |
| EmployeeCore.NormalizeCompanyID | internal/core/employee/service.go:353-359 | a company id fails with `ErrInvalidCompanyID` exactly when blank, and is otherwise trimmed |
| EmployeeCore.NormalizeUserID | internal/core/employee/service.go:374-380 | a user id fails with `ErrInvalidUserID` exactly when blank, and is otherwise trimmed |
| EmployeeCore.NormalizeEmployeeCode | internal/core/employee/service.go:361-372 | a code is accepted exactly when its trimmed lower-case form matches the pattern, and is that form |
| EmployeeCore.EmployeeCodeIdempotent | internal/core/employee/service.go:361-372 | normalising an accepted employee code again changes nothing |
| EmployeeCore.NormalizeDate | internal/core/employee/service.go:382-389 | an absent date stays absent; a present one becomes midnight UTC of its local calendar date |
| EmployeeCore.NormalizeDateIdempotent | internal/core/employee/service.go:382-389 | normalising a date twice is normalising it once |
| EmployeeCore.ValidateEmploymentPeriod | internal/core/employee/service.go:391-399 | the period is rejected with `ErrInvalidDateRange` exactly when both ends are present and termination is before hiring |
| EmployeeCore.PeriodCheckOnDates | internal/core/employee/service.go:143-148 | after normalisation the period check compares calendar dates |
| EmployeeCore.PageSize | internal/core/employee/service.go:418-426 | size ≤ 0 gives 50; above 200 gives `ErrInvalidPageSize`; otherwise the size is kept |
| EmployeeCore.PageToken | internal/core/employee/service.go:428-439 | the token's offset, or `ErrInvalidPageToken` exactly when the shared rule rejects it |
| EmployeeCore.InCompany | internal/core/employee/service_test.go:99-129 | the filter keeps exactly the employees of that company, and of that status when one is given (every kept record matches, every matching record is kept) |
| EmployeeCore.MergeEmployeeChangesOnlySupplied | internal/core/employee/service.go:197-243 | a successful update keeps the id, company, creation time and user snapshot; an omitted field is kept; a supplied code is its trimmed lower-case form and a supplied user id its trimmed text; a set date becomes midnight UTC of the date it shows, and a cleared one absent; and the period is valid |
| EmployeeCore.MergeEmployeeFailures | internal/core/employee/service.go:197-243 | each update error is explained by the input: a bad code (exactly), a code that differs from the stored one and is taken in the company, a blank user id, an unknown status, or the period |
| EmployeeCore.MergeKeepsCodesUnique | internal/core/employee/service.go:203-214 | an update never gives an employee a code another employee of the same company holds |
| EmployeeCore.ReplaceKeepsCodesUnique | internal/core/employee/service_test.go:55-66 | replacing an employee whose code is free in its company keeps codes unique per company |
| EmployeeCore.MemoryRepository.Listing | internal/core/employee/service_test.go:99-129 | the stored employees in insertion order |
| EmployeeCore.MemoryRepository.constructor | internal/core/employee/service_test.go:26-28 | the repository starts empty |
| EmployeeCore.MemoryRepository.Create | internal/core/employee/service_test.go:39-53 | a code taken in the company is `ErrEmployeeCodeAlreadyExists` and nothing changes; otherwise the employee is stored under a new id |
| EmployeeCore.MemoryRepository.Update | internal/core/employee/service_test.go:55-66 | an unknown id is not found; a code held by another employee of the company is a duplicate; otherwise the employee is replaced |
| EmployeeCore.MemoryRepository.Delete | internal/core/employee/service_test.go:68-80 | an unknown id is `ErrEmployeeNotFound`; otherwise the employee is removed from the map and the order |
| EmployeeCore.MemoryRepository.FindByID | internal/core/employee/service_test.go:82-88 | the stored employee, or `ErrEmployeeNotFound` |
| EmployeeCore.MemoryRepository.FindByCompanyAndCode | internal/core/employee/service_test.go:90-97 | the employee with that company and code, or not found exactly when none has them |
| EmployeeCore.MemoryRepository.Matching | internal/core/employee/service_test.go:99-129 | the filtering loop computes the company and status filter over the insertion order |
| EmployeeCore.MemoryRepository.List | internal/core/employee/service_test.go:99-129 | the page is the offset window over the company's filtered employees |
| EmployeeCore.CreateChecks | internal/core/employee/service.go:128-156 | create validation passes exactly when every field is valid; a blank company id is reported first, then a bad code, then a blank user id; an invalid status is reported only once the period is valid; every failure is one of the five validation errors |
| EmployeeCore.Service.constructor | internal/core/employee/service.go:70-78 | the service holds its repository |
| EmployeeCore.Service.EnsureEmployeeCodeNotExists | internal/core/employee/service.go:342-351 | no error exactly when no employee of the company has the code; otherwise `ErrEmployeeCodeAlreadyExists` |
| EmployeeCore.Service.CreateEmployee | internal/core/employee/service.go:127-188 | a validation failure happens before any transaction; a code taken in the company fails in a read-write transaction; otherwise the normalised employee is stored (active unless a status is given, dates at midnight UTC, both times now) and its id appended to the insertion order; every failure leaves employees and order unchanged |
| EmployeeCore.Service.ApplyChanges | internal/core/employee/service.go:203-243 | the field-by-field update computes the merge |
| EmployeeCore.Service.UpdateEmployee | internal/core/employee/service.go:191-257 | a blank id fails with wrapped `ErrInvalidID` before any transaction; an unknown id is not found; otherwise the result is the merge, stored when it succeeds |
| EmployeeCore.Service.DeleteEmployee | internal/core/employee/service.go:260-268 | a blank id fails before any transaction; otherwise the employee is removed from the map and the insertion order in a read-write transaction, or not found with both unchanged |
| EmployeeCore.Service.GetEmployee | internal/core/employee/service.go:271-289 | a blank id fails before any transaction; otherwise the stored employee, read in a read-only transaction, or not found |
| EmployeeCore.Service.ListEmployees | internal/core/employee/service.go:292-340 | company id, size and token are checked in that order before any transaction; otherwise the page is the window over the company's employees, with at most 200 items |
| UserPostgres.ScanUser | internal/adapters/repository/postgres/user_repository.go:176-200 | a row scans to its user; "no rows" anywhere in the chain becomes `ErrUserNotFound`; any other error is kept |
| UserPostgres.TranslateUserPgError | internal/adapters/repository/postgres/user_repository.go:202-210 | a unique violation found by `errors.As` becomes `ErrEmailAlreadyExists`; every other error is returned unchanged |
| UserPostgres.FromRowErrors | internal/adapters/repository/postgres/user_repository.go:34-46 | a single-row result succeeds exactly when a row came back; "no rows" is not found; a unique violation is a duplicate email; any other error is passed through |
| UserPostgres.UpdateNeverWritesEmail | internal/adapters/repository/postgres/user_repository.go:49-64 | the update statement does not depend on the email or the creation time, and does not name those columns |
| UserPostgres.ListStatementWithStatus | internal/adapters/repository/postgres/user_repository.go:119-146 | with a status filter the query reads ` WHERE status = $1 ... LIMIT $2 OFFSET $3` with the arguments status, limit+1, offset |
| UserPostgres.ListStatementWithoutStatus | internal/adapters/repository/postgres/user_repository.go:119-146 | without a filter there is no WHERE, and the query reads `LIMIT $1 OFFSET $2` with the arguments limit+1, offset |
| UserPostgres.UserRepository.constructor | internal/adapters/repository/postgres/user_repository.go:29-31 | the repository holds its pool |
| UserPostgres.UserRepository.Create | internal/adapters/repository/postgres/user_repository.go:34-46 | the insert always runs on the pool, never the context's transaction; the result is the scanned, translated row |
| UserPostgres.UserRepository.Update | internal/adapters/repository/postgres/user_repository.go:49-64 | the update runs on the pool; the result is the scanned, translated row |
| UserPostgres.UserRepository.Delete | internal/adapters/repository/postgres/user_repository.go:67-76 | the delete runs on the pool; an engine error is translated; zero affected rows is `ErrUserNotFound`; success exactly when a row was deleted |
| UserPostgres.UserRepository.FindByID | internal/adapters/repository/postgres/user_repository.go:79-92 | the lookup by id runs on the pool; the result is the scanned, translated row |
| UserPostgres.UserRepository.FindByEmail | internal/adapters/repository/postgres/user_repository.go:95-108 | the lookup by email runs on the pool; the result is the scanned, translated row |
| UserPostgres.UserRepository.List | internal/adapters/repository/postgres/user_repository.go:111-174 | a non-positive limit or a negative offset fails before any query; otherwise it issues the list statement on the pool and returns the query outcome cut at the `len > limit` fencepost |
| UserPostgres.BuildListStatement | internal/adapters/repository/postgres/user_repository.go:119-146 | the step-by-step building of the condition, placeholders and arguments yields the list statement |
| UserPostgres.BypassesAmbientTx | internal/adapters/repository/postgres/user_repository.go:34-36 | when the context holds a transaction, the queryer the other repositories would use differs from the pool the user repository uses |
| CompanyPostgres.NullableString | internal/adapters/repository/postgres/company_repository.go:224-229 | an absent description is SQL NULL; a present one is its text |
| CompanyPostgres.ScanCompany | internal/adapters/repository/postgres/company_repository.go:180-212 | a row scans to its company, a NULL description becoming absent and a non-NULL one its text; "no rows" becomes `ErrCompanyNotFound`; any other error is kept |
| CompanyPostgres.TranslateCompanyPgError | internal/adapters/repository/postgres/company_repository.go:214-222 | a unique violation found by `errors.As` becomes `ErrCodeAlreadyExists`; every other error is returned unchanged |
| CompanyPostgres.FromRowErrors | internal/adapters/repository/postgres/company_repository.go:30-43 | a single-row result succeeds exactly when a row came back; "no rows" is not found; a unique violation is a duplicate code; any other error is passed through |
| CompanyPostgres.DescriptionRoundTrip | internal/adapters/repository/postgres/company_repository.go:196-201 | a company stored with its description written through `nullableString` (nil as NULL) scans back to the same company |
| CompanyPostgres.TranslateIdempotent | internal/adapters/repository/postgres/company_repository.go:214-222 | translating a translated error changes nothing |
| CompanyPostgres.UpdateKeepsCreatedAt | internal/adapters/repository/postgres/company_repository.go:46-64 | the update statement does not depend on the creation time and does not name that column |
| CompanyPostgres.ListStatementNumbering | internal/adapters/repository/postgres/company_repository.go:122-149 | the last two arguments are limit+1 and the offset, bound to the last two placeholders, which differ; there is a WHERE clause exactly when a status is given |
| CompanyPostgres.ListStatementWithStatus | internal/adapters/repository/postgres/company_repository.go:122-149 | with a status filter the query reads ` WHERE status = $1 ... LIMIT $2 OFFSET $3` with the arguments status, limit+1, offset |
| CompanyPostgres.ListStatementWithoutStatus | internal/adapters/repository/postgres/company_repository.go:122-149 | without a filter there is no WHERE, and the query reads `LIMIT $1 OFFSET $2` with the arguments limit+1, offset |
| CompanyPostgres.CompanyRepository.constructor | internal/adapters/repository/postgres/company_repository.go:25-27 | the repository holds its pool |
| CompanyPostgres.CompanyRepository.Create | internal/adapters/repository/postgres/company_repository.go:30-43 | the insert runs on the context's queryer; the result is the scanned, translated row |
| CompanyPostgres.CompanyRepository.Update | internal/adapters/repository/postgres/company_repository.go:46-64 | the update runs on the context's queryer; the result is the scanned, translated row |
| CompanyPostgres.CompanyRepository.Delete | internal/adapters/repository/postgres/company_repository.go:67-77 | an engine error is translated; zero affected rows is `ErrCompanyNotFound`; success exactly when a row was deleted |
| CompanyPostgres.CompanyRepository.FindByID | internal/adapters/repository/postgres/company_repository.go:80-94 | the lookup by id runs on the context's queryer; the result is the scanned, translated row |
| CompanyPostgres.CompanyRepository.FindByCode | internal/adapters/repository/postgres/company_repository.go:97-111 | the lookup by code runs on the context's queryer; the result is the scanned, translated row |
| CompanyPostgres.CompanyRepository.List | internal/adapters/repository/postgres/company_repository.go:114-178 | a non-positive limit or a negative offset fails before any query; otherwise it issues the list statement and returns the query outcome cut at the `len > limit` fencepost |
| CompanyPostgres.BuildListStatement | internal/adapters/repository/postgres/company_repository.go:122-149 | the step-by-step building of the condition, placeholders and arguments yields the list statement |
| Sql.ReadOverPage | internal/adapters/repository/postgres/company_repository.go:151-177 | a query, scan or `rows.Err()` failure is translated and returned; otherwise the page is the rows cut at the `len > limit` fencepost |
| CompanyPostgres.ListPageSound | internal/adapters/repository/postgres/company_repository.go:158-175 | a successful list page holds at most `limit` companies, the leading rows in order; it has a token exactly when more than `limit` rows came back, and the token parses to the next offset |
| EmployeePostgres.NullableTime | internal/adapters/repository/postgres/employee_repository.go:373-378 | an absent date is NULL; a present one is written as midnight UTC of its local calendar date |
| EmployeePostgres.ScanDate | internal/adapters/repository/postgres/employee_repository.go:308-320 | a NULL column is absent; a present one becomes midnight UTC of its UTC calendar date |
| EmployeePostgres.DateRoundTrip | internal/adapters/repository/postgres/employee_repository.go:308-320 | writing a date with `nullableTime` and scanning it back gives the service's normalised date |
| EmployeePostgres.NormalizedDateRoundTrip | internal/adapters/repository/postgres/employee_repository.go:373-378 | a date the service has normalised survives a write and a read unchanged |
| EmployeePostgres.ScanEmployee | internal/adapters/repository/postgres/employee_repository.go:266-341 | a row scans to an employee with every column in place and the joined user snapshot; "no rows" becomes `ErrEmployeeNotFound`; any other error is kept |
| EmployeePostgres.PgSentinel | internal/adapters/repository/postgres/employee_repository.go:353-367 | 23505 is a duplicate code; 23503 on the company or user foreign key is a missing company or user; 23514 is an invalid period; anything else is not recognised |
| EmployeePostgres.TranslateEmployeePgError | internal/adapters/repository/postgres/employee_repository.go:343-371 | nil stays nil; "no rows" is not found before anything else; a recognised PostgreSQL error becomes its sentinel; anything else is returned unchanged |
| EmployeePostgres.TranslateIdempotent | internal/adapters/repository/postgres/employee_repository.go:343-371 | translating twice is translating once, and the result is the error or one of the five employee sentinels |
| EmployeePostgres.NoRowsOutranksPg | internal/adapters/repository/postgres/employee_repository.go:347-349 | every chain in which `errors.Is` finds "no rows" and `errors.As` finds a PostgreSQL error is reported as not found |
| EmployeePostgres.FromRowErrors | internal/adapters/repository/postgres/employee_repository.go:57-61 | a single-row result succeeds exactly when a row came back, and each error is translated as `translateEmployeePgError` says |
| EmployeePostgres.UpdateKeepsCompany | internal/adapters/repository/postgres/employee_repository.go:65-98 | the update statement does not depend on the company, the creation time or the user snapshot, and does not name `company_id` |
| EmployeePostgres.ListStatementWithStatus | internal/adapters/repository/postgres/employee_repository.go:189-235 | with a status the query reads ` WHERE e.company_id = $1 AND e.status = $2 ... LIMIT $3 OFFSET $4` with the arguments company id, status, limit+1, offset |
| EmployeePostgres.ListStatementWithoutStatus | internal/adapters/repository/postgres/employee_repository.go:189-235 | without a status the query reads ` WHERE e.company_id = $1 ... LIMIT $2 OFFSET $3` with the arguments company id, limit+1, offset |
| EmployeePostgres.BuildListStatement | internal/adapters/repository/postgres/employee_repository.go:189-235 | the step-by-step building of conditions, placeholders and arguments yields the list statement |
| EmployeePostgres.EmployeeRepository.constructor | internal/adapters/repository/postgres/employee_repository.go:29-31 | the repository holds its pool |
| EmployeePostgres.EmployeeRepository.Create | internal/adapters/repository/postgres/employee_repository.go:34-62 | the insert-and-join runs on the context's queryer; the result is the scanned, translated row |
| EmployeePostgres.EmployeeRepository.Update | internal/adapters/repository/postgres/employee_repository.go:65-98 | the update-and-join runs on the context's queryer; the result is the scanned, translated row |
| EmployeePostgres.EmployeeRepository.Delete | internal/adapters/repository/postgres/employee_repository.go:101-111 | an engine error is translated; zero affected rows is `ErrEmployeeNotFound`; success exactly when a row was deleted |
| EmployeePostgres.EmployeeRepository.FindByID | internal/adapters/repository/postgres/employee_repository.go:114-143 | the lookup by id runs on the context's queryer; the result is the scanned, translated row |
| EmployeePostgres.EmployeeRepository.FindByCompanyAndCode | internal/adapters/repository/postgres/employee_repository.go:146-175 | the lookup by company and code runs on the context's queryer; the result is the scanned, translated row |
| EmployeePostgres.EmployeeRepository.List | internal/adapters/repository/postgres/employee_repository.go:178-264 | a blank company id, a non-positive limit or a negative offset fails, in that order, before any query; otherwise it issues the list statement and returns the query outcome cut at the `len == limit+1` fencepost |
| Sql.ReadExactPage | internal/adapters/repository/postgres/employee_repository.go:237-263 | a query, scan or `rows.Err()` failure is translated and returned; otherwise the page is the rows cut at the `len == limit+1` fencepost |
| EmployeePostgres.ListPageSound | internal/adapters/repository/postgres/employee_repository.go:257-263 | when the engine honours the LIMIT, the employee page equals the company/user fencepost; it holds at most `limit` employees, the leading rows in order, and its token parses to the next offset |
| ErrorMapping.ToStatusError | internal/adapters/grpc/handler/error_mapping.go:12-36 | nil maps to nil; otherwise the status carries the error and its code is the first case whose sentinels `errors.Is` finds, each case stated as an if-and-only-if |
| ErrorMapping.IsAnyIffMeets | internal/adapters/grpc/handler/error_mapping.go:16-32 | testing each sentinel of a case with `errors.Is` is testing whether the case meets the chain's reachable sentinels |
| ErrorMapping.ClassifyBySentinels | internal/adapters/grpc/handler/error_mapping.go:12-36 | the switch agrees with a set reading of the table for every error |
| ErrorMapping.WrappingKeepsCode | internal/adapters/grpc/handler/error_mapping.go:16-32 | wrapping an error with `%w` does not change its status code |
| ErrorMapping.WrappedInvalidIdIsInvalidArgument | internal/adapters/grpc/handler/error_mapping.go:16-28 | the services' wrapped `ErrInvalidID` for users and companies maps to InvalidArgument |
| ErrorMapping.EmployeeErrorsAreInternal | internal/adapters/grpc/handler/error_mapping.go:33-34 | an error with no user or company sentinel in its chain, such as any employee error, maps to Internal |
| ErrorMapping.FirstCaseWins | internal/adapters/grpc/handler/error_mapping.go:16-32 | when a chain holds sentinels of several cases, the earlier case wins |

## Left out

- I/O and the engine. The model does not capture the database engine's semantics: SQL text beyond the modelled fragments, `ORDER BY created_at DESC, id DESC`, isolation levels and the JOIN in the employee queries. The engine is a parameter of the repositories, and each result is stated relative to its answer.
- EmployeePostgres.ListPageSound assumes that the engine honours `LIMIT` (at most `limit+1` rows). Without that assumption the employee `len == limit+1` fencepost returns the whole oversize result; the lemma does not cover that case.
- Transaction.TransactionManager.Within does not model a panic inside the unit of work, or the deferred rollback that runs while it unwinds. Go panics are outside the model.
- Transaction.WithinReadOnly and Transaction.WithinReadWrite require a non-nil unit of work when the manager is nil. In Go that call panics on a nil function, and the model does not capture the panic.
- Context values are modelled only as far as the transaction key goes. Deadlines and cancellation are not modelled.
- Strings.ToLower lower-cases the ASCII letters only; Go's Unicode case mapping is not modelled. Strings.TrimSpace uses Go's Unicode white-space set.
- ErrorMapping.ToStatusError keeps the error as the status cause. It does not model the text of `err.Error()` that becomes the status message.
- The page token `offset + limit` is computed on unbounded integers. Go's 64-bit addition could wrap for offsets near the maximum, and the model does not capture that wrap-around.
- `net/mail.ParseAddress` is a function parameter of the user service. Its RFC 5322 grammar is not modelled.
- The services are modelled over the in-memory repositories that their tests define, not over the PostgreSQL ones.
  - The transaction they would open is reported as a ghost access mode.
  - The clock is a `now` parameter.
  - `cloneTime` pointer copying is value semantics here.
- The services' default clock (`realClock`) and the no-op transaction manager used when none is given are not part of this model.
- The gRPC handlers (`handler/user.go`, `company.go`, `employee.go`) are not part of this model. Neither is the second `toStatusError` that `handler/user.go` defines for the user handler.
- Clock.DayKey orders dates but is not Unix seconds. Only the order of times is used, for the employment-period check.
- The employee `errors.go` declares `ErrInvalidEmail`, `ErrInvalidLastName` and `ErrInvalidFirstName`. The model declares them in `EmployeeErrors.Kind`, but no modelled operation returns them, as no operation of the core does.
- Connection pooling, configuration, migrations and the server wiring are not part of this model.

=== FILE: clock.dfy ===
/**
 * Go's `time.Time`, kept opaque: an instant (an ordering key) together with
 * the calendar date it shows in its own location and in UTC. Dates are
 * (year, month, day) triples.
 */
module Clock {

  datatype Date = Date(year: int, month: int, day: int)

  /** An instant as the services and repositories see it. */
  datatype Time = Time(instant: int, local: Date, utc: Date)

  /** Strict calendar order; for two UTC midnights this is `time.Time.Before`. */
  predicate DateBefore(a: Date, b: Date) {
    a.year < b.year
    || (a.year == b.year && a.month < b.month)
    || (a.year == b.year && a.month == b.month && a.day < b.day)
  }

  /** The calendar order is a strict total order. */
  lemma DateOrderTotal(a: Date, b: Date)
    ensures !(DateBefore(a, b) && DateBefore(b, a))
    ensures !DateBefore(a, a)
    ensures a == b || DateBefore(a, b) || DateBefore(b, a)
  {
  }

  /** `t.Before(u)`: `t` is strictly earlier than `u`. */
  predicate Before(t: Time, u: Time) {
    t.instant < u.instant
  }

  /** A calendar date with a month in 1..12 and a day in 1..31. */
  predicate ValidDate(d: Date) {
    1 <= d.month <= 12 && 1 <= d.day <= 31
  }

  /**
   * The ordering key of a date's midnight: consecutive for the days of one
   * month, and increasing from month to month and from year to year.
   */
  function DayKey(d: Date): int {
    (d.year * 12 + (d.month - 1)) * 31 + (d.day - 1)
  }

  /**
   * `time.Date(y, m, d, 0, 0, 0, 0, time.UTC)`: midnight UTC of a date, which
   * shows that date both in its own location and in UTC.
   */
  function MidnightUTC(d: Date): (t: Time)
    ensures t.local == d && t.utc == d
  {
    Time(DayKey(d) * 86400, d, d)
  }

  /** Between two UTC midnights, `Before` is the calendar order of their dates. */
  lemma MidnightBefore(a: Date, b: Date)
    requires ValidDate(a) && ValidDate(b)
    ensures Before(MidnightUTC(a), MidnightUTC(b)) <==> DateBefore(a, b)
  {
    assert Before(MidnightUTC(a), MidnightUTC(b)) <==> DayKey(a) < DayKey(b);
    if a.year < b.year {
      assert DayKey(a) <= (a.year * 12 + 11) * 31 + 30;
      assert (a.year * 12 + 11) * 31 + 30 < (b.year * 12) * 31;
    } else if a.year == b.year && a.month < b.month {
      assert DayKey(a) <= (a.year * 12 + (a.month - 1)) * 31 + 30;
    } else if a.year > b.year {
      assert DayKey(b) <= (b.year * 12 + 11) * 31 + 30;
      assert (b.year * 12 + 11) * 31 + 30 < (a.year * 12) * 31;
    } else if a.year == b.year && a.month > b.month {
      assert DayKey(b) <= (b.year * 12 + (b.month - 1)) * 31 + 30;
    }
  }
}

=== FILE: company_core.dfy ===
/**
 * The company use cases: the entity, the input rules, the in-memory
 * repository the service's own tests run against (a map from id to company
 * plus the insertion order), and the service that validates, checks code
 * uniqueness and loads, modifies and saves companies through it.
 */
module CompanyCore {
  import opened Wrappers
  import opened Strings
  import opened Errors
  import opened Clock
  import opened Validation
  import opened Paging
  import opened CompanyErrors
  import opened Store
  import Transaction

  datatype Company = Company(
    id: string,
    name: string,
    code: string,
    status: string,
    description: Option<string>,
    createdAt: Time,
    updatedAt: Time)

  datatype ListCompaniesFilter = ListCompaniesFilter(limit: int, offset: int, status: Option<string>)

  datatype CreateCompanyInput = CreateCompanyInput(name: string, code: string, description: Option<string>)

  datatype UpdateCompanyInput = UpdateCompanyInput(
    id: string,
    name: Option<string>,
    code: Option<string>,
    status: Option<string>,
    description: Option<string>)

  datatype ListCompaniesInput = ListCompaniesInput(pageSize: int, pageToken: string, status: Option<string>)

  /** A company sentinel as an error value. */
  function Fail(kind: Kind): Error {
    Sentinel(CompanyErr(kind))
  }

  /** The error a blank id gives: `fmt.Errorf("id: %w", ErrInvalidID)`. */
  const BlankId: Error := Wrapped("id", Fail(InvalidID))

  // ---------------------------------------------------------------------
  // Input rules

  /** `normalizeName`: the trimmed name, or `ErrInvalidName` when blank. */
  function NormalizeName(raw: string): (r: Result<string, Error>)
    ensures r.Err? <==> AllSpace(raw)
    ensures r.Err? ==> r.error == Fail(InvalidName)
    ensures r.Ok? ==> r.value != "" && r.value == TrimSpace(raw)
  {
    BlankIffAllSpace(raw);
    match NormalizeRequired(raw)
    case None => Err(Fail(InvalidName))
    case Some(name) => Ok(name)
  }

  /** `normalizeCode`: the trimmed, lower-cased code if it matches the pattern. */
  function NormalizeCode(raw: string): (r: Result<string, Error>)
    ensures r.Ok? ==> MatchesCodePattern(r.value) && r.value == ToLower(TrimSpace(raw))
    ensures r.Err? <==> !MatchesCodePattern(ToLower(TrimSpace(raw)))
    ensures r.Err? ==> r.error == Fail(InvalidCode)
  {
    match NormalizeCodeText(raw)
    case None => Err(Fail(InvalidCode))
    case Some(code) => Ok(code)
  }

  /**
   * `normalizeDescription`: absent stays absent, blank becomes absent,
   * anything else is kept trimmed.
   */
  function NormalizeDescription(raw: Option<string>): (r: Option<string>)
    ensures r.None? <==> raw.None? || AllSpace(raw.value)
    ensures r.Some? ==> r.value == TrimSpace(raw.value) && r.value != ""
  {
    match raw
    case None => None
    case Some(text) => NormalizeRequired(text)
  }

  /** The company service's `normalizePageSize`. */
  function PageSize(pageSize: int): (r: Result<int, Error>)
    ensures r.Ok? ==> 1 <= r.value <= MaxPageSize
    ensures r.Err? <==> pageSize > MaxPageSize
    ensures r.Err? ==> r.error == Fail(InvalidPageSize)
    ensures pageSize <= 0 ==> r == Ok(DefaultPageSize)
    ensures 0 < pageSize <= MaxPageSize ==> r == Ok(pageSize)
  {
    match NormalizePageSize(pageSize)
    case None => Err(Fail(InvalidPageSize))
    case Some(size) => Ok(size)
  }

  /** The company service's `parsePageToken`. */
  function PageToken(token: string): (r: Result<nat, Error>)
    ensures r.Ok? <==> ParsePageToken(token).Some?
    ensures r.Ok? ==> r.value == ParsePageToken(token).value
    ensures r.Err? ==> r.error == Fail(InvalidPageToken)
  {
    match ParsePageToken(token)
    case None => Err(Fail(InvalidPageToken))
    case Some(offset) => Ok(offset)
  }

  // ---------------------------------------------------------------------
  // Store-level facts

  /** Some stored company already uses `code`. */
  predicate CodeTaken(companies: map<string, Company>, code: string) {
    exists id :: id in companies && companies[id].code == code
  }

  /** A company other than `self` already uses `code`. */
  predicate CodeTakenByOther(companies: map<string, Company>, self: string, code: string) {
    exists id :: id in companies && id != self && companies[id].code == code
  }

  /** No two stored companies share a code. */
  predicate CodesUnique(companies: map<string, Company>) {
    forall a, b :: a in companies && b in companies && a != b ==> companies[a].code != companies[b].code
  }

  /** The companies of `all` that the optional status filter keeps. */
  function WithStatus(all: seq<Company>, status: Option<string>): (r: seq<Company>)
    ensures |r| <= |all|
    ensures forall c :: c in r ==> c in all && (status.None? || c.status == status.value)
    ensures forall c :: c in all && (status.None? || c.status == status.value) ==> c in r
  {
    if all == [] then []
    else
      var last := all[|all| - 1];
      WithStatus(all[..|all| - 1], status) + (if status.None? || last.status == status.value then [last] else [])
  }

  /** Extending the input by one record extends the filtered sequence by that record when it is kept. */
  lemma WithStatusStep(all: seq<Company>, i: nat, status: Option<string>)
    requires i < |all|
    ensures WithStatus(all[..i + 1], status) == WithStatus(all[..i], status) + (if status.None? || all[i].status == status.value then [all[i]] else [])
  {
    assert all[..i + 1][..i] == all[..i];
  }

  // ---------------------------------------------------------------------
  // Update merge

  /**
   * What `UpdateCompany` makes of the stored company: every supplied field
   * validated and applied in the source's order (name, code with its
   * uniqueness check when it changes, status, description), then the
   * update time.
   */
  function MergeCompany(existing: Company, input: UpdateCompanyInput, now: Time, companies: map<string, Company>): Result<Company, Error> {
    if input.name.Some? && NormalizeName(input.name.value).Err? then Err(Fail(InvalidName))
    else if input.code.Some? && NormalizeCode(input.code.value).Err? then Err(Fail(InvalidCode))
    else if input.code.Some? && NormalizeCode(input.code.value).value != existing.code
         && CodeTaken(companies, NormalizeCode(input.code.value).value) then Err(Fail(CodeAlreadyExists))
    else if input.status.Some? && !IsValidStatus(input.status.value) then Err(Fail(InvalidStatus))
    else
      Ok(existing.(
        name := if input.name.Some? then NormalizeName(input.name.value).value else existing.name,
        code := if input.code.Some? then NormalizeCode(input.code.value).value else existing.code,
        status := if input.status.Some? then input.status.value else existing.status,
        description := if input.description.Some? then NormalizeDescription(input.description) else existing.description,
        updatedAt := now))
  }

  /**
   * An update keeps the id and creation time, stamps `now`, and changes only
   * the fields that were supplied, each in its normalised form; a supplied
   * blank description clears it.
   */
  lemma MergeChangesOnlySupplied(existing: Company, input: UpdateCompanyInput, now: Time, companies: map<string, Company>)
    requires MergeCompany(existing, input, now, companies).Ok?
    ensures var c := MergeCompany(existing, input, now, companies).value;
      && c.id == existing.id && c.createdAt == existing.createdAt && c.updatedAt == now
      && (input.name.None? ==> c.name == existing.name)
      && (input.name.Some? ==> c.name == TrimSpace(input.name.value) && c.name != "")
      && (input.code.None? ==> c.code == existing.code)
      && (input.code.Some? ==> c.code == ToLower(TrimSpace(input.code.value)) && MatchesCodePattern(c.code))
      && (input.status.None? ==> c.status == existing.status)
      && (input.status.Some? ==> c.status == input.status.value && IsValidStatus(c.status))
      && (input.description.None? ==> c.description == existing.description)
      && (input.description.Some? && AllSpace(input.description.value) ==> c.description.None?)
      && (input.description.Some? && !AllSpace(input.description.value) ==>
            c.description == Some(TrimSpace(input.description.value)))
  {
  }

  /** Each rejection of an update names the field that was wrong. */
  lemma MergeFailures(existing: Company, input: UpdateCompanyInput, now: Time, companies: map<string, Company>)
    ensures var r := MergeCompany(existing, input, now, companies);
      && (input.name.Some? && AllSpace(input.name.value) ==> r == Err(Fail(InvalidName)))
      && (r == Err(Fail(InvalidCode)) ==> input.code.Some? && !MatchesCodePattern(ToLower(TrimSpace(input.code.value))))
      && (r == Err(Fail(CodeAlreadyExists)) ==>
            && input.code.Some?
            && NormalizeCode(input.code.value).value != existing.code
            && CodeTaken(companies, NormalizeCode(input.code.value).value))
      && (r == Err(Fail(InvalidStatus)) ==> input.status.Some? && !IsValidStatus(input.status.value))
      && (r.Err? ==> r.error in {Fail(InvalidName), Fail(InvalidCode), Fail(CodeAlreadyExists), Fail(InvalidStatus)})
  {
  }

  /**
   * Saving a merged company keeps the codes unique: the uniqueness check
   * runs exactly when the code changes.
   */
  lemma MergeKeepsCodesUnique(existing: Company, input: UpdateCompanyInput, now: Time, companies: map<string, Company>)
    requires CodesUnique(companies)
    requires existing.id in companies && companies[existing.id] == existing
    requires MergeCompany(existing, input, now, companies).Ok?
    ensures var c := MergeCompany(existing, input, now, companies).value;
      !CodeTakenByOther(companies, existing.id, c.code) && CodesUnique(companies[existing.id := c])
  {
    var c := MergeCompany(existing, input, now, companies).value;
    var after := companies[existing.id := c];
    forall other | other in companies && other != existing.id
      ensures companies[other].code != c.code
    {
      if c.code == existing.code {
        assert companies[other].code != companies[existing.id].code;
      } else {
        assert !CodeTaken(companies, c.code);
      }
    }
    forall a, b | a in after && b in after && a != b
      ensures after[a].code != after[b].code
    {
      if a == existing.id {
        assert companies[b].code != c.code;
      } else if b == existing.id {
        assert companies[a].code != c.code;
      }
    }
  }

  // ---------------------------------------------------------------------
  // The in-memory repository

  const IdPrefix: string := "company-"

  /** The id of the `k`-th company created: `fmt.Sprintf("company-%d", k)`. */
  function IdFor(k: nat): string {
    SequentialId(IdPrefix, k)
  }

  /** The fake repository of the company service's tests. */
  class MemoryRepository {
    var companies: map<string, Company>
    var order: seq<string>
    var sequence: nat

    ghost predicate Valid()
      reads this
    {
      && Distinct(order)
      && (forall id :: id in companies <==> id in order)
      && (forall id :: id in companies ==> companies[id].id == id)
      && (forall id :: id in companies ==> exists k :: 1 <= k <= sequence && IdFor(k) == id)
      && CodesUnique(companies)
    }

    /** The stored companies in insertion order. */
    ghost function Listing(): (r: seq<Company>)
      reads this
      requires Valid()
      ensures |r| == |order|
    {
      InOrder(companies, order)
    }

    constructor ()
      ensures Valid() && companies == map[] && order == [] && sequence == 0
    {
      companies, order, sequence := map[], [], 0;
    }

    /** `Create`: refuse a used code, otherwise store under the next id. */
    method Create(c: Company) returns (r: Result<Company, Error>)
      requires Valid()
      modifies this
      ensures Valid()
      ensures CodeTaken(old(companies), c.code) ==>
        r == Err(Fail(CodeAlreadyExists)) && companies == old(companies) && order == old(order)
      ensures !CodeTaken(old(companies), c.code) ==>
        && r.Ok? && r.value == c.(id := r.value.id)
        && r.value.id !in old(companies)
        && companies == old(companies)[r.value.id := r.value]
        && order == old(order) + [r.value.id]
    {
      if CodeTaken(companies, c.code) {
        return Err(Fail(CodeAlreadyExists));
      }
      var id := IdFor(sequence + 1);
      forall other | other in companies ensures other != id {
        var k :| 1 <= k <= sequence && IdFor(k) == other;
        if other == id {
          SequentialIdInjective(IdPrefix, k, sequence + 1);
        }
      }
      assert id !in order;
      sequence := sequence + 1;
      var stored := c.(id := id);
      companies := companies[id := stored];
      order := order + [id];
      r := Ok(stored);
      assert IdFor(sequence) == id;
    }

    /** `Update`: the company must exist and its code must not be another's. */
    method Update(c: Company) returns (r: Result<Company, Error>)
      requires Valid()
      modifies this
      ensures Valid()
      ensures order == old(order) && sequence == old(sequence)
      ensures c.id !in old(companies) ==> r == Err(Fail(CompanyNotFound)) && companies == old(companies)
      ensures c.id in old(companies) && CodeTakenByOther(old(companies), c.id, c.code) ==>
        r == Err(Fail(CodeAlreadyExists)) && companies == old(companies)
      ensures c.id in old(companies) && !CodeTakenByOther(old(companies), c.id, c.code) ==>
        r == Ok(c) && companies == old(companies)[c.id := c]
    {
      if c.id !in companies {
        return Err(Fail(CompanyNotFound));
      }
      if CodeTakenByOther(companies, c.id, c.code) {
        return Err(Fail(CodeAlreadyExists));
      }
      var before := companies;
      companies := companies[c.id := c];
      forall a, b | a in companies && b in companies && a != b
        ensures companies[a].code != companies[b].code
      {
        if a == c.id {
          assert before[b].code != c.code;
        } else if b == c.id {
          assert before[a].code != c.code;
        }
      }
      r := Ok(c);
    }

    /** `Delete`: drop the company from the map and from the order list. */
    method Delete(id: string) returns (err: Option<Error>)
      requires Valid()
      modifies this
      ensures Valid()
      ensures sequence == old(sequence)
      ensures id !in old(companies) ==>
        err == Some(Fail(CompanyNotFound)) && companies == old(companies) && order == old(order)
      ensures id in old(companies) ==>
        && err.None?
        && companies == old(companies) - {id}
        && order == Without(old(order), id)
    {
      if id !in companies {
        return Some(Fail(CompanyNotFound));
      }
      var idx := IndexOf(order, id);
      WithoutAt(order, idx);
      WithoutKeepsDistinct(order, idx);
      var rest := order[..idx] + order[idx + 1..];
      companies := companies - {id};
      order := rest;
      err := None;
    }

    /** `FindByID`. */
    method FindByID(id: string) returns (r: Result<Company, Error>)
      ensures id in companies ==> r == Ok(companies[id])
      ensures id !in companies ==> r == Err(Fail(CompanyNotFound))
    {
      if id in companies {
        r := Ok(companies[id]);
      } else {
        r := Err(Fail(CompanyNotFound));
      }
    }

    /** `FindByCode`: the company using `code`, if any. */
    method FindByCode(code: string) returns (r: Result<Company, Error>)
      requires Valid()
      ensures r.Ok? <==> CodeTaken(companies, code)
      ensures r.Ok? ==> r.value.id in companies && companies[r.value.id] == r.value && r.value.code == code
      ensures r.Err? ==> r.error == Fail(CompanyNotFound)
    {
      if CodeTaken(companies, code) {
        var id :| id in companies && companies[id].code == code;
        r := Ok(companies[id]);
      } else {
        r := Err(Fail(CompanyNotFound));
      }
    }

    /** The loop of `List` that keeps, in order, the companies with the wanted status. */
    method Matching(status: Option<string>) returns (filtered: seq<Company>)
      requires forall id :: id in order ==> id in companies
      ensures filtered == WithStatus(InOrder(companies, order), status)
    {
      ghost var all := InOrder(companies, order);
      filtered := [];
      var i := 0;
      while i < |order|
        invariant 0 <= i <= |order|
        invariant filtered == WithStatus(all[..i], status)
      {
        var c := companies[order[i]];
        assert c == all[i];
        WithStatusStep(all, i, status);
        if status.None? || c.status == status.value {
          filtered := filtered + [c];
        }
        i := i + 1;
      }
      assert all[..i] == all;
    }

    /**
     * `List`: the companies in insertion order that match the status filter,
     * cut to the window `[offset, offset + limit)`, with the end offset as
     * the next token while companies remain.
     */
    method List(filter: ListCompaniesFilter) returns (page: Page<Company>)
      requires Valid()
      requires filter.limit >= 0 && filter.offset >= 0
      ensures page == OffsetWindow(WithStatus(Listing(), filter.status), filter.limit, filter.offset)
    {
      var filtered := Matching(filter.status);
      page := TakeWindow(filtered, filter.limit, filter.offset);
    }
  }

  // ---------------------------------------------------------------------
  // The service

  /**
   * The company `Service` over the in-memory repository. The clock is the
   * `now` argument; `txMode` tells which transaction the call would run in
   * (None when it fails before opening one).
   */
  class Service {
    const repo: MemoryRepository

    constructor (repo: MemoryRepository)
      ensures this.repo == repo
    {
      this.repo := repo;
    }

    /** `ensureCodeNotExists`: `ErrCodeAlreadyExists` exactly when the code is used. */
    method EnsureCodeNotExists(code: string) returns (err: Option<Error>)
      requires repo.Valid()
      ensures err.None? <==> !CodeTaken(repo.companies, code)
      ensures err.Some? ==> err.value == Fail(CodeAlreadyExists)
    {
      var found := repo.FindByCode(code);
      match found {
        case Ok(_) => err := Some(Fail(CodeAlreadyExists));
        case Err(e) => err := if Is(e, CompanyErr(CompanyNotFound)) then None else Some(e);
      }
    }

    /** `CreateCompany`. */
    method CreateCompany(input: CreateCompanyInput, now: Time)
      returns (r: Result<Company, Error>, ghost txMode: Option<Transaction.AccessMode>)
      requires repo.Valid()
      modifies repo
      ensures repo.Valid()
      ensures NormalizeName(input.name).Err? ==>
        r == Err(Fail(InvalidName)) && txMode.None? && repo.companies == old(repo.companies)
          && repo.order == old(repo.order)
      ensures NormalizeName(input.name).Ok? && NormalizeCode(input.code).Err? ==>
        r == Err(Fail(InvalidCode)) && txMode.None? && repo.companies == old(repo.companies)
          && repo.order == old(repo.order)
      ensures NormalizeName(input.name).Ok? && NormalizeCode(input.code).Ok? ==>
        var code := NormalizeCode(input.code).value;
        && txMode == Some(Transaction.ReadWrite)
        && (CodeTaken(old(repo.companies), code) ==>
              r == Err(Fail(CodeAlreadyExists)) && repo.companies == old(repo.companies)
                && repo.order == old(repo.order))
        && (!CodeTaken(old(repo.companies), code) ==>
              && r.Ok?
              && r.value == Company(r.value.id, NormalizeName(input.name).value, code, StatusActive,
                                    NormalizeDescription(input.description), now, now)
              && r.value.id !in old(repo.companies)
              && repo.companies == old(repo.companies)[r.value.id := r.value]
              && repo.order == old(repo.order) + [r.value.id])
    {
      txMode := None;
      var name := NormalizeName(input.name);
      if name.Err? {
        return Err(name.error), None;
      }
      var code := NormalizeCode(input.code);
      if code.Err? {
        return Err(code.error), None;
      }
      var description := NormalizeDescription(input.description);

      txMode := Some(Transaction.ReadWrite);
      var taken := EnsureCodeNotExists(code.value);
      if taken.Some? {
        return Err(taken.value), txMode;
      }
      var company := Company("", name.value, code.value, StatusActive, description, now, now);
      r := repo.Create(company);
    }

    /** The field-by-field merge inside the `UpdateCompany` transaction, before the save. */
    method ApplyChanges(loaded: Company, input: UpdateCompanyInput, now: Time) returns (r: Result<Company, Error>)
      requires repo.Valid()
      ensures r == MergeCompany(loaded, input, now, repo.companies)
    {
      var existing := loaded;

      if input.name.Some? {
        var name := NormalizeName(input.name.value);
        if name.Err? {
          return Err(name.error);
        }
        existing := existing.(name := name.value);
      }

      if input.code.Some? {
        var code := NormalizeCode(input.code.value);
        if code.Err? {
          return Err(code.error);
        }
        if code.value != existing.code {
          var taken := EnsureCodeNotExists(code.value);
          if taken.Some? {
            return Err(taken.value);
          }
          existing := existing.(code := code.value);
        }
      }

      if input.status.Some? {
        if !IsValidStatus(input.status.value) {
          return Err(Fail(InvalidStatus));
        }
        existing := existing.(status := input.status.value);
      }

      if input.description.Some? {
        existing := existing.(description := NormalizeDescription(input.description));
      }

      existing := existing.(updatedAt := now);
      r := Ok(existing);
    }

    /** `UpdateCompany`: load, merge the supplied fields, save. */
    method UpdateCompany(input: UpdateCompanyInput, now: Time)
      returns (r: Result<Company, Error>, ghost txMode: Option<Transaction.AccessMode>)
      requires repo.Valid()
      modifies repo
      ensures repo.Valid()
      ensures repo.order == old(repo.order)
      ensures IsBlank(input.id) ==> r == Err(BlankId) && txMode.None? && repo.companies == old(repo.companies)
      ensures !IsBlank(input.id) ==> txMode == Some(Transaction.ReadWrite)
      ensures !IsBlank(input.id) && input.id !in old(repo.companies) ==>
        r == Err(Fail(CompanyNotFound)) && repo.companies == old(repo.companies)
      ensures !IsBlank(input.id) && input.id in old(repo.companies) ==>
        && r == MergeCompany(old(repo.companies)[input.id], input, now, old(repo.companies))
        && repo.companies == (if r.Ok? then old(repo.companies)[input.id := r.value] else old(repo.companies))
    {
      if IsBlank(input.id) {
        return Err(BlankId), None;
      }
      txMode := Some(Transaction.ReadWrite);
      ghost var before := repo.companies;

      var found := repo.FindByID(input.id);
      if found.Err? {
        return Err(found.error), txMode;
      }
      assert found.value == before[input.id] && found.value.id == input.id;
      var merged := ApplyChanges(found.value, input, now);
      if merged.Err? {
        return Err(merged.error), txMode;
      }
      MergeChangesOnlySupplied(before[input.id], input, now, before);
      MergeKeepsCodesUnique(before[input.id], input, now, before);
      assert merged.value.id == input.id && !CodeTakenByOther(before, input.id, merged.value.code);
      r := repo.Update(merged.value);
    }

    /** `DeleteCompany`. */
    method DeleteCompany(id: string) returns (err: Option<Error>, ghost txMode: Option<Transaction.AccessMode>)
      requires repo.Valid()
      modifies repo
      ensures repo.Valid()
      ensures IsBlank(id) ==>
        err == Some(BlankId) && txMode.None? && repo.companies == old(repo.companies) && repo.order == old(repo.order)
      ensures !IsBlank(id) ==> txMode == Some(Transaction.ReadWrite)
      ensures !IsBlank(id) && id !in old(repo.companies) ==>
        err == Some(Fail(CompanyNotFound)) && repo.companies == old(repo.companies)
          && repo.order == old(repo.order)
      ensures !IsBlank(id) && id in old(repo.companies) ==>
        err.None? && repo.companies == old(repo.companies) - {id} && repo.order == Without(old(repo.order), id)
    {
      if IsBlank(id) {
        return Some(BlankId), None;
      }
      txMode := Some(Transaction.ReadWrite);
      err := repo.Delete(id);
    }

    /** `GetCompany`. */
    method GetCompany(id: string) returns (r: Result<Company, Error>, ghost txMode: Option<Transaction.AccessMode>)
      ensures IsBlank(id) ==> r == Err(BlankId) && txMode.None?
      ensures !IsBlank(id) ==> txMode == Some(Transaction.ReadOnly)
      ensures !IsBlank(id) && id in repo.companies ==> r == Ok(repo.companies[id])
      ensures !IsBlank(id) && id !in repo.companies ==> r == Err(Fail(CompanyNotFound))
    {
      if IsBlank(id) {
        return Err(BlankId), None;
      }
      txMode := Some(Transaction.ReadOnly);
      r := repo.FindByID(id);
    }

    /**
     * `ListCompanies`: page size, then token, then status are checked before
     * the repository is asked, with the normalised size and parsed offset.
     */
    method ListCompanies(input: ListCompaniesInput)
      returns (r: Result<Page<Company>, Error>, ghost txMode: Option<Transaction.AccessMode>)
      requires repo.Valid()
      ensures PageSize(input.pageSize).Err? ==> r == Err(Fail(InvalidPageSize)) && txMode.None?
      ensures PageSize(input.pageSize).Ok? && PageToken(input.pageToken).Err? ==>
        r == Err(Fail(InvalidPageToken)) && txMode.None?
      ensures PageSize(input.pageSize).Ok? && PageToken(input.pageToken).Ok? ==>
        && (input.status.Some? && !IsValidStatus(input.status.value) ==> r == Err(Fail(InvalidStatus)) && txMode.None?)
        && (input.status.None? || IsValidStatus(input.status.value) ==>
              && txMode == Some(Transaction.ReadOnly)
              && r == Ok(OffsetWindow(WithStatus(repo.Listing(), input.status),
                                      PageSize(input.pageSize).value, PageToken(input.pageToken).value)))
      ensures r.Ok? ==> |r.value.items| <= MaxPageSize
    {
      var limit := PageSize(input.pageSize);
      if limit.Err? {
        return Err(limit.error), None;
      }
      var offset := PageToken(input.pageToken);
      if offset.Err? {
        return Err(offset.error), None;
      }
      if input.status.Some? && !IsValidStatus(input.status.value) {
        return Err(Fail(InvalidStatus)), None;
      }
      txMode := Some(Transaction.ReadOnly);
      var page := repo.List(ListCompaniesFilter(limit.value, offset.value, input.status));
      r := Ok(page);
    }
  }
}

=== FILE: company_postgres.dfy ===
/**
 * The PostgreSQL company repository: every statement goes to the queryer
 * the context resolves (the ambient transaction if there is one, else the
 * pool); rows are scanned into companies, "no rows" becomes
 * `ErrCompanyNotFound` and a unique violation `ErrCodeAlreadyExists`.
 */
module CompanyPostgres {
  import opened Wrappers
  import opened Strings
  import opened Errors
  import opened Clock
  import opened Transaction
  import opened Sql
  import opened Paging
  import opened CompanyErrors
  import CompanyCore

  type Company = CompanyCore.Company

  function Fail(kind: Kind): Error {
    CompanyCore.Fail(kind)
  }

  /** `nullableString`: an absent text is SQL NULL, a present one is sent as is. */
  function NullableString(value: Option<string>): (r: Arg)
    ensures value.None? <==> r.Null?
    ensures value.Some? ==> r == Text(value.value)
  {
    match value
    case None => Null
    case Some(text) => Text(text)
  }

  /** `sql.NullString`: the text and whether the column was not NULL. */
  datatype NullString = NullString(text: string, valid: bool)

  /** The seven columns `scanCompany` reads, the description nullable. */
  datatype CompanyColumns = CompanyColumns(
    id: string, name: string, code: string, status: string,
    description: NullString, createdAt: Time, updatedAt: Time)

  /** What a nullable text column holds after `arg` was written to it. */
  function StoredText(arg: Arg): (r: NullString)
    ensures r.valid <==> arg.Text?
  {
    match arg
    case Text(text) => NullString(text, true)
    case _ => NullString("", false)
  }

  /** The columns of the row the database keeps for `c`, its description written by `nullableString`. */
  function StoredColumns(c: Company): CompanyColumns {
    CompanyColumns(c.id, c.name, c.code, c.status, StoredText(NullableString(c.description)), c.createdAt, c.updatedAt)
  }

  /**
   * `scanCompany`: "no rows" becomes `ErrCompanyNotFound`, any other scan
   * error is passed on, and the columns become the company, a NULL
   * description an absent one and a non-NULL one its text.
   */
  function ScanCompany(row: Row<CompanyColumns>): (r: Result<Company, Error>)
    ensures row.Columns? <==> r.Ok?
    ensures row.Columns? ==>
      var c := row.columns;
      && r.value.id == c.id && r.value.name == c.name && r.value.code == c.code && r.value.status == c.status
      && r.value.createdAt == c.createdAt && r.value.updatedAt == c.updatedAt
      && (r.value.description.Some? <==> c.description.valid)
      && (c.description.valid ==> r.value.description.value == c.description.text)
    ensures row.ScanError? && Is(row.err, NoRows) ==> r == Err(Fail(CompanyNotFound))
    ensures row.ScanError? && !Is(row.err, NoRows) ==> r == Err(row.err)
  {
    match row
    case ScanError(e) => if Is(e, NoRows) then Err(Fail(CompanyNotFound)) else Err(e)
    case Columns(c) =>
      var description := if c.description.valid then Some(c.description.text) else None;
      Ok(CompanyCore.Company(c.id, c.name, c.code, c.status, description, c.createdAt, c.updatedAt))
  }

  /** `translateCompanyPgError`: a unique violation anywhere in the chain is a duplicate code. */
  function TranslateCompanyPgError(err: Error): (r: Error)
    ensures AsPg(err).Some? && AsPg(err).value.code == UniqueViolation ==> r == Fail(CodeAlreadyExists)
    ensures !(AsPg(err).Some? && AsPg(err).value.code == UniqueViolation) ==> r == err
  {
    match AsPg(err)
    case Some(pg) => if pg.code == UniqueViolation then Fail(CodeAlreadyExists) else err
    case None => err
  }

  /** A single-row statement's result: scan, then translate any error. */
  function FromRow(row: Row<CompanyColumns>): Result<Company, Error> {
    match ScanCompany(row)
    case Ok(c) => Ok(c)
    case Err(e) => Err(TranslateCompanyPgError(e))
  }

  /**
   * The error table of the single-row statements: a missing row is
   * `ErrCompanyNotFound`, a unique violation `ErrCodeAlreadyExists`, any
   * other failure is passed on unchanged.
   */
  lemma FromRowErrors(row: Row<CompanyColumns>)
    ensures FromRow(row).Ok? <==> row.Columns?
    ensures row.ScanError? && Is(row.err, NoRows) ==> FromRow(row) == Err(Fail(CompanyNotFound))
    ensures row.ScanError? && !Is(row.err, NoRows) && AsPg(row.err).Some? && AsPg(row.err).value.code == UniqueViolation
      ==> FromRow(row) == Err(Fail(CodeAlreadyExists))
    ensures row.ScanError? && !Is(row.err, NoRows) && !(AsPg(row.err).Some? && AsPg(row.err).value.code == UniqueViolation)
      ==> FromRow(row) == Err(row.err)
  {
  }

  /**
   * The description survives a round trip: what `nullableString` writes is
   * what `scanCompany` reads back.
   */
  lemma DescriptionRoundTrip(c: Company)
    ensures ScanCompany(Columns(StoredColumns(c))) == Ok(c)
  {
  }

  /** Translating twice is translating once. */
  lemma TranslateIdempotent(err: Error)
    ensures TranslateCompanyPgError(TranslateCompanyPgError(err)) == TranslateCompanyPgError(err)
  {
  }

  const InsertColumns: seq<string> := ["name", "code", "status", "description", "created_at", "updated_at"]
  const UpdateColumns: seq<string> := ["name", "code", "status", "description", "updated_at"]

  /** The INSERT of `Create`: every field but the id, which the database assigns. */
  function CreateStatement(c: Company): Statement {
    Statement(InsertReturning(Companies, InsertColumns),
              [Text(c.name), Text(c.code), Text(c.status), NullableString(c.description), At(c.createdAt), At(c.updatedAt)])
  }

  /** The UPDATE of `Update`: every field but id and creation time, keyed by id. */
  function UpdateStatement(c: Company): Statement {
    Statement(UpdateReturning(Companies, UpdateColumns, "id"),
              [Text(c.name), Text(c.code), Text(c.status), NullableString(c.description), At(c.updatedAt), Text(c.id)])
  }

  /** An update never writes the creation time. */
  lemma UpdateKeepsCreatedAt(c: Company, t: Time)
    ensures UpdateStatement(c) == UpdateStatement(c.(createdAt := t))
    ensures "created_at" !in UpdateColumns
  {
    assert UpdateColumns[4] == "updated_at";
  }

  /**
   * The list query of `List`: an optional `status = $1` condition, then the
   * LIMIT (one more than the page) and OFFSET placeholders numbered after
   * the filter arguments.
   */
  function ListStatement(filter: CompanyCore.ListCompaniesFilter): Statement {
    var filterArgs := if filter.status.Some? then [Text(filter.status.value)] else [];
    var conditions := if filter.status.Some? then ["status = " + Placeholder(1)] else [];
    Statement(SelectPage(Companies, WhereClause(conditions), Placeholder(|filterArgs| + 1), Placeholder(|filterArgs| + 2)),
              filterArgs + [Int(filter.limit + 1), Int(filter.offset)])
  }

  /**
   * The list arguments are numbered consecutively: the last two are the
   * buffered limit and the offset, bound to the last two placeholders, and
   * the two placeholders differ.
   */
  lemma ListStatementNumbering(filter: CompanyCore.ListCompaniesFilter)
    ensures var st := ListStatement(filter);
      && |st.args| >= 2
      && st.args[|st.args| - 2] == Int(filter.limit + 1)
      && st.args[|st.args| - 1] == Int(filter.offset)
      && st.command.limitPlaceholder == Placeholder(|st.args| - 1)
      && st.command.offsetPlaceholder == Placeholder(|st.args|)
      && st.command.limitPlaceholder != st.command.offsetPlaceholder
      && (filter.status.None? <==> st.command.whereClause == "")
  {
    var st := ListStatement(filter);
    if st.command.limitPlaceholder == st.command.offsetPlaceholder {
      PlaceholderInjective(|st.args| - 1, |st.args|);
    }
  }

  /** The exact fragments for a status filter: ` WHERE status = $1`, `$2`, `$3`. */
  lemma ListStatementWithStatus(status: string, limit: int, offset: int)
    ensures var st := ListStatement(CompanyCore.ListCompaniesFilter(limit, offset, Some(status)));
      && st.command.whereClause == " WHERE status = $1"
      && st.command.limitPlaceholder == "$2"
      && st.command.offsetPlaceholder == "$3"
      && st.args == [Text(status), Int(limit + 1), Int(offset)]
  {
    assert Itoa(1) == "1" && Itoa(2) == "2" && Itoa(3) == "3";
    assert JoinWith(["status = $1"], " AND ") == "status = $1";
  }

  /** The exact fragments without a filter: no WHERE, `$1`, `$2`. */
  lemma ListStatementWithoutStatus(limit: int, offset: int)
    ensures var st := ListStatement(CompanyCore.ListCompaniesFilter(limit, offset, None));
      && st.command.whereClause == ""
      && st.command.limitPlaceholder == "$1"
      && st.command.offsetPlaceholder == "$2"
      && st.args == [Int(limit + 1), Int(offset)]
  {
    assert Itoa(1) == "1" && Itoa(2) == "2";
  }

  /**
   * The query text and arguments `List` assembles step by step: the status
   * condition, when given, takes the first placeholder.
   */
  method BuildListStatement(filter: CompanyCore.ListCompaniesFilter) returns (statement: Statement)
    ensures statement == ListStatement(filter)
  {
    var limitWithBuffer := filter.limit + 1;
    var args: seq<Arg> := [];
    var conditions: seq<string> := [];

    if filter.status.Some? {
      var placeholder := Placeholder(|args| + 1);
      conditions := conditions + ["status = " + placeholder];
      args := args + [Text(filter.status.value)];
    }
    ghost var expected := ListStatement(filter);

    var whereClause := "";
    if |conditions| > 0 {
      whereClause := " WHERE " + JoinWith(conditions, " AND ");
    }
    assert whereClause == expected.command.whereClause;

    var limitPlaceholder := Placeholder(|args| + 1);
    args := args + [Int(limitWithBuffer)];
    var offsetPlaceholder := Placeholder(|args| + 1);
    args := args + [Int(filter.offset)];

    assert args == expected.args;
    statement := Statement(SelectPage(Companies, whereClause, limitPlaceholder, offsetPlaceholder), args);
  }

  /** `CompanyRepository` over a pool queryer and the engine that answers it. */
  class CompanyRepository {
    const pool: Queryer
    const db: Database<CompanyColumns>

    constructor (pool: Queryer, db: Database<CompanyColumns>)
      ensures this.pool == pool && this.db == db
    {
      this.pool := pool;
      this.db := db;
    }

    /** `Create`. */
    method Create(ctx: Context, c: Company) returns (r: Result<Company, Error>, issued: Request)
      ensures issued == Request(QueryerFromContext(ctx, pool), CreateStatement(c))
      ensures r == FromRow(db.queryRow(issued))
    {
      var exec := QueryerFromContext(ctx, pool);
      issued := Request(exec, CreateStatement(c));
      var row := db.queryRow(issued);
      var created := ScanCompany(row);
      if created.Err? {
        return Err(TranslateCompanyPgError(created.error)), issued;
      }
      r := created;
    }

    /** `Update`. */
    method Update(ctx: Context, c: Company) returns (r: Result<Company, Error>, issued: Request)
      ensures issued == Request(QueryerFromContext(ctx, pool), UpdateStatement(c))
      ensures r == FromRow(db.queryRow(issued))
    {
      var exec := QueryerFromContext(ctx, pool);
      issued := Request(exec, UpdateStatement(c));
      var row := db.queryRow(issued);
      var updated := ScanCompany(row);
      if updated.Err? {
        return Err(TranslateCompanyPgError(updated.error)), issued;
      }
      r := updated;
    }

    /** `Delete`: `ErrCompanyNotFound` exactly when no row was affected. */
    method Delete(ctx: Context, id: string) returns (err: Option<Error>, issued: Request)
      ensures issued == Request(QueryerFromContext(ctx, pool), Statement(DeleteById(Companies), [Text(id)]))
      ensures db.exec(issued).Err? ==> err == Some(TranslateCompanyPgError(db.exec(issued).error))
      ensures db.exec(issued) == Ok(0) ==> err == Some(Fail(CompanyNotFound))
      ensures err.None? <==> db.exec(issued).Ok? && db.exec(issued).value > 0
    {
      var exec := QueryerFromContext(ctx, pool);
      issued := Request(exec, Statement(DeleteById(Companies), [Text(id)]));
      var tag := db.exec(issued);
      if tag.Err? {
        return Some(TranslateCompanyPgError(tag.error)), issued;
      }
      if tag.value == 0 {
        return Some(Fail(CompanyNotFound)), issued;
      }
      err := None;
    }

    /** `FindByID`. */
    method FindByID(ctx: Context, id: string) returns (r: Result<Company, Error>, issued: Request)
      ensures issued == Request(QueryerFromContext(ctx, pool), Statement(SelectWhere(Companies, ["id"]), [Text(id)]))
      ensures r == FromRow(db.queryRow(issued))
    {
      var exec := QueryerFromContext(ctx, pool);
      issued := Request(exec, Statement(SelectWhere(Companies, ["id"]), [Text(id)]));
      var found := ScanCompany(db.queryRow(issued));
      if found.Err? {
        return Err(TranslateCompanyPgError(found.error)), issued;
      }
      r := found;
    }

    /** `FindByCode`. */
    method FindByCode(ctx: Context, code: string) returns (r: Result<Company, Error>, issued: Request)
      ensures issued == Request(QueryerFromContext(ctx, pool), Statement(SelectWhere(Companies, ["code"]), [Text(code)]))
      ensures r == FromRow(db.queryRow(issued))
    {
      var exec := QueryerFromContext(ctx, pool);
      issued := Request(exec, Statement(SelectWhere(Companies, ["code"]), [Text(code)]));
      var found := ScanCompany(db.queryRow(issued));
      if found.Err? {
        return Err(TranslateCompanyPgError(found.error)), issued;
      }
      r := found;
    }

    /**
     * `List`: the limit and offset guards, then one query for `limit + 1`
     * rows; more than `limit` rows means a next page starting at
     * `offset + limit`.
     */
    method List(ctx: Context, filter: CompanyCore.ListCompaniesFilter)
      returns (r: Result<Page<Company>, Error>, issued: Option<Request>)
      ensures filter.limit <= 0 ==> r == Err(Fail(InvalidPageSize)) && issued.None?
      ensures filter.limit > 0 && filter.offset < 0 ==> r == Err(Fail(InvalidPageToken)) && issued.None?
      ensures filter.limit > 0 && filter.offset >= 0 ==>
        && issued == Some(Request(QueryerFromContext(ctx, pool), ListStatement(filter)))
        && var outcome := QueryOutcome(db.query(issued.value), ScanCompany, TranslateCompanyPgError);
           && (outcome.Err? ==> r == Err(outcome.error))
           && (outcome.Ok? ==> r == Ok(FencepostOver(outcome.value, filter.limit, filter.offset)))
    {
      if filter.limit <= 0 {
        return Err(Fail(InvalidPageSize)), None;
      }
      if filter.offset < 0 {
        return Err(Fail(InvalidPageToken)), None;
      }

      var statement := BuildListStatement(filter);
      var exec := QueryerFromContext(ctx, pool);
      var request := Request(exec, statement);
      issued := Some(request);

      var answer := db.query(request);
      r := ReadOverPage(answer, ScanCompany, TranslateCompanyPgError, filter.limit, filter.offset);
    }
  }

  /**
   * A page from `List` holds at most `limit` companies, each the scan of the
   * returned row at its position, and its token, when there is one, parses
   * back to `offset` plus the number of companies on the page.
   */
  lemma ListPageSound(answer: Result<RowStream<CompanyColumns>, Error>, limit: nat, offset: nat)
    requires limit > 0 && offset + limit <= MaxInt
    requires QueryOutcome(answer, ScanCompany, TranslateCompanyPgError).Ok?
    ensures var rows := QueryOutcome(answer, ScanCompany, TranslateCompanyPgError).value;
            var page := FencepostOver(rows, limit, offset);
      && |page.items| <= limit
      && answer.Ok? && |page.items| <= |answer.value.rows|
      && (forall i :: 0 <= i < |page.items| ==> ScanCompany(answer.value.rows[i]) == Ok(page.items[i]))
      && (page.nextToken != "" <==> |answer.value.rows| > limit)
      && (page.nextToken != "" ==> ParsePageToken(page.nextToken) == Some(offset + |page.items|))
  {
    var rows := QueryOutcome(answer, ScanCompany, TranslateCompanyPgError).value;
    QueryOutcomeOk(answer, ScanCompany, TranslateCompanyPgError);
    FencepostOverSound(rows, limit, offset);
    var page := FencepostOver(rows, limit, offset);
    forall i | 0 <= i < |page.items| ensures ScanCompany(answer.value.rows[i]) == Ok(page.items[i]) {
      assert page.items[i] == rows[i];
      assert ScanCompany(answer.value.rows[i]) == Ok(rows[i]);
    }
  }
}

=== FILE: employee_core.dfy ===
/**
 * The employee use cases: the entity as the service and the repository use
 * it (with its user reference and the joined user snapshot), the input
 * rules, the in-memory repository of the service's own tests (employee codes
 * unique within a company), and the service.
 */
module EmployeeCore {
  import opened Wrappers
  import opened Strings
  import opened Errors
  import opened Clock
  import opened Validation
  import opened Paging
  import opened EmployeeErrors
  import opened Store
  import Transaction

  /** The user row the repository joins to each employee. */
  datatype UserSnapshot = UserSnapshot(
    id: string,
    email: string,
    name: string,
    status: string,
    createdAt: Time,
    updatedAt: Time)

  datatype Employee = Employee(
    id: string,
    companyID: string,
    employeeCode: string,
    userID: string,
    status: string,
    hiredAt: Option<Time>,
    terminatedAt: Option<Time>,
    createdAt: Time,
    updatedAt: Time,
    user: Option<UserSnapshot>)

  datatype ListEmployeesFilter = ListEmployeesFilter(
    companyID: string,
    status: Option<string>,
    limit: int,
    offset: int)

  datatype CreateEmployeeInput = CreateEmployeeInput(
    companyID: string,
    employeeCode: string,
    userID: string,
    status: Option<string>,
    hiredAt: Option<Time>,
    terminatedAt: Option<Time>)

  /** A date is replaced when its `...Set` flag is on; an absent value then clears it. */
  datatype UpdateEmployeeInput = UpdateEmployeeInput(
    id: string,
    employeeCode: Option<string>,
    userID: Option<string>,
    status: Option<string>,
    hiredAt: Option<Time>,
    hiredAtSet: bool,
    terminatedAt: Option<Time>,
    terminatedAtSet: bool)

  datatype ListEmployeesInput = ListEmployeesInput(
    companyID: string,
    pageSize: int,
    pageToken: string,
    status: Option<string>)

  /** An employee sentinel as an error value. */
  function Fail(kind: Kind): Error {
    Sentinel(EmployeeErr(kind))
  }

  /** The error a blank id gives: `fmt.Errorf("id: %w", ErrInvalidID)`. */
  const BlankId: Error := Wrapped("id", Fail(InvalidID))

  // ---------------------------------------------------------------------
  // Input rules

  /** `normalizeCompanyID`: the trimmed id, or `ErrInvalidCompanyID` when blank. */
  function NormalizeCompanyID(raw: string): (r: Result<string, Error>)
    ensures r.Err? <==> AllSpace(raw)
    ensures r.Err? ==> r.error == Fail(InvalidCompanyID)
    ensures r.Ok? ==> r.value != "" && r.value == TrimSpace(raw)
  {
    BlankIffAllSpace(raw);
    match NormalizeRequired(raw)
    case None => Err(Fail(InvalidCompanyID))
    case Some(id) => Ok(id)
  }

  /** `normalizeUserID`: the trimmed id, or `ErrInvalidUserID` when blank. */
  function NormalizeUserID(raw: string): (r: Result<string, Error>)
    ensures r.Err? <==> AllSpace(raw)
    ensures r.Err? ==> r.error == Fail(InvalidUserID)
    ensures r.Ok? ==> r.value != "" && r.value == TrimSpace(raw)
  {
    BlankIffAllSpace(raw);
    match NormalizeRequired(raw)
    case None => Err(Fail(InvalidUserID))
    case Some(id) => Ok(id)
  }

  /** `normalizeEmployeeCode`: the trimmed, lower-cased code if it matches the pattern. */
  function NormalizeEmployeeCode(raw: string): (r: Result<string, Error>)
    ensures r.Ok? ==> MatchesCodePattern(r.value) && r.value == ToLower(TrimSpace(raw))
    ensures r.Err? <==> !MatchesCodePattern(ToLower(TrimSpace(raw)))
    ensures r.Err? ==> r.error == Fail(InvalidEmployeeCode)
  {
    match NormalizeCodeText(raw)
    case None => Err(Fail(InvalidEmployeeCode))
    case Some(code) => Ok(code)
  }

  /** A normalised employee code normalises to itself. */
  lemma EmployeeCodeIdempotent(raw: string)
    requires NormalizeEmployeeCode(raw).Ok?
    ensures NormalizeEmployeeCode(NormalizeEmployeeCode(raw).value) == NormalizeEmployeeCode(raw)
  {
    NormalizeCodeIdempotent(raw);
  }

  /**
   * `normalizeDate`: absent stays absent; a present time becomes midnight
   * UTC of the date it shows in its own location.
   */
  function NormalizeDate(t: Option<Time>): (r: Option<Time>)
    ensures r.None? <==> t.None?
    ensures r.Some? ==> r.value.local == t.value.local && r.value.utc == t.value.local
  {
    match t
    case None => None
    case Some(time) => Some(MidnightUTC(time.local))
  }

  /** Normalising a normalised date changes nothing. */
  lemma NormalizeDateIdempotent(t: Option<Time>)
    ensures NormalizeDate(NormalizeDate(t)) == NormalizeDate(t)
  {
  }

  /**
   * `validateEmploymentPeriod`: `ErrInvalidDateRange` exactly when both
   * dates are present and termination is strictly before hire.
   */
  function ValidateEmploymentPeriod(hiredAt: Option<Time>, terminatedAt: Option<Time>): (r: Option<Error>)
    ensures r.Some? <==> hiredAt.Some? && terminatedAt.Some? && Before(terminatedAt.value, hiredAt.value)
    ensures r.Some? ==> r.value == Fail(InvalidDateRange)
  {
    if hiredAt.None? || terminatedAt.None? then None
    else if Before(terminatedAt.value, hiredAt.value) then Some(Fail(InvalidDateRange))
    else None
  }

  /**
   * On normalised dates the period check is a calendar comparison: it fails
   * exactly when the termination day comes before the hire day, so the same
   * day for both is accepted.
   */
  lemma PeriodCheckOnDates(hired: Time, terminated: Time)
    requires ValidDate(hired.local) && ValidDate(terminated.local)
    ensures var h := NormalizeDate(Some(hired));
            var t := NormalizeDate(Some(terminated));
      ValidateEmploymentPeriod(h, t).Some? <==> DateBefore(terminated.local, hired.local)
  {
    MidnightBefore(terminated.local, hired.local);
  }

  /** The employee service's `normalizePageSize`. */
  function PageSize(pageSize: int): (r: Result<int, Error>)
    ensures r.Ok? ==> 1 <= r.value <= MaxPageSize
    ensures r.Err? <==> pageSize > MaxPageSize
    ensures r.Err? ==> r.error == Fail(InvalidPageSize)
    ensures pageSize <= 0 ==> r == Ok(DefaultPageSize)
    ensures 0 < pageSize <= MaxPageSize ==> r == Ok(pageSize)
  {
    match NormalizePageSize(pageSize)
    case None => Err(Fail(InvalidPageSize))
    case Some(size) => Ok(size)
  }

  /** The employee service's `parsePageToken`. */
  function PageToken(token: string): (r: Result<nat, Error>)
    ensures r.Ok? <==> ParsePageToken(token).Some?
    ensures r.Ok? ==> r.value == ParsePageToken(token).value
    ensures r.Err? ==> r.error == Fail(InvalidPageToken)
  {
    match ParsePageToken(token)
    case None => Err(Fail(InvalidPageToken))
    case Some(offset) => Ok(offset)
  }

  // ---------------------------------------------------------------------
  // Store-level facts

  /** Some stored employee of `companyID` already uses `code`. */
  predicate CodeTaken(employees: map<string, Employee>, companyID: string, code: string) {
    exists id :: id in employees && employees[id].companyID == companyID && employees[id].employeeCode == code
  }

  /** An employee other than `self` of `companyID` already uses `code`. */
  predicate CodeTakenByOther(employees: map<string, Employee>, self: string, companyID: string, code: string) {
    exists id :: id in employees && id != self && employees[id].companyID == companyID && employees[id].employeeCode == code
  }

  /** Within a company no two stored employees share a code. */
  predicate CodesUnique(employees: map<string, Employee>) {
    forall a, b :: a in employees && b in employees && a != b && employees[a].companyID == employees[b].companyID
      ==> employees[a].employeeCode != employees[b].employeeCode
  }

  /** The employees of `all` in `companyID` that the optional status filter keeps. */
  function InCompany(all: seq<Employee>, companyID: string, status: Option<string>): (r: seq<Employee>)
    ensures |r| <= |all|
    ensures forall e :: e in r ==> e in all && e.companyID == companyID && (status.None? || e.status == status.value)
    ensures forall e :: e in all && e.companyID == companyID && (status.None? || e.status == status.value) ==> e in r
  {
    if all == [] then []
    else
      var last := all[|all| - 1];
      InCompany(all[..|all| - 1], companyID, status)
        + (if last.companyID == companyID && (status.None? || last.status == status.value) then [last] else [])
  }

  /** Extending the input by one record extends the filtered sequence by that record when it is kept. */
  lemma InCompanyStep(all: seq<Employee>, i: nat, companyID: string, status: Option<string>)
    requires i < |all|
    ensures InCompany(all[..i + 1], companyID, status) == InCompany(all[..i], companyID, status) + (if all[i].companyID == companyID && (status.None? || all[i].status == status.value) then [all[i]] else [])
  {
    assert all[..i + 1][..i] == all[..i];
  }

  // ---------------------------------------------------------------------
  // Update merge

  /**
   * What `UpdateEmployee` makes of the stored employee: code (with the
   * uniqueness check within its company when it changes), user id, status,
   * then the dates whose flags are set, the period check on the result, and
   * the update time.
   */
  function MergeEmployee(existing: Employee, input: UpdateEmployeeInput, now: Time, employees: map<string, Employee>): Result<Employee, Error> {
    if input.employeeCode.Some? && NormalizeEmployeeCode(input.employeeCode.value).Err? then Err(Fail(InvalidEmployeeCode))
    else if input.employeeCode.Some? && NormalizeEmployeeCode(input.employeeCode.value).value != existing.employeeCode
         && CodeTaken(employees, existing.companyID, NormalizeEmployeeCode(input.employeeCode.value).value)
    then Err(Fail(EmployeeCodeAlreadyExists))
    else if input.userID.Some? && NormalizeUserID(input.userID.value).Err? then Err(Fail(InvalidUserID))
    else if input.status.Some? && !IsValidStatus(input.status.value) then Err(Fail(InvalidStatus))
    else
      var hiredAt := if input.hiredAtSet then NormalizeDate(input.hiredAt) else existing.hiredAt;
      var terminatedAt := if input.terminatedAtSet then NormalizeDate(input.terminatedAt) else existing.terminatedAt;
      if ValidateEmploymentPeriod(hiredAt, terminatedAt).Some? then Err(Fail(InvalidDateRange))
      else
        Ok(existing.(
          employeeCode := if input.employeeCode.Some? then NormalizeEmployeeCode(input.employeeCode.value).value
                          else existing.employeeCode,
          userID := if input.userID.Some? then NormalizeUserID(input.userID.value).value else existing.userID,
          status := if input.status.Some? then input.status.value else existing.status,
          hiredAt := hiredAt,
          terminatedAt := terminatedAt,
          updatedAt := now))
  }

  /**
   * An update keeps id, company, creation time and user snapshot, stamps
   * `now`, changes only what was supplied, each in its normalised form (a
   * set flag with no date clears the date, a set date becomes midnight UTC
   * of the date it shows) and always leaves a valid employment period.
   */
  lemma MergeEmployeeChangesOnlySupplied(existing: Employee, input: UpdateEmployeeInput, now: Time, employees: map<string, Employee>)
    requires MergeEmployee(existing, input, now, employees).Ok?
    ensures var e := MergeEmployee(existing, input, now, employees).value;
      && e.id == existing.id && e.companyID == existing.companyID
      && e.createdAt == existing.createdAt && e.user == existing.user && e.updatedAt == now
      && (input.employeeCode.None? ==> e.employeeCode == existing.employeeCode)
      && (input.employeeCode.Some? ==>
            e.employeeCode == ToLower(TrimSpace(input.employeeCode.value)) && MatchesCodePattern(e.employeeCode))
      && (input.userID.None? ==> e.userID == existing.userID)
      && (input.userID.Some? ==> e.userID == TrimSpace(input.userID.value) && e.userID != "")
      && (input.status.None? ==> e.status == existing.status)
      && (input.status.Some? ==> e.status == input.status.value && IsValidStatus(e.status))
      && (!input.hiredAtSet ==> e.hiredAt == existing.hiredAt)
      && (input.hiredAtSet && input.hiredAt.None? ==> e.hiredAt.None?)
      && (input.hiredAtSet && input.hiredAt.Some? ==> e.hiredAt == Some(MidnightUTC(input.hiredAt.value.local)))
      && (!input.terminatedAtSet ==> e.terminatedAt == existing.terminatedAt)
      && (input.terminatedAtSet && input.terminatedAt.None? ==> e.terminatedAt.None?)
      && (input.terminatedAtSet && input.terminatedAt.Some? ==> e.terminatedAt == Some(MidnightUTC(input.terminatedAt.value.local)))
      && ValidateEmploymentPeriod(e.hiredAt, e.terminatedAt).None?
  {
  }

  /** Each rejection of an update is explained by the input and the store. */
  lemma MergeEmployeeFailures(existing: Employee, input: UpdateEmployeeInput, now: Time, employees: map<string, Employee>)
    ensures var r := MergeEmployee(existing, input, now, employees);
      && (r == Err(Fail(InvalidEmployeeCode)) <==>
            input.employeeCode.Some? && !MatchesCodePattern(ToLower(TrimSpace(input.employeeCode.value))))
      && (r == Err(Fail(EmployeeCodeAlreadyExists)) ==>
            && input.employeeCode.Some?
            && NormalizeEmployeeCode(input.employeeCode.value).value != existing.employeeCode
            && CodeTaken(employees, existing.companyID, NormalizeEmployeeCode(input.employeeCode.value).value))
      && (r == Err(Fail(InvalidUserID)) ==> input.userID.Some? && AllSpace(input.userID.value))
      && (r == Err(Fail(InvalidStatus)) ==> input.status.Some? && !IsValidStatus(input.status.value))
      && (r.Err? ==> r.error in {Fail(InvalidEmployeeCode), Fail(EmployeeCodeAlreadyExists), Fail(InvalidUserID),
                                 Fail(InvalidStatus), Fail(InvalidDateRange)})
  {
  }

  /**
   * Saving a merged employee keeps codes unique within each company: the
   * company never changes and the uniqueness check runs when the code does.
   */
  lemma MergeKeepsCodesUnique(existing: Employee, input: UpdateEmployeeInput, now: Time, employees: map<string, Employee>)
    requires CodesUnique(employees)
    requires existing.id in employees && employees[existing.id] == existing
    requires MergeEmployee(existing, input, now, employees).Ok?
    ensures var e := MergeEmployee(existing, input, now, employees).value;
      !CodeTakenByOther(employees, existing.id, e.companyID, e.employeeCode)
  {
    var e := MergeEmployee(existing, input, now, employees).value;
    forall other | other in employees && other != existing.id && employees[other].companyID == e.companyID
      ensures employees[other].employeeCode != e.employeeCode
    {
      if e.employeeCode == existing.employeeCode {
        assert employees[other].employeeCode != employees[existing.id].employeeCode;
      } else {
        assert !CodeTaken(employees, existing.companyID, e.employeeCode);
      }
    }
  }

  /** Replacing an employee whose code is free in its company keeps codes unique. */
  lemma ReplaceKeepsCodesUnique(employees: map<string, Employee>, e: Employee)
    requires CodesUnique(employees)
    requires !CodeTakenByOther(employees, e.id, e.companyID, e.employeeCode)
    ensures CodesUnique(employees[e.id := e])
  {
    var after := employees[e.id := e];
    forall a, b | a in after && b in after && a != b && after[a].companyID == after[b].companyID
      ensures after[a].employeeCode != after[b].employeeCode
    {
      if a == e.id {
        assert employees[b].companyID == e.companyID;
      } else if b == e.id {
        assert employees[a].companyID == e.companyID;
      }
    }
  }

  // ---------------------------------------------------------------------
  // The in-memory repository

  const IdPrefix: string := "emp-"

  /** The id of the `k`-th employee created: `fmt.Sprintf("emp-%d", k)`. */
  function IdFor(k: nat): string {
    SequentialId(IdPrefix, k)
  }

  /** The fake repository of the employee service's tests. */
  class MemoryRepository {
    var employees: map<string, Employee>
    var order: seq<string>
    var sequence: nat

    ghost predicate Valid()
      reads this
    {
      && Distinct(order)
      && (forall id :: id in employees <==> id in order)
      && (forall id :: id in employees ==> employees[id].id == id)
      && (forall id :: id in employees ==> exists k :: 1 <= k <= sequence && IdFor(k) == id)
      && CodesUnique(employees)
    }

    /** The stored employees in insertion order. */
    ghost function Listing(): (r: seq<Employee>)
      reads this
      requires Valid()
      ensures |r| == |order|
    {
      InOrder(employees, order)
    }

    constructor ()
      ensures Valid() && employees == map[] && order == [] && sequence == 0
    {
      employees, order, sequence := map[], [], 0;
    }

    /** `Create`: refuse a code used in the same company, otherwise store under the next id. */
    method Create(e: Employee) returns (r: Result<Employee, Error>)
      requires Valid()
      modifies this
      ensures Valid()
      ensures CodeTaken(old(employees), e.companyID, e.employeeCode) ==>
        r == Err(Fail(EmployeeCodeAlreadyExists)) && employees == old(employees) && order == old(order)
      ensures !CodeTaken(old(employees), e.companyID, e.employeeCode) ==>
        && r.Ok? && r.value == e.(id := r.value.id)
        && r.value.id !in old(employees)
        && employees == old(employees)[r.value.id := r.value]
        && order == old(order) + [r.value.id]
    {
      if CodeTaken(employees, e.companyID, e.employeeCode) {
        return Err(Fail(EmployeeCodeAlreadyExists));
      }
      var id := IdFor(sequence + 1);
      forall other | other in employees ensures other != id {
        var k :| 1 <= k <= sequence && IdFor(k) == other;
        if other == id {
          SequentialIdInjective(IdPrefix, k, sequence + 1);
        }
      }
      assert id !in order;
      sequence := sequence + 1;
      var stored := e.(id := id);
      assert !CodeTakenByOther(employees, id, stored.companyID, stored.employeeCode);
      ReplaceKeepsCodesUnique(employees, stored);
      employees := employees[id := stored];
      order := order + [id];
      r := Ok(stored);
      assert IdFor(sequence) == id;
    }

    /** `Update`: the employee must exist and its code must be free in its company. */
    method Update(e: Employee) returns (r: Result<Employee, Error>)
      requires Valid()
      modifies this
      ensures Valid()
      ensures order == old(order) && sequence == old(sequence)
      ensures e.id !in old(employees) ==> r == Err(Fail(EmployeeNotFound)) && employees == old(employees)
      ensures e.id in old(employees) && CodeTakenByOther(old(employees), e.id, e.companyID, e.employeeCode) ==>
        r == Err(Fail(EmployeeCodeAlreadyExists)) && employees == old(employees)
      ensures e.id in old(employees) && !CodeTakenByOther(old(employees), e.id, e.companyID, e.employeeCode) ==>
        r == Ok(e) && employees == old(employees)[e.id := e]
    {
      if e.id !in employees {
        return Err(Fail(EmployeeNotFound));
      }
      if CodeTakenByOther(employees, e.id, e.companyID, e.employeeCode) {
        return Err(Fail(EmployeeCodeAlreadyExists));
      }
      ReplaceKeepsCodesUnique(employees, e);
      employees := employees[e.id := e];
      r := Ok(e);
    }

    /** `Delete`: drop the employee from the map and from the order list. */
    method Delete(id: string) returns (err: Option<Error>)
      requires Valid()
      modifies this
      ensures Valid()
      ensures sequence == old(sequence)
      ensures id !in old(employees) ==>
        err == Some(Fail(EmployeeNotFound)) && employees == old(employees) && order == old(order)
      ensures id in old(employees) ==>
        && err.None?
        && employees == old(employees) - {id}
        && order == Without(old(order), id)
    {
      if id !in employees {
        return Some(Fail(EmployeeNotFound));
      }
      var idx := IndexOf(order, id);
      WithoutAt(order, idx);
      WithoutKeepsDistinct(order, idx);
      employees := employees - {id};
      order := order[..idx] + order[idx + 1..];
      err := None;
    }

    /** `FindByID`. */
    method FindByID(id: string) returns (r: Result<Employee, Error>)
      ensures id in employees ==> r == Ok(employees[id])
      ensures id !in employees ==> r == Err(Fail(EmployeeNotFound))
    {
      if id in employees {
        r := Ok(employees[id]);
      } else {
        r := Err(Fail(EmployeeNotFound));
      }
    }

    /** `FindByCompanyAndCode`: the employee of `companyID` using `code`, if any. */
    method FindByCompanyAndCode(companyID: string, code: string) returns (r: Result<Employee, Error>)
      requires Valid()
      ensures r.Ok? <==> CodeTaken(employees, companyID, code)
      ensures r.Ok? ==>
        && r.value.id in employees && employees[r.value.id] == r.value
        && r.value.companyID == companyID && r.value.employeeCode == code
      ensures r.Err? ==> r.error == Fail(EmployeeNotFound)
    {
      if CodeTaken(employees, companyID, code) {
        var id :| id in employees && employees[id].companyID == companyID && employees[id].employeeCode == code;
        r := Ok(employees[id]);
      } else {
        r := Err(Fail(EmployeeNotFound));
      }
    }

    /** The loop of `List` that keeps, in order, the employees of the company with the wanted status. */
    method Matching(companyID: string, status: Option<string>) returns (filtered: seq<Employee>)
      requires forall id :: id in order ==> id in employees
      ensures filtered == InCompany(InOrder(employees, order), companyID, status)
    {
      ghost var all := InOrder(employees, order);
      filtered := [];
      var i := 0;
      while i < |order|
        invariant 0 <= i <= |order|
        invariant filtered == InCompany(all[..i], companyID, status)
      {
        var e := employees[order[i]];
        assert e == all[i];
        InCompanyStep(all, i, companyID, status);
        if e.companyID == companyID && (status.None? || e.status == status.value) {
          filtered := filtered + [e];
        }
        i := i + 1;
      }
      assert all[..i] == all;
    }

    /**
     * `List`: the company's employees in insertion order that match the
     * status filter, cut to the window `[offset, offset + limit)`, with the
     * end offset as the next token while employees remain.
     */
    method List(filter: ListEmployeesFilter) returns (page: Page<Employee>)
      requires Valid()
      requires filter.limit >= 0 && filter.offset >= 0
      ensures page == OffsetWindow(InCompany(Listing(), filter.companyID, filter.status), filter.limit, filter.offset)
    {
      var filtered := Matching(filter.companyID, filter.status);
      page := TakeWindow(filtered, filter.limit, filter.offset);
    }
  }

  // ---------------------------------------------------------------------
  // The service

  /**
   * What `CreateEmployee` checks before it opens a transaction, in order:
   * company id, code, user id, employment period, status.
   */
  function CreateChecks(input: CreateEmployeeInput): (r: Option<Error>)
    ensures r.None? <==>
      && NormalizeCompanyID(input.companyID).Ok?
      && NormalizeEmployeeCode(input.employeeCode).Ok?
      && NormalizeUserID(input.userID).Ok?
      && ValidateEmploymentPeriod(NormalizeDate(input.hiredAt), NormalizeDate(input.terminatedAt)).None?
      && (input.status.None? || IsValidStatus(input.status.value))
    ensures AllSpace(input.companyID) ==> r == Some(Fail(InvalidCompanyID))
    ensures !AllSpace(input.companyID) && NormalizeEmployeeCode(input.employeeCode).Err? ==>
      r == Some(Fail(InvalidEmployeeCode))
    ensures !AllSpace(input.companyID) && NormalizeEmployeeCode(input.employeeCode).Ok? && AllSpace(input.userID) ==>
      r == Some(Fail(InvalidUserID))
    ensures r == Some(Fail(InvalidStatus)) ==>
      input.status.Some? && !IsValidStatus(input.status.value)
      && ValidateEmploymentPeriod(NormalizeDate(input.hiredAt), NormalizeDate(input.terminatedAt)).None?
    ensures r.Some? ==> r.value in {Fail(InvalidCompanyID), Fail(InvalidEmployeeCode), Fail(InvalidUserID),
                                    Fail(InvalidDateRange), Fail(InvalidStatus)}
  {
    if NormalizeCompanyID(input.companyID).Err? then Some(Fail(InvalidCompanyID))
    else if NormalizeEmployeeCode(input.employeeCode).Err? then Some(Fail(InvalidEmployeeCode))
    else if NormalizeUserID(input.userID).Err? then Some(Fail(InvalidUserID))
    else if ValidateEmploymentPeriod(NormalizeDate(input.hiredAt), NormalizeDate(input.terminatedAt)).Some? then
      Some(Fail(InvalidDateRange))
    else if input.status.Some? && !IsValidStatus(input.status.value) then Some(Fail(InvalidStatus))
    else None
  }

  /**
   * The employee `Service` over the in-memory repository. The clock is the
   * `now` argument; `txMode` tells which transaction the call would run in
   * (None when it fails before opening one).
   */
  class Service {
    const repo: MemoryRepository

    constructor (repo: MemoryRepository)
      ensures this.repo == repo
    {
      this.repo := repo;
    }

    /** `ensureEmployeeCodeNotExists`: the duplicate error exactly when the company already uses the code. */
    method EnsureEmployeeCodeNotExists(companyID: string, code: string) returns (err: Option<Error>)
      requires repo.Valid()
      ensures err.None? <==> !CodeTaken(repo.employees, companyID, code)
      ensures err.Some? ==> err.value == Fail(EmployeeCodeAlreadyExists)
    {
      var found := repo.FindByCompanyAndCode(companyID, code);
      match found {
        case Ok(_) => err := Some(Fail(EmployeeCodeAlreadyExists));
        case Err(e) => err := if Is(e, EmployeeErr(EmployeeNotFound)) then None else Some(e);
      }
    }

    /**
     * `CreateEmployee`: every input check before the transaction, then the
     * code check within the company and the insert; status defaults to
     * active, dates are normalised, both timestamps are `now`.
     */
    method CreateEmployee(input: CreateEmployeeInput, now: Time)
      returns (r: Result<Employee, Error>, ghost txMode: Option<Transaction.AccessMode>)
      requires repo.Valid()
      modifies repo
      ensures repo.Valid()
      ensures CreateChecks(input).Some? ==>
        r == Err(CreateChecks(input).value) && txMode.None? && repo.employees == old(repo.employees)
          && repo.order == old(repo.order)
      ensures CreateChecks(input).None? ==>
        var companyID := NormalizeCompanyID(input.companyID).value;
        var code := NormalizeEmployeeCode(input.employeeCode).value;
        && txMode == Some(Transaction.ReadWrite)
        && (CodeTaken(old(repo.employees), companyID, code) ==>
              r == Err(Fail(EmployeeCodeAlreadyExists)) && repo.employees == old(repo.employees)
                && repo.order == old(repo.order))
        && (!CodeTaken(old(repo.employees), companyID, code) ==>
              && r.Ok?
              && r.value == Employee(r.value.id, companyID, code, NormalizeUserID(input.userID).value,
                                     if input.status.Some? then input.status.value else StatusActive,
                                     NormalizeDate(input.hiredAt), NormalizeDate(input.terminatedAt),
                                     now, now, None)
              && r.value.id !in old(repo.employees)
              && repo.employees == old(repo.employees)[r.value.id := r.value]
              && repo.order == old(repo.order) + [r.value.id])
    {
      var companyID := NormalizeCompanyID(input.companyID);
      if companyID.Err? {
        return Err(companyID.error), None;
      }
      var code := NormalizeEmployeeCode(input.employeeCode);
      if code.Err? {
        return Err(code.error), None;
      }
      var userID := NormalizeUserID(input.userID);
      if userID.Err? {
        return Err(userID.error), None;
      }
      var hiredAt := NormalizeDate(input.hiredAt);
      var terminatedAt := NormalizeDate(input.terminatedAt);
      var period := ValidateEmploymentPeriod(hiredAt, terminatedAt);
      if period.Some? {
        return Err(period.value), None;
      }
      var status := StatusActive;
      if input.status.Some? {
        if !IsValidStatus(input.status.value) {
          return Err(Fail(InvalidStatus)), None;
        }
        status := input.status.value;
      }

      txMode := Some(Transaction.ReadWrite);
      var taken := EnsureEmployeeCodeNotExists(companyID.value, code.value);
      if taken.Some? {
        return Err(taken.value), txMode;
      }
      var employee := Employee("", companyID.value, code.value, userID.value, status, hiredAt, terminatedAt, now, now, None);
      r := repo.Create(employee);
    }

    /**
     * The body of the `UpdateEmployee` transaction between load and save:
     * the loaded employee changed field by field as `MergeEmployee` says.
     */
    method ApplyChanges(loaded: Employee, input: UpdateEmployeeInput, now: Time) returns (r: Result<Employee, Error>)
      requires repo.Valid()
      ensures r == MergeEmployee(loaded, input, now, repo.employees)
    {
      var existing := loaded;

      if input.employeeCode.Some? {
        var code := NormalizeEmployeeCode(input.employeeCode.value);
        if code.Err? {
          return Err(code.error);
        }
        if code.value != existing.employeeCode {
          var taken := EnsureEmployeeCodeNotExists(existing.companyID, code.value);
          if taken.Some? {
            return Err(taken.value);
          }
          existing := existing.(employeeCode := code.value);
        }
      }

      if input.userID.Some? {
        var userID := NormalizeUserID(input.userID.value);
        if userID.Err? {
          return Err(userID.error);
        }
        existing := existing.(userID := userID.value);
      }

      if input.status.Some? {
        if !IsValidStatus(input.status.value) {
          return Err(Fail(InvalidStatus));
        }
        existing := existing.(status := input.status.value);
      }

      if input.hiredAtSet {
        existing := existing.(hiredAt := NormalizeDate(input.hiredAt));
      }

      if input.terminatedAtSet {
        existing := existing.(terminatedAt := NormalizeDate(input.terminatedAt));
      }

      var period := ValidateEmploymentPeriod(existing.hiredAt, existing.terminatedAt);
      if period.Some? {
        return Err(period.value);
      }

      existing := existing.(updatedAt := now);
      r := Ok(existing);
    }

    /** `UpdateEmployee`: load, merge the supplied fields, check the period, save. */
    method UpdateEmployee(input: UpdateEmployeeInput, now: Time)
      returns (r: Result<Employee, Error>, ghost txMode: Option<Transaction.AccessMode>)
      requires repo.Valid()
      modifies repo
      ensures repo.Valid()
      ensures repo.order == old(repo.order)
      ensures IsBlank(input.id) ==> r == Err(BlankId) && txMode.None? && repo.employees == old(repo.employees)
      ensures !IsBlank(input.id) ==> txMode == Some(Transaction.ReadWrite)
      ensures !IsBlank(input.id) && input.id !in old(repo.employees) ==>
        r == Err(Fail(EmployeeNotFound)) && repo.employees == old(repo.employees)
      ensures !IsBlank(input.id) && input.id in old(repo.employees) ==>
        && r == MergeEmployee(old(repo.employees)[input.id], input, now, old(repo.employees))
        && repo.employees == (if r.Ok? then old(repo.employees)[input.id := r.value] else old(repo.employees))
    {
      if IsBlank(input.id) {
        return Err(BlankId), None;
      }
      txMode := Some(Transaction.ReadWrite);
      ghost var before := repo.employees;

      var found := repo.FindByID(input.id);
      if found.Err? {
        return Err(found.error), txMode;
      }
      assert found.value == before[input.id] && found.value.id == input.id;
      var merged := ApplyChanges(found.value, input, now);
      if merged.Err? {
        return Err(merged.error), txMode;
      }
      MergeEmployeeChangesOnlySupplied(before[input.id], input, now, before);
      MergeKeepsCodesUnique(before[input.id], input, now, before);
      assert merged.value.id == input.id;
      assert !CodeTakenByOther(before, input.id, merged.value.companyID, merged.value.employeeCode);
      r := repo.Update(merged.value);
    }

    /** `DeleteEmployee`. */
    method DeleteEmployee(id: string) returns (err: Option<Error>, ghost txMode: Option<Transaction.AccessMode>)
      requires repo.Valid()
      modifies repo
      ensures repo.Valid()
      ensures IsBlank(id) ==>
        err == Some(BlankId) && txMode.None? && repo.employees == old(repo.employees) && repo.order == old(repo.order)
      ensures !IsBlank(id) ==> txMode == Some(Transaction.ReadWrite)
      ensures !IsBlank(id) && id !in old(repo.employees) ==>
        err == Some(Fail(EmployeeNotFound)) && repo.employees == old(repo.employees)
          && repo.order == old(repo.order)
      ensures !IsBlank(id) && id in old(repo.employees) ==>
        err.None? && repo.employees == old(repo.employees) - {id} && repo.order == Without(old(repo.order), id)
    {
      if IsBlank(id) {
        return Some(BlankId), None;
      }
      txMode := Some(Transaction.ReadWrite);
      err := repo.Delete(id);
    }

    /** `GetEmployee`. */
    method GetEmployee(id: string) returns (r: Result<Employee, Error>, ghost txMode: Option<Transaction.AccessMode>)
      ensures IsBlank(id) ==> r == Err(BlankId) && txMode.None?
      ensures !IsBlank(id) ==> txMode == Some(Transaction.ReadOnly)
      ensures !IsBlank(id) && id in repo.employees ==> r == Ok(repo.employees[id])
      ensures !IsBlank(id) && id !in repo.employees ==> r == Err(Fail(EmployeeNotFound))
    {
      if IsBlank(id) {
        return Err(BlankId), None;
      }
      txMode := Some(Transaction.ReadOnly);
      r := repo.FindByID(id);
    }

    /**
     * `ListEmployees`: company id, page size, token and status are checked
     * before the repository is asked for the trimmed company's window.
     */
    method ListEmployees(input: ListEmployeesInput)
      returns (r: Result<Page<Employee>, Error>, ghost txMode: Option<Transaction.AccessMode>)
      requires repo.Valid()
      ensures NormalizeCompanyID(input.companyID).Err? ==> r == Err(Fail(InvalidCompanyID)) && txMode.None?
      ensures NormalizeCompanyID(input.companyID).Ok? && PageSize(input.pageSize).Err? ==>
        r == Err(Fail(InvalidPageSize)) && txMode.None?
      ensures NormalizeCompanyID(input.companyID).Ok? && PageSize(input.pageSize).Ok? && PageToken(input.pageToken).Err? ==>
        r == Err(Fail(InvalidPageToken)) && txMode.None?
      ensures NormalizeCompanyID(input.companyID).Ok? && PageSize(input.pageSize).Ok? && PageToken(input.pageToken).Ok? ==>
        && (input.status.Some? && !IsValidStatus(input.status.value) ==> r == Err(Fail(InvalidStatus)) && txMode.None?)
        && (input.status.None? || IsValidStatus(input.status.value) ==>
              && txMode == Some(Transaction.ReadOnly)
              && r == Ok(OffsetWindow(InCompany(repo.Listing(), NormalizeCompanyID(input.companyID).value, input.status),
                                      PageSize(input.pageSize).value, PageToken(input.pageToken).value)))
      ensures r.Ok? ==> |r.value.items| <= MaxPageSize
    {
      var companyID := NormalizeCompanyID(input.companyID);
      if companyID.Err? {
        return Err(companyID.error), None;
      }
      var limit := PageSize(input.pageSize);
      if limit.Err? {
        return Err(limit.error), None;
      }
      var offset := PageToken(input.pageToken);
      if offset.Err? {
        return Err(offset.error), None;
      }
      if input.status.Some? && !IsValidStatus(input.status.value) {
        return Err(Fail(InvalidStatus)), None;
      }
      txMode := Some(Transaction.ReadOnly);
      var page := repo.List(ListEmployeesFilter(companyID.value, input.status, limit.value, offset.value));
      r := Ok(page);
    }
  }
}

=== FILE: employee_postgres.dfy ===
/**
 * The PostgreSQL employee repository. Every statement goes to the queryer
 * the context resolves and joins the employee's user row; dates are written
 * as UTC midnights of their calendar day and read back the same way, and
 * PostgreSQL failures are translated into the employee sentinels.
 */
module EmployeePostgres {
  import opened Wrappers
  import opened Strings
  import opened Errors
  import opened Clock
  import opened Transaction
  import opened Sql
  import opened Paging
  import opened EmployeeErrors
  import EmployeeCore

  type Employee = EmployeeCore.Employee

  function Fail(kind: Kind): Error {
    EmployeeCore.Fail(kind)
  }

  /** The fifteen columns of an employee row joined with its user row. */
  datatype EmployeeColumns = EmployeeColumns(
    id: string,
    companyID: string,
    code: string,
    userID: string,
    status: string,
    hiredAt: Option<Time>,
    terminatedAt: Option<Time>,
    createdAt: Time,
    updatedAt: Time,
    userJoinedID: string,
    userEmail: string,
    userName: string,
    userStatus: string,
    userCreated: Time,
    userUpdated: Time)

  const CompanyForeignKey: string := "employees_company_id_fkey"
  const UserForeignKey: string := "employees_user_id_fkey"

  /** `nullableTime`: an absent date is SQL NULL, a present one the UTC midnight of its own calendar day. */
  function NullableTime(value: Option<Time>): (r: Arg)
    ensures value.None? <==> r.Null?
    ensures value.Some? ==> r.At? && r.time.utc == value.value.local && r.time.local == value.value.local
  {
    match value
    case None => Null
    case Some(t) => At(MidnightUTC(t.local))
  }

  /** What a nullable date column holds after `arg` was written to it. */
  function StoredTime(arg: Arg): Option<Time> {
    match arg
    case At(t) => Some(t)
    case _ => None
  }

  /** How `scanEmployee` reads a nullable date column: the UTC midnight of the UTC calendar day. */
  function ScanDate(column: Option<Time>): (r: Option<Time>)
    ensures r.None? <==> column.None?
    ensures r.Some? ==> r.value.utc == column.value.utc && r.value.local == column.value.utc
  {
    match column
    case None => None
    case Some(t) => Some(MidnightUTC(t.utc))
  }

  /**
   * A date survives the round trip through the database as the normalised
   * date the service computes: writing with `nullableTime` and reading with
   * `scanEmployee` yields the UTC midnight of the date's own calendar day.
   */
  lemma DateRoundTrip(value: Option<Time>)
    ensures ScanDate(StoredTime(NullableTime(value))) == EmployeeCore.NormalizeDate(value)
  {
  }

  /** A date the service has already normalised comes back from the database unchanged. */
  lemma NormalizedDateRoundTrip(value: Option<Time>)
    ensures var d := EmployeeCore.NormalizeDate(value);
      ScanDate(StoredTime(NullableTime(d))) == d
  {
    DateRoundTrip(EmployeeCore.NormalizeDate(value));
    EmployeeCore.NormalizeDateIdempotent(value);
  }

  /**
   * `scanEmployee`: "no rows" becomes `ErrEmployeeNotFound`, any other scan
   * error is passed on; the columns become the employee with its dates read
   * as UTC midnights and the joined user attached.
   */
  function ScanEmployee(row: Row<EmployeeColumns>): (r: Result<Employee, Error>)
    ensures row.Columns? <==> r.Ok?
    ensures row.ScanError? && Is(row.err, NoRows) ==> r == Err(Fail(EmployeeNotFound))
    ensures row.ScanError? && !Is(row.err, NoRows) ==> r == Err(row.err)
    ensures row.Columns? ==>
      var c := row.columns;
      && r.value.id == c.id && r.value.companyID == c.companyID && r.value.employeeCode == c.code
      && r.value.userID == c.userID && r.value.status == c.status
      && r.value.hiredAt == ScanDate(c.hiredAt) && r.value.terminatedAt == ScanDate(c.terminatedAt)
      && r.value.createdAt == c.createdAt && r.value.updatedAt == c.updatedAt
      && r.value.user == Some(EmployeeCore.UserSnapshot(c.userJoinedID, c.userEmail, c.userName,
                                                        c.userStatus, c.userCreated, c.userUpdated))
  {
    match row
    case ScanError(e) => if Is(e, NoRows) then Err(Fail(EmployeeNotFound)) else Err(e)
    case Columns(c) =>
      Ok(EmployeeCore.Employee(
        c.id, c.companyID, c.code, c.userID, c.status,
        ScanDate(c.hiredAt), ScanDate(c.terminatedAt), c.createdAt, c.updatedAt,
        Some(EmployeeCore.UserSnapshot(c.userJoinedID, c.userEmail, c.userName,
                                       c.userStatus, c.userCreated, c.userUpdated))))
  }

  /** The sentinel a PostgreSQL error maps to, if any: the switch on code and constraint. */
  function PgSentinel(pg: PgError): (r: Option<Kind>)
    ensures pg.code == UniqueViolation ==> r == Some(EmployeeCodeAlreadyExists)
    ensures pg.code == ForeignKeyViolation && pg.constraintName == CompanyForeignKey ==> r == Some(CompanyNotFound)
    ensures pg.code == ForeignKeyViolation && pg.constraintName == UserForeignKey ==> r == Some(UserNotFound)
    ensures pg.code == ForeignKeyViolation && pg.constraintName != CompanyForeignKey && pg.constraintName != UserForeignKey
      ==> r.None?
    ensures pg.code == CheckViolation ==> r == Some(InvalidDateRange)
    ensures pg.code !in {UniqueViolation, ForeignKeyViolation, CheckViolation} ==> r.None?
  {
    if pg.code == UniqueViolation then Some(EmployeeCodeAlreadyExists)
    else if pg.code == ForeignKeyViolation then
      if pg.constraintName == CompanyForeignKey then Some(CompanyNotFound)
      else if pg.constraintName == UserForeignKey then Some(UserNotFound)
      else None
    else if pg.code == CheckViolation then Some(InvalidDateRange)
    else None
  }

  /**
   * `translateEmployeePgError`: nil stays nil; "no rows" anywhere in the
   * chain is `ErrEmployeeNotFound` before any PostgreSQL error is looked at;
   * otherwise the first PostgreSQL error decides, and an error it does not
   * recognise is passed on unchanged.
   */
  function TranslateEmployeePgError(err: Option<Error>): (r: Option<Error>)
    ensures err.None? <==> r.None?
    ensures err.Some? && Is(err.value, NoRows) ==> r == Some(Fail(EmployeeNotFound))
    ensures err.Some? && !Is(err.value, NoRows) && AsPg(err.value).Some? && PgSentinel(AsPg(err.value).value).Some?
      ==> r == Some(Fail(PgSentinel(AsPg(err.value).value).value))
    ensures err.Some? && !Is(err.value, NoRows) && (AsPg(err.value).None? || PgSentinel(AsPg(err.value).value).None?)
      ==> r == err
  {
    match err
    case None => None
    case Some(e) =>
      if Is(e, NoRows) then Some(Fail(EmployeeNotFound))
      else match AsPg(e)
        case None => err
        case Some(pg) =>
          match PgSentinel(pg)
          case Some(kind) => Some(Fail(kind))
          case None => err
  }

  /** The translation applied to an error that is known to be there. */
  function Translate(e: Error): Error {
    TranslateEmployeePgError(Some(e)).value
  }

  /**
   * Translation is idempotent and lands on one of the five employee
   * sentinels it knows or on the error it was given.
   */
  lemma TranslateIdempotent(e: Error)
    ensures Translate(Translate(e)) == Translate(e)
    ensures Translate(e) == e || Translate(e) in
      {Fail(EmployeeNotFound), Fail(EmployeeCodeAlreadyExists), Fail(CompanyNotFound), Fail(UserNotFound), Fail(InvalidDateRange)}
  {
  }

  /**
   * A missing row outranks a PostgreSQL error in the same chain: any chain
   * in which both "no rows" and a PostgreSQL error are found is reported
   * as not found.
   */
  lemma NoRowsOutranksPg(e: Error)
    requires Is(e, NoRows) && AsPg(e).Some?
    ensures Translate(e) == Fail(EmployeeNotFound)
  {
  }

  /** A single-row statement's result: scan, then translate any error. */
  function FromRow(row: Row<EmployeeColumns>): Result<Employee, Error> {
    match ScanEmployee(row)
    case Ok(emp) => Ok(emp)
    case Err(e) => Err(Translate(e))
  }

  /**
   * The error table of the single-row statements: a missing row is
   * `ErrEmployeeNotFound`; a scan failure carrying a PostgreSQL error is
   * mapped by code and constraint; anything else is passed on unchanged.
   */
  lemma FromRowErrors(row: Row<EmployeeColumns>)
    ensures FromRow(row).Ok? <==> row.Columns?
    ensures row.ScanError? && Is(row.err, NoRows) ==> FromRow(row) == Err(Fail(EmployeeNotFound))
    ensures row.ScanError? && !Is(row.err, NoRows) && AsPg(row.err).Some? && PgSentinel(AsPg(row.err).value).Some?
      ==> FromRow(row) == Err(Fail(PgSentinel(AsPg(row.err).value).value))
    ensures row.ScanError? && !Is(row.err, NoRows) && (AsPg(row.err).None? || PgSentinel(AsPg(row.err).value).None?)
      ==> FromRow(row) == Err(row.err)
  {
  }

  const InsertColumns: seq<string> :=
    ["company_id", "employee_code", "user_id", "status", "hired_at", "terminated_at", "created_at", "updated_at"]
  const UpdateColumns: seq<string> :=
    ["employee_code", "user_id", "status", "hired_at", "terminated_at", "updated_at"]

  /** The INSERT of `Create`: every field but the id, dates as UTC midnights. */
  function CreateStatement(e: Employee): Statement {
    Statement(InsertReturning(Employees, InsertColumns),
              [Text(e.companyID), Text(e.employeeCode), Text(e.userID), Text(e.status),
               NullableTime(e.hiredAt), NullableTime(e.terminatedAt), At(e.createdAt), At(e.updatedAt)])
  }

  /** The UPDATE of `Update`: everything but id, company and creation time, keyed by id. */
  function UpdateStatement(e: Employee): Statement {
    Statement(UpdateReturning(Employees, UpdateColumns, "id"),
              [Text(e.employeeCode), Text(e.userID), Text(e.status),
               NullableTime(e.hiredAt), NullableTime(e.terminatedAt), At(e.updatedAt), Text(e.id)])
  }

  /**
   * An update never moves an employee to another company: the statement
   * does not depend on the company id, the creation time or the attached
   * user, and `company_id` is not among the columns it sets.
   */
  lemma UpdateKeepsCompany(e: Employee, companyID: string, t: Time, user: Option<EmployeeCore.UserSnapshot>)
    ensures UpdateStatement(e) == UpdateStatement(e.(companyID := companyID, createdAt := t, user := user))
    ensures "company_id" !in UpdateColumns
  {
    assert UpdateColumns[0] == "employee_code" && UpdateColumns[1] == "user_id" && UpdateColumns[2] == "status";
    assert UpdateColumns[3] == "hired_at" && UpdateColumns[4] == "terminated_at" && UpdateColumns[5] == "updated_at";
  }

  /**
   * The list query of `List`: `e.company_id = $1`, an optional
   * `e.status = $2`, then the LIMIT (one more than the page) and OFFSET
   * placeholders numbered after the filter arguments.
   */
  function ListStatement(filter: EmployeeCore.ListEmployeesFilter): Statement {
    var filterArgs := [Text(filter.companyID)] + (if filter.status.Some? then [Text(filter.status.value)] else []);
    var conditions := ["e.company_id = " + Placeholder(1)]
                      + (if filter.status.Some? then ["e.status = " + Placeholder(2)] else []);
    Statement(SelectPage(Employees, WhereClause(conditions), Placeholder(|filterArgs| + 1), Placeholder(|filterArgs| + 2)),
              filterArgs + [Int(filter.limit + 1), Int(filter.offset)])
  }

  /**
   * The fragments with a status filter: the company condition on `$1`, the
   * status condition on `$2`, then `$3` and `$4`.
   */
  lemma ListStatementWithStatus(companyID: string, status: string, limit: int, offset: int)
    ensures var st := ListStatement(EmployeeCore.ListEmployeesFilter(companyID, Some(status), limit, offset));
      && st.command.whereClause == " WHERE " + ("e.company_id = " + "$1") + " AND " + ("e.status = " + "$2")
      && st.command.limitPlaceholder == "$3"
      && st.command.offsetPlaceholder == "$4"
      && st.args == [Text(companyID), Text(status), Int(limit + 1), Int(offset)]
  {
    assert Placeholder(1) == "$1" && Placeholder(2) == "$2" && Placeholder(3) == "$3" && Placeholder(4) == "$4" by {
      assert Itoa(1) == "1" && Itoa(2) == "2" && Itoa(3) == "3" && Itoa(4) == "4";
    }
    var conditions := ["e.company_id = " + "$1", "e.status = " + "$2"];
    assert conditions[1..] == ["e.status = " + "$2"];
    assert JoinWith(conditions, " AND ") == conditions[0] + " AND " + conditions[1];
  }

  /** The fragments without a status filter: the company condition on `$1`, then `$2` and `$3`. */
  lemma ListStatementWithoutStatus(companyID: string, limit: int, offset: int)
    ensures var st := ListStatement(EmployeeCore.ListEmployeesFilter(companyID, None, limit, offset));
      && st.command.whereClause == " WHERE " + ("e.company_id = " + "$1")
      && st.command.limitPlaceholder == "$2"
      && st.command.offsetPlaceholder == "$3"
      && st.args == [Text(companyID), Int(limit + 1), Int(offset)]
  {
    assert Placeholder(1) == "$1" && Placeholder(2) == "$2" && Placeholder(3) == "$3" by {
      assert Itoa(1) == "1" && Itoa(2) == "2" && Itoa(3) == "3";
    }
  }

  /**
   * The query text and arguments `List` assembles step by step: each
   * condition takes the placeholder numbered after the arguments so far.
   */
  method BuildListStatement(filter: EmployeeCore.ListEmployeesFilter) returns (statement: Statement)
    ensures statement == ListStatement(filter)
  {
    var limitWithBuffer := filter.limit + 1;
    var args: seq<Arg> := [];
    var conditions: seq<string> := [];

    var companyPlaceholder := Placeholder(|args| + 1);
    conditions := conditions + ["e.company_id = " + companyPlaceholder];
    args := args + [Text(filter.companyID)];
    assert conditions == ["e.company_id = " + Placeholder(1)] && args == [Text(filter.companyID)];

    if filter.status.Some? {
      var placeholder := Placeholder(|args| + 1);
      conditions := conditions + ["e.status = " + placeholder];
      args := args + [Text(filter.status.value)];
    }
    ghost var expected := ListStatement(filter);
    assert args + [Int(limitWithBuffer), Int(filter.offset)] == expected.args;

    var whereClause := "";
    if |conditions| > 0 {
      whereClause := " WHERE " + JoinWith(conditions, " AND ");
    }
    assert whereClause == expected.command.whereClause;

    var limitPlaceholder := Placeholder(|args| + 1);
    args := args + [Int(limitWithBuffer)];
    var offsetPlaceholder := Placeholder(|args| + 1);
    args := args + [Int(filter.offset)];

    assert args == expected.args;
    statement := Statement(SelectPage(Employees, whereClause, limitPlaceholder, offsetPlaceholder), args);
  }

  /** `EmployeeRepository` over a pool queryer and the engine that answers it. */
  class EmployeeRepository {
    const pool: Queryer
    const db: Database<EmployeeColumns>

    constructor (pool: Queryer, db: Database<EmployeeColumns>)
      ensures this.pool == pool && this.db == db
    {
      this.pool := pool;
      this.db := db;
    }

    /** `Create`. */
    method Create(ctx: Context, e: Employee) returns (r: Result<Employee, Error>, issued: Request)
      ensures issued == Request(QueryerFromContext(ctx, pool), CreateStatement(e))
      ensures r == FromRow(db.queryRow(issued))
    {
      var exec := QueryerFromContext(ctx, pool);
      issued := Request(exec, CreateStatement(e));
      var created := ScanEmployee(db.queryRow(issued));
      if created.Err? {
        return Err(Translate(created.error)), issued;
      }
      r := created;
    }

    /** `Update`. */
    method Update(ctx: Context, e: Employee) returns (r: Result<Employee, Error>, issued: Request)
      ensures issued == Request(QueryerFromContext(ctx, pool), UpdateStatement(e))
      ensures r == FromRow(db.queryRow(issued))
    {
      var exec := QueryerFromContext(ctx, pool);
      issued := Request(exec, UpdateStatement(e));
      var updated := ScanEmployee(db.queryRow(issued));
      if updated.Err? {
        return Err(Translate(updated.error)), issued;
      }
      r := updated;
    }

    /** `Delete`: `ErrEmployeeNotFound` exactly when no row was affected or the engine reports no rows. */
    method Delete(ctx: Context, id: string) returns (err: Option<Error>, issued: Request)
      ensures issued == Request(QueryerFromContext(ctx, pool), Statement(DeleteById(Employees), [Text(id)]))
      ensures db.exec(issued).Err? ==> err == TranslateEmployeePgError(Some(db.exec(issued).error))
      ensures db.exec(issued) == Ok(0) ==> err == Some(Fail(EmployeeNotFound))
      ensures err.None? <==> db.exec(issued).Ok? && db.exec(issued).value > 0
    {
      var exec := QueryerFromContext(ctx, pool);
      issued := Request(exec, Statement(DeleteById(Employees), [Text(id)]));
      var tag := db.exec(issued);
      if tag.Err? {
        return TranslateEmployeePgError(Some(tag.error)), issued;
      }
      if tag.value == 0 {
        return Some(Fail(EmployeeNotFound)), issued;
      }
      err := None;
    }

    /** `FindByID`. */
    method FindByID(ctx: Context, id: string) returns (r: Result<Employee, Error>, issued: Request)
      ensures issued == Request(QueryerFromContext(ctx, pool), Statement(SelectWhere(Employees, ["e.id"]), [Text(id)]))
      ensures r == FromRow(db.queryRow(issued))
    {
      var exec := QueryerFromContext(ctx, pool);
      issued := Request(exec, Statement(SelectWhere(Employees, ["e.id"]), [Text(id)]));
      var found := ScanEmployee(db.queryRow(issued));
      if found.Err? {
        return Err(Translate(found.error)), issued;
      }
      r := found;
    }

    /** `FindByCompanyAndCode`. */
    method FindByCompanyAndCode(ctx: Context, companyID: string, employeeCode: string)
      returns (r: Result<Employee, Error>, issued: Request)
      ensures issued == Request(QueryerFromContext(ctx, pool),
                                Statement(SelectWhere(Employees, ["e.company_id", "e.employee_code"]),
                                          [Text(companyID), Text(employeeCode)]))
      ensures r == FromRow(db.queryRow(issued))
    {
      var exec := QueryerFromContext(ctx, pool);
      issued := Request(exec, Statement(SelectWhere(Employees, ["e.company_id", "e.employee_code"]),
                                        [Text(companyID), Text(employeeCode)]));
      var found := ScanEmployee(db.queryRow(issued));
      if found.Err? {
        return Err(Translate(found.error)), issued;
      }
      r := found;
    }

    /**
     * `List`: the company, limit and offset guards, then one query for
     * `limit + 1` rows; exactly `limit + 1` rows means a next page starting
     * at `offset + limit`.
     */
    method List(ctx: Context, filter: EmployeeCore.ListEmployeesFilter)
      returns (r: Result<Page<Employee>, Error>, issued: Option<Request>)
      ensures IsBlank(filter.companyID) ==> r == Err(Fail(InvalidCompanyID)) && issued.None?
      ensures !IsBlank(filter.companyID) && filter.limit <= 0 ==> r == Err(Fail(InvalidPageSize)) && issued.None?
      ensures !IsBlank(filter.companyID) && filter.limit > 0 && filter.offset < 0
        ==> r == Err(Fail(InvalidPageToken)) && issued.None?
      ensures !IsBlank(filter.companyID) && filter.limit > 0 && filter.offset >= 0 ==>
        && issued == Some(Request(QueryerFromContext(ctx, pool), ListStatement(filter)))
        && var outcome := QueryOutcome(db.query(issued.value), ScanEmployee, Translate);
           && (outcome.Err? ==> r == Err(outcome.error))
           && (outcome.Ok? ==> r == Ok(FencepostExact(outcome.value, filter.limit, filter.offset)))
    {
      if TrimSpace(filter.companyID) == "" {
        return Err(Fail(InvalidCompanyID)), None;
      }
      if filter.limit <= 0 {
        return Err(Fail(InvalidPageSize)), None;
      }
      if filter.offset < 0 {
        return Err(Fail(InvalidPageToken)), None;
      }

      var statement := BuildListStatement(filter);
      var exec := QueryerFromContext(ctx, pool);
      var request := Request(exec, statement);
      issued := Some(request);

      var answer := db.query(request);
      r := ReadExactPage(answer, ScanEmployee, Translate, filter.limit, filter.offset);
    }
  }

  /**
   * When the engine honours `LIMIT limit + 1`, a page from `List` holds at
   * most `limit` employees, each scanned from the row at its position, and
   * its token, when there is one, parses back to `offset` plus the number of
   * employees on the page; the exact-count test then agrees with the
   * more-than test of the other repositories.
   */
  lemma ListPageSound(answer: Result<RowStream<EmployeeColumns>, Error>, limit: nat, offset: nat)
    requires limit > 0 && offset + limit <= MaxInt
    requires QueryOutcome(answer, ScanEmployee, Translate).Ok?
    requires |answer.value.rows| <= limit + 1
    ensures var rows := QueryOutcome(answer, ScanEmployee, Translate).value;
            var page := FencepostExact(rows, limit, offset);
      && page == FencepostOver(rows, limit, offset)
      && |page.items| <= limit && |page.items| <= |answer.value.rows|
      && (forall i :: 0 <= i < |page.items| ==> ScanEmployee(answer.value.rows[i]) == Ok(page.items[i]))
      && (page.nextToken != "" <==> |answer.value.rows| == limit + 1)
      && (page.nextToken != "" ==> ParsePageToken(page.nextToken) == Some(offset + |page.items|))
  {
    ExactPageFromOutcome(answer, ScanEmployee, Translate, limit, offset);
  }

  /** `ListPageSound` for any scan and translation, so that the scan's own contract stays out of the proof. */
  lemma ExactPageFromOutcome<C, T>(answer: Result<RowStream<C>, Error>, scan: Row<C> -> Result<T, Error>,
                                   translate: Error -> Error, limit: nat, offset: nat)
    requires limit > 0 && offset + limit <= MaxInt
    requires QueryOutcome(answer, scan, translate).Ok?
    requires |answer.value.rows| <= limit + 1
    ensures var rows := QueryOutcome(answer, scan, translate).value;
            var page := FencepostExact(rows, limit, offset);
      && page == FencepostOver(rows, limit, offset)
      && |page.items| <= limit && |page.items| <= |answer.value.rows|
      && (forall i :: 0 <= i < |page.items| ==> scan(answer.value.rows[i]) == Ok(page.items[i]))
      && (page.nextToken != "" <==> |answer.value.rows| == limit + 1)
      && (page.nextToken != "" ==> ParsePageToken(page.nextToken) == Some(offset + |page.items|))
  {
    var rows := QueryOutcome(answer, scan, translate).value;
    QueryOutcomeOk(answer, scan, translate);
    assert |rows| == |answer.value.rows|;
    FencepostsAgree(rows, limit, offset);
    FencepostExactSound(rows, limit, offset);
    var page := FencepostExact(rows, limit, offset);
    assert page.items == rows[..|page.items|];
    forall i | 0 <= i < |page.items| ensures scan(answer.value.rows[i]) == Ok(page.items[i]) {
      assert page.items[i] == rows[i];
    }
  }
}

=== FILE: error_mapping.dfy ===
/**
 * `toStatusError`: the classification of a domain error into a gRPC status
 * code. The switch looks through wrapping with `errors.Is`, tries the
 * invalid-argument sentinels first, then the duplicates, then the missing
 * records, and sends everything else to `Internal`.
 */
module ErrorMapping {
  import opened Wrappers
  import opened Errors
  import UserErrors
  import CompanyErrors
  import EmployeeErrors

  datatype Code = InvalidArgument | AlreadyExists | NotFound | Internal

  /** `status.Error(code, err.Error())`: the code and the error whose text it carries. */
  datatype Status = Status(code: Code, cause: Error)

  /** The user and company validation sentinels of the first case. */
  const InvalidArgumentSentinels: set<Sentinel> := {
    UserErr(UserErrors.InvalidEmail), UserErr(UserErrors.InvalidName), UserErr(UserErrors.InvalidStatus),
    UserErr(UserErrors.InvalidID), UserErr(UserErrors.InvalidPageSize), UserErr(UserErrors.InvalidPageToken),
    CompanyErr(CompanyErrors.InvalidName), CompanyErr(CompanyErrors.InvalidCode), CompanyErr(CompanyErrors.InvalidStatus),
    CompanyErr(CompanyErrors.InvalidID), CompanyErr(CompanyErrors.InvalidPageSize), CompanyErr(CompanyErrors.InvalidPageToken)
  }

  /** The duplicate sentinels of the second case. */
  const AlreadyExistsSentinels: set<Sentinel> :=
    {UserErr(UserErrors.EmailAlreadyExists), CompanyErr(CompanyErrors.CodeAlreadyExists)}

  /** The missing-record sentinels of the third case. */
  const NotFoundSentinels: set<Sentinel> :=
    {UserErr(UserErrors.UserNotFound), CompanyErr(CompanyErrors.CompanyNotFound)}

  /** Whether `errors.Is(err, s)` holds for some `s` in `group`, asked one sentinel at a time. */
  predicate IsAny(err: Error, group: set<Sentinel>) {
    exists s :: s in group && Is(err, s)
  }

  /** The code of a non-nil error: the first case of the switch whose test holds. */
  function Classify(err: Error): Code {
    if IsAny(err, InvalidArgumentSentinels) then InvalidArgument
    else if IsAny(err, AlreadyExistsSentinels) then AlreadyExists
    else if IsAny(err, NotFoundSentinels) then NotFound
    else Internal
  }

  /**
   * `toStatusError`: nil stays nil, and a non-nil error becomes a status
   * carrying that error's text under the code of the first matching case.
   */
  function ToStatusError(err: Option<Error>): (r: Option<Status>)
    ensures err.None? <==> r.None?
    ensures err.Some? ==> r.value.cause == err.value
    ensures err.Some? ==>
      && (r.value.code == InvalidArgument <==> IsAny(err.value, InvalidArgumentSentinels))
      && (r.value.code == AlreadyExists <==>
            !IsAny(err.value, InvalidArgumentSentinels) && IsAny(err.value, AlreadyExistsSentinels))
      && (r.value.code == NotFound <==>
            !IsAny(err.value, InvalidArgumentSentinels) && !IsAny(err.value, AlreadyExistsSentinels)
            && IsAny(err.value, NotFoundSentinels))
  {
    match err
    case None => None
    case Some(e) => Some(Status(Classify(e), e))
  }

  /**
   * An independent reading of the table: the code is decided by which of
   * the three groups meet the set of sentinels reachable in the chain.
   */
  function CodeOfSentinels(reachable: set<Sentinel>): Code {
    if reachable * InvalidArgumentSentinels != {} then InvalidArgument
    else if reachable * AlreadyExistsSentinels != {} then AlreadyExists
    else if reachable * NotFoundSentinels != {} then NotFound
    else Internal
  }

  /** Asking `errors.Is` for each member of a group is asking whether the group meets the reachable set. */
  lemma IsAnyIffMeets(err: Error, group: set<Sentinel>)
    ensures IsAny(err, group) <==> Sentinels(err) * group != {}
  {
    if IsAny(err, group) {
      var s :| s in group && Is(err, s);
      IsIffReachable(err, s);
      assert s in Sentinels(err) * group;
    }
    if Sentinels(err) * group != {} {
      var s :| s in Sentinels(err) * group;
      IsIffReachable(err, s);
    }
  }

  /** The switch agrees with the set reading for every error. */
  lemma ClassifyBySentinels(err: Error)
    ensures ToStatusError(Some(err)).value.code == CodeOfSentinels(Sentinels(err))
  {
    IsAnyIffMeets(err, InvalidArgumentSentinels);
    IsAnyIffMeets(err, AlreadyExistsSentinels);
    IsAnyIffMeets(err, NotFoundSentinels);
  }

  /**
   * Classification looks through wrapping: `fmt.Errorf("...: %w", err)` gets
   * the code of `err`, so a wrapped `ErrInvalidID` is an invalid argument.
   */
  lemma WrappingKeepsCode(context: string, err: Error)
    ensures ToStatusError(Some(Wrapped(context, err))).value.code == ToStatusError(Some(err)).value.code
  {
    ClassifyBySentinels(err);
    ClassifyBySentinels(Wrapped(context, err));
  }

  /** The blank-id errors of the user and company services are invalid arguments. */
  lemma WrappedInvalidIdIsInvalidArgument(context: string)
    ensures ToStatusError(Some(Wrapped(context, Sentinel(UserErr(UserErrors.InvalidID))))).value.code == InvalidArgument
    ensures ToStatusError(Some(Wrapped(context, Sentinel(CompanyErr(CompanyErrors.InvalidID))))).value.code == InvalidArgument
  {
    assert Is(Wrapped(context, Sentinel(UserErr(UserErrors.InvalidID))), UserErr(UserErrors.InvalidID));
    assert Is(Wrapped(context, Sentinel(CompanyErr(CompanyErrors.InvalidID))), CompanyErr(CompanyErrors.InvalidID));
  }

  /**
   * Every employee sentinel, however wrapped, and every error without a
   * user or company sentinel in its chain (a PostgreSQL error, a plain
   * message, "tx closed") is reported as `Internal`.
   */
  lemma EmployeeErrorsAreInternal(err: Error)
    requires forall s :: s in Sentinels(err) ==> !s.UserErr? && !s.CompanyErr?
    ensures ToStatusError(Some(err)).value.code == Internal
  {
    ClassifyBySentinels(err);
    assert Sentinels(err) * InvalidArgumentSentinels == {};
    assert Sentinels(err) * AlreadyExistsSentinels == {};
    assert Sentinels(err) * NotFoundSentinels == {};
  }

  /**
   * The order of the cases decides a chain holding sentinels of several
   * groups: a validation error joined with anything is an invalid argument,
   * and a duplicate joined with a missing record is a duplicate.
   */
  lemma FirstCaseWins(a: Error, b: Error)
    ensures IsAny(a, InvalidArgumentSentinels) ==> ToStatusError(Some(Joined(a, b))).value.code == InvalidArgument
    ensures !IsAny(Joined(a, b), InvalidArgumentSentinels) && IsAny(a, AlreadyExistsSentinels) && IsAny(b, NotFoundSentinels)
      ==> ToStatusError(Some(Joined(a, b))).value.code == AlreadyExists
  {
    if IsAny(a, InvalidArgumentSentinels) {
      var s :| s in InvalidArgumentSentinels && Is(a, s);
      assert Is(Joined(a, b), s);
    }
    if IsAny(a, AlreadyExistsSentinels) {
      var s :| s in AlreadyExistsSentinels && Is(a, s);
      assert Is(Joined(a, b), s);
    }
  }
}

=== FILE: errors.dfy ===
/**
 * The sentinel errors of the user package (`user.Err...`), including the
 * page-size and page-token sentinels that its service and repository use.
 */
module UserErrors {
  datatype Kind =
    | UserNotFound
    | EmailAlreadyExists
    | InvalidEmail
    | InvalidName
    | InvalidStatus
    | InvalidID
    | InvalidPageSize
    | InvalidPageToken
}

/** The sentinel errors of the company package (`company.Err...`). */
module CompanyErrors {
  datatype Kind =
    | CompanyNotFound
    | CodeAlreadyExists
    | InvalidName
    | InvalidCode
    | InvalidStatus
    | InvalidID
    | InvalidPageSize
    | InvalidPageToken
}

/**
 * The sentinel errors of the employee package (`employee.Err...`), including
 * the user-reference sentinels that its service and repository use.
 */
module EmployeeErrors {
  datatype Kind =
    | InvalidID
    | InvalidCompanyID
    | InvalidEmployeeCode
    | InvalidUserID
    | InvalidEmail
    | InvalidLastName
    | InvalidFirstName
    | InvalidStatus
    | InvalidPageSize
    | InvalidPageToken
    | InvalidDateRange
    | EmployeeNotFound
    | CompanyNotFound
    | UserNotFound
    | EmployeeCodeAlreadyExists
}

/**
 * Go error values as a tree: a sentinel (`errors.New`), a PostgreSQL error
 * (`*pgconn.PgError`), a plain message (`fmt.Errorf` without `%w`), a
 * wrapped error (`fmt.Errorf("ctx: %w", err)`) and a join (`errors.Join`).
 * `errors.Is` and `errors.As` walk that tree in pre-order.
 */
module Errors {
  import opened Wrappers
  import UserErrors
  import CompanyErrors
  import EmployeeErrors

  /** Values compared by identity with `errors.Is`. */
  datatype Sentinel =
    | NoRows                        // pgx.ErrNoRows
    | TxClosed                      // pgx.ErrTxClosed
    | UserErr(user: UserErrors.Kind)
    | CompanyErr(company: CompanyErrors.Kind)
    | EmployeeErr(employee: EmployeeErrors.Kind)
    | Other(name: string)           // any other errors.New value

  /** The fields of `*pgconn.PgError` the repositories inspect. */
  datatype PgError = PgError(code: string, constraintName: string)

  /** SQLSTATE codes the repositories translate. */
  const UniqueViolation: string := "23505"
  const ForeignKeyViolation: string := "23503"
  const CheckViolation: string := "23514"

  datatype Error =
    | Sentinel(sentinel: Sentinel)
    | Pg(pg: PgError)
    | Message(text: string)
    | Wrapped(context: string, cause: Error)
    | Joined(first: Error, second: Error)

  /** `errors.Is(e, s)`: `s` occurs somewhere in the chain of `e`. */
  predicate Is(e: Error, s: Sentinel) {
    match e
    case Sentinel(x) => x == s
    case Pg(_) => false
    case Message(_) => false
    case Wrapped(_, cause) => Is(cause, s)
    case Joined(a, b) => Is(a, s) || Is(b, s)
  }

  /** `errors.As(e, &pgErr)`: the first PostgreSQL error in pre-order. */
  function AsPg(e: Error): (r: Option<PgError>)
    ensures r.Some? ==> PgIn(e, r.value)
  {
    match e
    case Sentinel(_) => None
    case Pg(p) => Some(p)
    case Message(_) => None
    case Wrapped(_, cause) => AsPg(cause)
    case Joined(a, b) => if AsPg(a).Some? then AsPg(a) else AsPg(b)
  }

  /** Whether the PostgreSQL error `p` occurs anywhere in the chain of `e`. */
  predicate PgIn(e: Error, p: PgError) {
    match e
    case Sentinel(_) => false
    case Pg(q) => q == p
    case Message(_) => false
    case Wrapped(_, cause) => PgIn(cause, p)
    case Joined(a, b) => PgIn(a, p) || PgIn(b, p)
  }

  /** Every sentinel reachable in the chain of `e`. */
  function Sentinels(e: Error): set<Sentinel> {
    match e
    case Sentinel(x) => {x}
    case Pg(_) => {}
    case Message(_) => {}
    case Wrapped(_, cause) => Sentinels(cause)
    case Joined(a, b) => Sentinels(a) + Sentinels(b)
  }

  /** `errors.Is` agrees with membership in the set of reachable sentinels. */
  lemma {:induction false} IsIffReachable(e: Error, s: Sentinel)
    ensures Is(e, s) <==> s in Sentinels(e)
  {
    match e
    case Sentinel(_) =>
    case Pg(_) =>
    case Message(_) =>
    case Wrapped(_, cause) => IsIffReachable(cause, s);
    case Joined(a, b) => IsIffReachable(a, s); IsIffReachable(b, s);
  }

  /** `errors.As` finds a PostgreSQL error whenever one is anywhere in the chain. */
  lemma {:induction false} AsPgFindsAny(e: Error, p: PgError)
    requires PgIn(e, p)
    ensures AsPg(e).Some?
  {
    match e
    case Pg(_) =>
    case Wrapped(_, cause) => AsPgFindsAny(cause, p);
    case Joined(a, b) =>
      if PgIn(a, p) {
        AsPgFindsAny(a, p);
      } else {
        AsPgFindsAny(b, p);
      }
  }
}

=== FILE: paging.dfy ===
/**
 * Offset pagination as the services and repositories share it: the page
 * size rule, the page-token parser, the repositories' "fetch one more row"
 * fencepost that renders the next token, and the in-memory repositories'
 * offset window. The next token is the decimal offset of the next page.
 */
module Paging {
  import opened Wrappers
  import opened Strings

  const DefaultPageSize: int := 50
  const MaxPageSize: int := 200

  /**
   * `normalizePageSize`: a size of zero or less means the default, a size
   * above the maximum is refused (None), anything else is kept.
   */
  function NormalizePageSize(pageSize: int): (r: Option<int>)
    ensures r.Some? ==> 1 <= r.value <= MaxPageSize
    ensures r.None? <==> pageSize > MaxPageSize
    ensures pageSize <= 0 ==> r == Some(DefaultPageSize)
    ensures 0 < pageSize <= MaxPageSize ==> r == Some(pageSize)
  {
    if pageSize <= 0 then Some(DefaultPageSize)
    else if pageSize > MaxPageSize then None
    else Some(pageSize)
  }

  /**
   * `parsePageToken`: a blank token is offset 0; otherwise the whole token
   * must be a 64-bit decimal integer that is not negative (None otherwise).
   * Only the blank test trims: surrounding white space is refused.
   */
  function ParsePageToken(token: string): (r: Option<nat>)
    ensures IsBlank(token) ==> r == Some(0)
    ensures !IsBlank(token) ==> (r.Some? <==> Atoi(token).Some? && Atoi(token).value >= 0)
    ensures !IsBlank(token) && r.Some? ==> r.value == Atoi(token).value
  {
    if IsBlank(token) then Some(0)
    else
      match Atoi(token)
      case None => None
      case Some(offset) => if offset < 0 then None else Some(offset)
  }

  /** Parsing the rendered offset gives the offset back. */
  lemma TokenRoundTrip(n: nat)
    requires n <= MaxInt
    ensures ParsePageToken(Itoa(n)) == Some(n)
  {
    ItoaNotBlank(n);
    AtoiItoa(n);
  }

  /** A rendered negative number is a refused token. */
  lemma NegativeTokenRejected(n: int)
    requires MinInt <= n < 0
    ensures ParsePageToken(Itoa(n)).None?
  {
    ItoaNotBlank(n);
    AtoiItoa(n);
  }

  /**
   * A token that is not blank and does not start with a sign or a digit is
   * refused.
   */
  lemma BadLeadRejected(t: string, k: nat)
    requires k < |t| && !IsSpace(t[k])
    requires t[0] != '+' && t[0] != '-' && !IsDigit(t[0])
    ensures ParsePageToken(t).None?
  {
    BlankIffAllSpace(t);
    assert !AllDigits(t);
  }

  /** " 5" is refused: the parser itself does not trim. */
  lemma PaddedTokenRejected()
    ensures ParsePageToken(" 5").None?
  {
    var t := " 5";
    assert !IsSpace(t[1]) && !IsDigit(t[0]);
    BadLeadRejected(t, 1);
  }

  /** "abc" is refused. */
  lemma WordTokenRejected()
    ensures ParsePageToken("abc").None?
  {
    var t := "abc";
    assert !IsSpace(t[0]) && !IsDigit(t[0]);
    BadLeadRejected(t, 0);
  }

  /** One page of results and the token of the page after it ("" at the end). */
  datatype Page<T> = Page(items: seq<T>, nextToken: string)

  /**
   * The fencepost of the employee repository: the query asked for
   * `limit + 1` rows, and exactly that many means there is another page.
   */
  function FencepostExact<T>(rows: seq<T>, limit: nat, offset: nat): Page<T> {
    if |rows| == limit + 1 then Page(rows[..limit], Itoa(offset + limit))
    else Page(rows, "")
  }

  /**
   * The fencepost of the company and user repositories: more than `limit`
   * rows means there is another page.
   */
  function FencepostOver<T>(rows: seq<T>, limit: nat, offset: nat): Page<T> {
    if |rows| > limit then Page(rows[..limit], Itoa(offset + limit))
    else Page(rows, "")
  }

  /**
   * What a fencepost page promises when the engine honours `LIMIT limit+1`:
   * at most `limit` items, a prefix of the rows, a token exactly when rows
   * were held back, and that token parses to the offset just past the page.
   */
  lemma FencepostOverSound<T>(rows: seq<T>, limit: nat, offset: nat)
    requires offset + limit <= MaxInt
    ensures var p := FencepostOver(rows, limit, offset);
      && |p.items| <= limit
      && p.items == rows[..|p.items|]
      && (p.nextToken != "" <==> |rows| > limit)
      && (p.nextToken != "" ==> ParsePageToken(p.nextToken) == Some(offset + |p.items|))
  {
    var p := FencepostOver(rows, limit, offset);
    ItoaNotBlank(offset + limit);
    if |rows| > limit {
      TokenRoundTrip(offset + limit);
    }
  }

  /** The two fenceposts agree whenever the engine returned at most `limit + 1` rows. */
  lemma FencepostsAgree<T>(rows: seq<T>, limit: nat, offset: nat)
    requires |rows| <= limit + 1
    ensures FencepostExact(rows, limit, offset) == FencepostOver(rows, limit, offset)
  {
  }

  /** The page token of the employee fencepost also parses to the next offset. */
  lemma FencepostExactSound<T>(rows: seq<T>, limit: nat, offset: nat)
    requires |rows| <= limit + 1 && offset + limit <= MaxInt
    ensures var p := FencepostExact(rows, limit, offset);
      && |p.items| <= limit
      && (p.nextToken != "" <==> |rows| == limit + 1)
      && (p.nextToken != "" ==> ParsePageToken(p.nextToken) == Some(offset + |p.items|))
  {
    FencepostsAgree(rows, limit, offset);
    FencepostOverSound(rows, limit, offset);
  }

  /**
   * The in-memory repositories' page: the items from `offset` on, at most
   * `limit` of them, and the end offset as the token when items remain.
   */
  function OffsetWindow<T>(all: seq<T>, limit: nat, offset: nat): (p: Page<T>)
    ensures |p.items| <= limit
  {
    if offset > |all| then Page([], "")
    else
      var end := if offset + limit > |all| then |all| else offset + limit;
      Page(all[offset..end], if end < |all| then Itoa(end) else "")
  }

  /** The in-memory repositories' `List` cutting the window out of the filtered records. */
  method TakeWindow<T>(all: seq<T>, limit: nat, offset: nat) returns (page: Page<T>)
    ensures page == OffsetWindow(all, limit, offset)
  {
    if offset > |all| {
      return Page([], "");
    }
    var end := offset + limit;
    if end > |all| {
      end := |all|;
    }
    var token := "";
    if end < |all| {
      token := Itoa(end);
    }
    page := Page(all[offset..end], token);
  }

  /**
   * The rows a SQL engine returns for `LIMIT limit + 1 OFFSET offset` over
   * the filtered, ordered rows `all`.
   */
  function LimitOffset<T>(all: seq<T>, limit: nat, offset: nat): (r: seq<T>)
    ensures |r| <= limit
  {
    if offset >= |all| then []
    else if offset + limit > |all| then all[offset..]
    else all[offset..offset + limit]
  }

  /**
   * The in-memory window and the SQL fencepost over the same rows give the
   * same page: the repositories and their in-memory stand-ins agree.
   */
  lemma WindowMatchesFencepost<T>(all: seq<T>, limit: nat, offset: nat)
    requires limit > 0
    ensures OffsetWindow(all, limit, offset) == FencepostOver(LimitOffset(all, limit + 1, offset), limit, offset)
  {
    var rows := LimitOffset(all, limit + 1, offset);
    if offset < |all| && offset + limit < |all| {
      assert rows[..limit] == all[offset..offset + limit];
    }
  }

  /**
   * Following the next tokens from `offset` until the token is empty, each
   * page read with `OffsetWindow` and each token read back with `parse`.
   */
  function WalkWith<T>(all: seq<T>, limit: nat, offset: nat, parse: string -> Option<nat>): seq<T>
    requires limit > 0
    decreases |all| - offset
  {
    var page := OffsetWindow(all, limit, offset);
    if page.nextToken == "" then page.items
    else
      var next := parse(page.nextToken);
      if next.None? || next.value <= offset then page.items
      else page.items + WalkWith(all, limit, next.value, parse)
  }

  /** A client paging with the service's own token parser. */
  function Walk<T>(all: seq<T>, limit: nat, offset: nat): seq<T>
    requires limit > 0
  {
    WalkWith(all, limit, offset, ParsePageToken)
  }

  /** `parse` reads every rendered offset back. */
  predicate ReadsBackOffsets(parse: string -> Option<nat>) {
    forall n: nat :: n <= MaxInt ==> parse(Itoa(n)) == Some(n)
  }

  /** A page that is not the last one is followed by the walk from its end offset. */
  lemma WalkStep<T>(all: seq<T>, limit: nat, offset: nat, parse: string -> Option<nat>)
    requires limit > 0 && |all| <= MaxInt && offset + limit < |all|
    requires ReadsBackOffsets(parse)
    ensures WalkWith(all, limit, offset, parse)
         == all[offset..offset + limit] + WalkWith(all, limit, offset + limit, parse)
  {
    var end := offset + limit;
    var page := OffsetWindow(all, limit, offset);
    assert page == Page(all[offset..end], Itoa(end));
    ItoaNotBlank(end);
    assert page.nextToken != "" && parse(page.nextToken) == Some(end);
  }

  /** A suffix is the slice up to a later index followed by the suffix from there. */
  lemma SuffixSplit<T>(s: seq<T>, i: nat, j: nat)
    requires i <= j <= |s|
    ensures s[i..] == s[i..j] + s[j..]
  {
  }

  /** The last page ends the walk. */
  lemma WalkLast<T>(all: seq<T>, limit: nat, offset: nat, parse: string -> Option<nat>)
    requires limit > 0 && offset <= |all| <= offset + limit
    ensures WalkWith(all, limit, offset, parse) == all[offset..]
  {
    assert OffsetWindow(all, limit, offset) == Page(all[offset..|all|], "");
  }

  /** Any parser that reads rendered offsets back visits every item from `offset` on. */
  lemma {:induction false} WalkWithVisitsAll<T>(all: seq<T>, limit: nat, offset: nat, parse: string -> Option<nat>)
    requires limit > 0 && |all| <= MaxInt && offset <= |all|
    requires ReadsBackOffsets(parse)
    ensures WalkWith(all, limit, offset, parse) == all[offset..]
    decreases |all| - offset
  {
    if offset + limit < |all| {
      WalkStep(all, limit, offset, parse);
      WalkWithVisitsAll(all, limit, offset + limit, parse);
      SuffixSplit(all, offset, offset + limit);
    } else {
      WalkLast(all, limit, offset, parse);
    }
  }

  /** `ParsePageToken` reads every rendered offset back. */
  lemma PageTokensReadBack()
    ensures ReadsBackOffsets(ParsePageToken)
  {
    forall n: nat | n <= MaxInt
      ensures ParsePageToken(Itoa(n)) == Some(n)
    {
      TokenRoundTrip(n);
    }
  }

  /**
   * Paging from any offset by next tokens yields every item from that
   * offset on, each once and in order.
   */
  lemma WalkVisitsAll<T>(all: seq<T>, limit: nat, offset: nat)
    requires limit > 0 && |all| <= MaxInt && offset <= |all|
    ensures Walk(all, limit, offset) == all[offset..]
  {
    PageTokensReadBack();
    WalkWithVisitsAll(all, limit, offset, ParsePageToken);
  }
}

=== FILE: sql.dfy ===
/**
 * The database as the repositories see it. A statement is a command shape
 * plus its bind arguments; the SQL text stays abstract except for the
 * WHERE / LIMIT / OFFSET fragments of the list queries. What the engine
 * answers to each request is an oracle: a `Database` of three functions, one
 * per pgx entry point (`Query`, `QueryRow`, `Exec`).
 */
module Sql {
  import opened Wrappers
  import opened Strings
  import opened Errors
  import opened Clock
  import opened Transaction
  import opened Paging

  /** A bind argument. */
  datatype Arg = Text(text: string) | Int(n: int) | Null | At(time: Time)

  datatype Table = Users | Companies | Employees

  datatype Command =
    | InsertReturning(into: Table, columns: seq<string>)
    | UpdateReturning(target: Table, setColumns: seq<string>, key: string)
    | DeleteById(from: Table)
    | SelectWhere(source: Table, keys: seq<string>)
    | SelectPage(page: Table, whereClause: string, limitPlaceholder: string, offsetPlaceholder: string)

  datatype Statement = Statement(command: Command, args: seq<Arg>)

  /** A statement together with the queryer it was sent to. */
  datatype Request = Request(on: Queryer, statement: Statement)

  /** One row as `Scan` sees it: its columns, or the error `Scan` reports. */
  datatype Row<C> = Columns(columns: C) | ScanError(err: Error)

  /** The rows of a `Query`, then what `rows.Err()` reports after the last one. */
  datatype RowStream<C> = RowStream(rows: seq<Row<C>>, finalErr: Option<Error>)

  /**
   * The engine: the rows a query yields, the single row a `QueryRow` yields
   * (`ScanError(Sentinel(NoRows))` when there is none), and the affected-row
   * count or error of an `Exec`.
   */
  datatype Database<C> = Database(
    query: Request -> Result<RowStream<C>, Error>,
    queryRow: Request -> Row<C>,
    exec: Request -> Result<nat, Error>)

  /** The `$n` bind placeholder. */
  function Placeholder(n: nat): (r: string)
    ensures |r| >= 2 && r[0] == '$'
  {
    "$" + Itoa(n)
  }

  /** Different positions never share a placeholder. */
  lemma PlaceholderInjective(m: nat, n: nat)
    requires Placeholder(m) == Placeholder(n)
    ensures m == n
  {
    assert Placeholder(m)[1..] == NatToString(m);
    assert Placeholder(n)[1..] == NatToString(n);
    NatToStringInjective(m, n);
  }

  /**
   * Scanning every row in order: the scanned values, or the first scan
   * failure.
   */
  function ScanAll<C, T>(rows: seq<Row<C>>, scan: Row<C> -> Result<T, Error>): Result<seq<T>, Error>
    decreases |rows|
  {
    if rows == [] then Ok([])
    else
      match ScanAll(rows[..|rows| - 1], scan)
      case Err(e) => Err(e)
      case Ok(items) =>
        match scan(rows[|rows| - 1])
        case Err(e) => Err(e)
        case Ok(item) => Ok(items + [item])
  }

  /** When every row scans, each item is the scan of the row at its position. */
  lemma {:induction false} ScanAllPointwise<C, T>(rows: seq<Row<C>>, scan: Row<C> -> Result<T, Error>)
    requires ScanAll(rows, scan).Ok?
    ensures |ScanAll(rows, scan).value| == |rows|
    ensures forall i :: 0 <= i < |rows| ==> scan(rows[i]) == Ok(ScanAll(rows, scan).value[i])
    decreases |rows|
  {
    if rows != [] {
      var front := rows[..|rows| - 1];
      ScanAllPointwise(front, scan);
      forall i | 0 <= i < |rows| - 1 ensures rows[i] == front[i] {}
    }
  }

  /** A scan failure is the failure of the first row that does not scan. */
  lemma {:induction false} ScanAllFirstFailure<C, T>(rows: seq<Row<C>>, scan: Row<C> -> Result<T, Error>)
    requires ScanAll(rows, scan).Err?
    ensures exists k ::
      && 0 <= k < |rows|
      && scan(rows[k]) == Err(ScanAll(rows, scan).error)
      && (forall j :: 0 <= j < k ==> scan(rows[j]).Ok?)
    decreases |rows|
  {
    var front := rows[..|rows| - 1];
    if ScanAll(front, scan).Err? {
      ScanAllFirstFailure(front, scan);
      var k :|
        && 0 <= k < |front|
        && scan(front[k]) == Err(ScanAll(front, scan).error)
        && (forall j :: 0 <= j < k ==> scan(front[j]).Ok?);
      assert rows[k] == front[k];
      assert forall j :: 0 <= j < k ==> rows[j] == front[j];
    } else {
      ScanAllPointwise(front, scan);
      var k := |rows| - 1;
      assert forall j :: 0 <= j < k ==> rows[j] == front[j];
    }
  }

  /**
   * The `for rows.Next() { ...Scan... }` loop: stop at the first row that
   * does not scan, otherwise collect every scanned value.
   */
  method CollectRows<C, T>(rows: seq<Row<C>>, scan: Row<C> -> Result<T, Error>)
    returns (items: seq<T>, failure: Option<Error>)
    ensures failure.None? <==> ScanAll(rows, scan).Ok?
    ensures failure.None? ==> items == ScanAll(rows, scan).value
    ensures failure.Some? ==> failure.value == ScanAll(rows, scan).error
  {
    items, failure := [], None;
    var i := 0;
    while i < |rows|
      invariant 0 <= i <= |rows|
      invariant ScanAll(rows[..i], scan) == Ok(items)
    {
      assert rows[..i + 1][..i] == rows[..i];
      match scan(rows[i]) {
        case Err(e) =>
          assert ScanAll(rows[..i + 1], scan) == Err(e);
          ScanAllErrExtends(rows, scan, i + 1);
          return [], Some(e);
        case Ok(item) =>
          items := items + [item];
      }
      i := i + 1;
    }
    assert rows[..i] == rows;
  }

  /** Once a prefix fails to scan, every longer prefix fails the same way. */
  lemma {:induction false} ScanAllErrExtends<C, T>(rows: seq<Row<C>>, scan: Row<C> -> Result<T, Error>, n: nat)
    requires n <= |rows| && ScanAll(rows[..n], scan).Err?
    ensures ScanAll(rows, scan) == ScanAll(rows[..n], scan)
    decreases |rows| - n
  {
    if n < |rows| {
      assert rows[..n + 1][..n] == rows[..n];
      ScanAllErrExtends(rows, scan, n + 1);
    } else {
      assert rows[..n] == rows;
    }
  }

  /**
   * The WHERE fragment of a list query: empty without conditions, otherwise
   * " WHERE " and the conditions joined by " AND ".
   */
  function WhereClause(conditions: seq<string>): (r: string)
    ensures conditions == [] <==> r == ""
  {
    if |conditions| > 0 then " WHERE " + JoinWith(conditions, " AND ") else ""
  }

  /**
   * What a list query yields before the fencepost: the translated query
   * error, else the translated error of the first row that does not scan,
   * else the translated `rows.Err()`, else every scanned row in order.
   */
  function QueryOutcome<C, T>(answer: Result<RowStream<C>, Error>, scan: Row<C> -> Result<T, Error>,
                              translate: Error -> Error): Result<seq<T>, Error>
  {
    match answer
    case Err(e) => Err(translate(e))
    case Ok(stream) =>
      match ScanAll(stream.rows, scan)
      case Err(e) => Err(translate(e))
      case Ok(items) => if stream.finalErr.Some? then Err(translate(stream.finalErr.value)) else Ok(items)
  }

  /**
   * A successful list query returns one item per row, each the scan of its
   * row, and only when the query, every scan and `rows.Err()` succeeded.
   */
  lemma QueryOutcomeOk<C, T>(answer: Result<RowStream<C>, Error>, scan: Row<C> -> Result<T, Error>,
                             translate: Error -> Error)
    requires QueryOutcome(answer, scan, translate).Ok?
    ensures answer.Ok? && answer.value.finalErr.None?
    ensures var items := QueryOutcome(answer, scan, translate).value;
      && |items| == |answer.value.rows|
      && forall i :: 0 <= i < |items| ==> scan(answer.value.rows[i]) == Ok(items[i])
  {
    ScanAllPointwise(answer.value.rows, scan);
  }

  /**
   * A failed list query reports the translation of the query error, of the
   * first failing scan, or of `rows.Err()`.
   */
  lemma QueryOutcomeErr<C, T>(answer: Result<RowStream<C>, Error>, scan: Row<C> -> Result<T, Error>,
                              translate: Error -> Error)
    requires QueryOutcome(answer, scan, translate).Err?
    ensures var e := QueryOutcome(answer, scan, translate).error;
      || (answer.Err? && e == translate(answer.error))
      || (answer.Ok? && exists k :: 0 <= k < |answer.value.rows| && scan(answer.value.rows[k]).Err?
                                 && e == translate(scan(answer.value.rows[k]).error))
      || (answer.Ok? && answer.value.finalErr.Some? && e == translate(answer.value.finalErr.value))
  {
    if answer.Ok? && ScanAll(answer.value.rows, scan).Err? {
      ScanAllFirstFailure(answer.value.rows, scan);
    }
  }

  /**
   * The rest of the company and user `List` once the query has answered: a
   * query error, the first row that fails to scan and `rows.Err()` are
   * translated and returned; otherwise more than `limit` rows mean a further page, whose
   * token is `offset + limit`, and the rows are cut to `limit`.
   */
  method ReadOverPage<C, T>(answer: Result<RowStream<C>, Error>, scan: Row<C> -> Result<T, Error>,
                            translate: Error -> Error, limit: nat, offset: nat)
    returns (r: Result<Page<T>, Error>)
    ensures var outcome := QueryOutcome(answer, scan, translate);
      && (outcome.Err? ==> r == Err(outcome.error))
      && (outcome.Ok? ==> r == Ok(FencepostOver(outcome.value, limit, offset)))
  {
    if answer.Err? {
      return Err(translate(answer.error));
    }

    var items, failure := CollectRows(answer.value.rows, scan);
    if failure.Some? {
      return Err(translate(failure.value));
    }

    if answer.value.finalErr.Some? {
      return Err(translate(answer.value.finalErr.value));
    }

    var nextToken := "";
    if |items| > limit {
      nextToken := Itoa(offset + limit);
      items := items[..limit];
    }
    r := Ok(Page(items, nextToken));
  }

  /**
   * The rest of the employee `List` once the query has answered: a query error, the
   * first row that fails to scan and `rows.Err()` are translated and
   * returned; otherwise the rows are cut at the `len == limit + 1`
   * fencepost, and the next token is `offset + limit`.
   */
  method ReadExactPage<C, T>(answer: Result<RowStream<C>, Error>, scan: Row<C> -> Result<T, Error>,
                             translate: Error -> Error, limit: nat, offset: nat)
    returns (r: Result<Page<T>, Error>)
    ensures var outcome := QueryOutcome(answer, scan, translate);
      && (outcome.Err? ==> r == Err(outcome.error))
      && (outcome.Ok? ==> r == Ok(FencepostExact(outcome.value, limit, offset)))
  {
    if answer.Err? {
      return Err(translate(answer.error));
    }

    var items, failure := CollectRows(answer.value.rows, scan);
    if failure.Some? {
      return Err(translate(failure.value));
    }

    if answer.value.finalErr.Some? {
      return Err(translate(answer.value.finalErr.value));
    }

    var limitWithBuffer := limit + 1;
    var nextToken := "";
    if |items| == limitWithBuffer {
      items := items[..limit];
      nextToken := Itoa(offset + limit);
    }
    r := Ok(Page(items, nextToken));
  }
}

=== FILE: store.dfy ===
/**
 * Bookkeeping the three in-memory repositories share: ids of the form
 * prefix + running number, and the insertion-order list of ids from which a
 * delete removes one entry.
 */
module Store {
  import opened Strings

  /** No entry occurs twice. */
  predicate Distinct<T(==)>(s: seq<T>) {
    forall i, j :: 0 <= i < j < |s| ==> s[i] != s[j]
  }

  /** The `k`-th id handed out under `prefix`, as `fmt.Sprintf("%s%d", prefix, k)` renders it. */
  function SequentialId(prefix: string, k: nat): (r: string)
    ensures |r| > |prefix| && r[..|prefix|] == prefix
  {
    prefix + NatToString(k)
  }

  /** Different running numbers give different ids. */
  lemma SequentialIdInjective(prefix: string, a: nat, b: nat)
    requires SequentialId(prefix, a) == SequentialId(prefix, b)
    ensures a == b
  {
    assert SequentialId(prefix, a)[|prefix|..] == NatToString(a);
    assert SequentialId(prefix, b)[|prefix|..] == NatToString(b);
    NatToStringInjective(a, b);
  }

  /** The list with its first occurrence of `x` removed. */
  function Without<T(==)>(s: seq<T>, x: T): (r: seq<T>)
    ensures x !in s ==> r == s
  {
    if s == [] then []
    else if s[0] == x then s[1..]
    else [s[0]] + Without(s[1..], x)
  }

  /** Removing the entry at `idx` of a list without repeats. */
  lemma {:induction false} WithoutAt<T>(s: seq<T>, idx: nat)
    requires Distinct(s) && idx < |s|
    ensures Without(s, s[idx]) == s[..idx] + s[idx + 1..]
    decreases idx
  {
    if idx > 0 {
      var tail := s[1..];
      assert s[0] != s[idx];
      assert Distinct(tail) by {
        forall i, j | 0 <= i < j < |tail| ensures tail[i] != tail[j] {
          assert tail[i] == s[i + 1] && tail[j] == s[j + 1];
        }
      }
      WithoutAt(tail, idx - 1);
      assert tail[idx - 1] == s[idx];
      assert s[..idx] == [s[0]] + tail[..idx - 1];
      assert s[idx + 1..] == tail[idx..];
    }
  }

  /**
   * Removing one entry from a list without repeats leaves a list without
   * repeats holding exactly the other entries.
   */
  lemma WithoutKeepsDistinct<T>(s: seq<T>, idx: nat)
    requires Distinct(s) && idx < |s|
    ensures var r := s[..idx] + s[idx + 1..];
      && Distinct(r)
      && (forall x :: x in r <==> x in s && x != s[idx])
  {
    var r := s[..idx] + s[idx + 1..];
    forall i, j | 0 <= i < j < |r| ensures r[i] != r[j] {
      var i' := if i < idx then i else i + 1;
      var j' := if j < idx then j else j + 1;
      assert r[i] == s[i'] && r[j] == s[j'];
    }
    forall x ensures x in r <==> x in s && x != s[idx] {
      if x in r {
        var i :| 0 <= i < |r| && r[i] == x;
        var i' := if i < idx then i else i + 1;
        assert s[i'] == x && i' != idx;
      }
      if x in s && x != s[idx] {
        var i :| 0 <= i < |s| && s[i] == x;
        if i < idx {
          assert r[i] == x;
        } else {
          assert r[i - 1] == x;
        }
      }
    }
  }

  /**
   * The `for i, existing := range order { if existing == id { ... } }` search:
   * the position of `x` in `s`.
   */
  method IndexOf<T(==)>(s: seq<T>, x: T) returns (idx: nat)
    requires x in s
    ensures idx < |s| && s[idx] == x && x !in s[..idx]
  {
    idx := 0;
    while s[idx] != x
      invariant idx < |s| && x in s[idx..] && x !in s[..idx]
      decreases |s| - idx
    {
      assert s[..idx + 1] == s[..idx] + [s[idx]];
      idx := idx + 1;
    }
  }

  /** The stored values in the order of `order`. */
  function InOrder<K, V>(entries: map<K, V>, order: seq<K>): (r: seq<V>)
    requires forall k :: k in order ==> k in entries
    ensures |r| == |order|
    ensures forall i :: 0 <= i < |order| ==> r[i] == entries[order[i]]
  {
    seq(|order|, i requires 0 <= i < |order| => entries[order[i]])
  }
}

=== FILE: strings.dfy ===
/**
 * The pieces of Go's `strings`, `strconv` and `regexp` packages the services
 * and repositories rely on: `strings.TrimSpace`, `strings.ToLower`,
 * `strings.Join`, `strconv.Itoa`, `strconv.Atoi` (64-bit `int`) and the
 * one code pattern `^[a-z0-9][a-z0-9_-]*$`.
 */
module Strings {
  import opened Wrappers

  /** The range of Go's `int` on a 64-bit platform. */
  const MaxInt: int := 0x7fff_ffff_ffff_ffff
  const MinInt: int := -0x8000_0000_0000_0000

  // ---------------------------------------------------------------------
  // Whitespace

  /** Go's `unicode.IsSpace`, the test `strings.TrimSpace` applies. */
  predicate IsSpace(c: char) {
    var n := c as int;
    (9 <= n <= 13) || n == 32 || n == 0x85 || n == 0xA0 || n == 0x1680
    || (0x2000 <= n <= 0x200A) || n == 0x2028 || n == 0x2029
    || n == 0x202F || n == 0x205F || n == 0x3000
  }

  predicate AllSpace(s: string) {
    forall i :: 0 <= i < |s| ==> IsSpace(s[i])
  }

  /** Drops the leading white space: what is left is a suffix of `s`. */
  function TrimLeft(s: string): (r: string)
    ensures |r| <= |s| && r == s[|s| - |r|..]
    ensures AllSpace(s[..|s| - |r|])
    ensures r != [] ==> !IsSpace(r[0])
  {
    if s != [] && IsSpace(s[0]) then
      var r := TrimLeft(s[1..]);
      assert s[..|s| - |r|] == [s[0]] + s[1..][..|s| - 1 - |r|];
      r
    else
      s
  }

  /** Drops the trailing white space: what is left is a prefix of `s`. */
  function TrimRight(s: string): (r: string)
    ensures |r| <= |s| && r == s[..|r|]
    ensures AllSpace(s[|r|..])
    ensures r != [] ==> !IsSpace(r[|r| - 1])
  {
    if s != [] && IsSpace(s[|s| - 1]) then
      var r := TrimRight(s[..|s| - 1]);
      assert s[|r|..] == s[..|s| - 1][|r|..] + [s[|s| - 1]];
      r
    else
      s
  }

  /**
   * `strings.TrimSpace`: no white space is left at either end. That the
   * result is the slice between the leading and trailing white space is
   * proved separately, by `TrimSpaceSlice`.
   */
  function TrimSpace(s: string): (r: string)
    ensures |r| <= |s|
    ensures r != [] ==> !IsSpace(r[0]) && !IsSpace(r[|r| - 1])
  {
    TrimRight(TrimLeft(s))
  }

  /**
   * `r` is the slice of `s` that starts after `k` characters of white space
   * and is followed only by white space.
   */
  predicate SliceBetweenSpace(s: string, r: string, k: nat) {
    && k + |r| <= |s| && r == s[k..k + |r|]
    && AllSpace(s[..k]) && AllSpace(s[k + |r|..])
  }

  /**
   * What `TrimSpace` keeps is the slice of `s` between its leading white
   * space (the characters `TrimLeft` drops) and its trailing white space.
   */
  lemma TrimSpaceSlice(s: string)
    ensures SliceBetweenSpace(s, TrimSpace(s), |s| - |TrimLeft(s)|)
  {
    var left := TrimLeft(s);
    var r := TrimSpace(s);
    assert r == TrimRight(left);
    TrimmedSlice(s, left, r);
  }

  /** A prefix of a suffix of `s`, each cut at white space, is a slice between white space. */
  lemma TrimmedSlice(s: string, left: string, r: string)
    requires |left| <= |s| && left == s[|s| - |left|..] && AllSpace(s[..|s| - |left|])
    requires |r| <= |left| && r == left[..|r|] && AllSpace(left[|r|..])
    ensures SliceBetweenSpace(s, r, |s| - |left|)
  {
    var k := |s| - |left|;
    assert s[k + |r|..] == left[|r|..];
  }

  /** The test `strings.TrimSpace(s) == ""` that every service applies. */
  predicate IsBlank(s: string) {
    TrimSpace(s) == ""
  }

  lemma AllSpaceConcat(a: string, b: string)
    requires AllSpace(a) && AllSpace(b)
    ensures AllSpace(a + b)
  {
    forall i | 0 <= i < |a + b| ensures IsSpace((a + b)[i]) {
      if i < |a| {
        assert (a + b)[i] == a[i];
      } else {
        assert (a + b)[i] == b[i - |a|];
      }
    }
  }

  /** Trimming leaves nothing exactly when the text is all white space. */
  lemma BlankIffAllSpace(s: string)
    ensures IsBlank(s) <==> AllSpace(s)
  {
    var left := TrimLeft(s);
    var k := |s| - |left|;
    var right := TrimRight(left);
    if left != [] {
      assert s[k] == left[0];
      assert !AllSpace(s);
    }
    if right == [] {
      assert left[|right|..] == left;
      assert s == s[..k] + left;
      AllSpaceConcat(s[..k], left);
    }
  }

  /** A string without white space at either end is its own trimmed form. */
  lemma TrimSpaceFixed(s: string)
    requires s == [] || (!IsSpace(s[0]) && !IsSpace(s[|s| - 1]))
    ensures TrimSpace(s) == s
  {
  }

  lemma TrimSpaceIdempotent(s: string)
    ensures TrimSpace(TrimSpace(s)) == TrimSpace(s)
  {
    TrimSpaceFixed(TrimSpace(s));
  }

  // ---------------------------------------------------------------------
  // Case

  /** Lower-cases ASCII letters; every other character is kept. */
  function LowerChar(c: char): char {
    if 'A' <= c <= 'Z' then (c as int + 32) as char else c
  }

  /** `strings.ToLower`, restricted to the ASCII letters. */
  function ToLower(s: string): (r: string)
    ensures |r| == |s|
    ensures forall i :: 0 <= i < |s| ==> r[i] == LowerChar(s[i])
  {
    seq(|s|, i requires 0 <= i < |s| => LowerChar(s[i]))
  }

  lemma ToLowerIdempotent(s: string)
    ensures ToLower(ToLower(s)) == ToLower(s)
  {
  }

  // ---------------------------------------------------------------------
  // Decimal numbers

  predicate IsDigit(c: char) {
    '0' <= c <= '9'
  }

  predicate AllDigits(s: string) {
    forall i :: 0 <= i < |s| ==> IsDigit(s[i])
  }

  function DigitChar(d: int): (c: char)
    requires 0 <= d < 10
    ensures IsDigit(c)
  {
    ('0' as int + d) as char
  }

  /** The decimal digits of `n`, most significant first, without a sign. */
  function NatToString(n: nat): (r: string)
    ensures |r| >= 1 && AllDigits(r)
    decreases n
  {
    if n < 10 then [DigitChar(n)] else NatToString(n / 10) + [DigitChar(n % 10)]
  }

  /** `strconv.Itoa`: a leading '-' for negative numbers, then the digits. */
  function Itoa(i: int): (r: string) {
    if i < 0 then "-" + NatToString(-i) else NatToString(i)
  }

  /** The number a non-empty run of decimal digits denotes. */
  function DigitsValue(s: string): nat
    requires AllDigits(s)
  {
    if s == [] then 0 else DigitsValue(s[..|s| - 1]) * 10 + (s[|s| - 1] as int - '0' as int)
  }

  /**
   * `strconv.Atoi`: an optional '+' or '-', then at least one decimal digit,
   * and the value must fit in 64 bits; anything else is an error (None).
   */
  function Atoi(s: string): (r: Option<int>)
    ensures r.Some? ==> MinInt <= r.value <= MaxInt
  {
    if s == [] then None
    else
      var signed := s[0] == '+' || s[0] == '-';
      var digits := if signed then s[1..] else s;
      if digits == [] || !AllDigits(digits) then None
      else
        var magnitude: int := DigitsValue(digits);
        var v := if s[0] == '-' then -magnitude else magnitude;
        if v < MinInt || v > MaxInt then None else Some(v)
  }

  lemma {:induction false} DigitsRoundTrip(n: nat)
    ensures DigitsValue(NatToString(n)) == n
    decreases n
  {
    if n >= 10 {
      var s := NatToString(n);
      assert s[..|s| - 1] == NatToString(n / 10);
      DigitsRoundTrip(n / 10);
    }
  }

  /** An unsigned run of digits within range parses to its value. */
  lemma AtoiUnsigned(t: string)
    requires t != [] && AllDigits(t) && DigitsValue(t) <= MaxInt
    ensures Atoi(t) == Some(DigitsValue(t))
  {
    assert IsDigit(t[0]);
  }

  /** A '-' followed by a run of digits within range parses to minus its value. */
  lemma AtoiNegative(t: string)
    requires t != [] && AllDigits(t) && DigitsValue(t) <= -MinInt
    ensures Atoi("-" + t) == Some(-(DigitsValue(t) as int))
  {
    var s := "-" + t;
    assert s[0] == '-' && s[1..] == t;
  }

  /** `strconv.Atoi` undoes `strconv.Itoa` for every 64-bit integer. */
  lemma AtoiItoa(n: int)
    requires MinInt <= n <= MaxInt
    ensures Atoi(Itoa(n)) == Some(n)
  {
    if n < 0 {
      DigitsRoundTrip(-n);
      AtoiNegative(NatToString(-n));
    } else {
      DigitsRoundTrip(n);
      AtoiUnsigned(NatToString(n));
    }
  }

  /** Different numbers never render to the same text. */
  lemma NatToStringInjective(a: nat, b: nat)
    requires NatToString(a) == NatToString(b)
    ensures a == b
  {
    DigitsRoundTrip(a);
    DigitsRoundTrip(b);
  }

  /** A rendered number is never blank. */
  lemma ItoaNotBlank(n: int)
    ensures !IsBlank(Itoa(n))
  {
    var s := Itoa(n);
    assert !IsSpace(s[0]);
    BlankIffAllSpace(s);
  }

  // ---------------------------------------------------------------------
  // Joining

  /** `strings.Join`. */
  function JoinWith(parts: seq<string>, sep: string): string {
    if |parts| == 0 then ""
    else if |parts| == 1 then parts[0]
    else parts[0] + sep + JoinWith(parts[1..], sep)
  }

  // ---------------------------------------------------------------------
  // The code pattern ^[a-z0-9][a-z0-9_-]*$

  predicate IsCodeLead(c: char) {
    ('a' <= c <= 'z') || IsDigit(c)
  }

  predicate IsCodeChar(c: char) {
    IsCodeLead(c) || c == '_' || c == '-'
  }

  /** Whether the whole of `s` matches `^[a-z0-9][a-z0-9_-]*$`. */
  predicate MatchesCodePattern(s: string) {
    |s| > 0 && IsCodeLead(s[0]) && forall i :: 1 <= i < |s| ==> IsCodeChar(s[i])
  }

  /** A matching code has no white space at its ends and no upper case. */
  lemma CodePatternIsNormal(s: string)
    requires MatchesCodePattern(s)
    ensures TrimSpace(s) == s && ToLower(s) == s
  {
    assert !IsSpace(s[0]) && !IsSpace(s[|s| - 1]) by {
      assert IsCodeChar(s[|s| - 1]);
    }
    TrimSpaceFixed(s);
    assert forall i :: 0 <= i < |s| ==> IsCodeChar(s[i]);
  }
}

=== FILE: transaction.dfy ===
/**
 * The ambient transaction coordinator of the PostgreSQL platform package: a
 * transaction handle travels in the request context, `within` either reuses
 * the handle it finds there or begins, commits and rolls back its own, and
 * every repository statement runs on the handle in the context when there is
 * one.
 */
module Transaction {
  import opened Wrappers
  import opened Errors

  /** `pgx.TxOptions.AccessMode`. */
  datatype AccessMode = ReadOnly | ReadWrite

  datatype TxState = Open | Committed | RolledBack

  /** What was asked of a transaction, in order. */
  datatype TxCall = CommitCall | RollbackCall

  /** Error texts `within` produces itself. */
  const FnRequired: string := "postgres: transaction function is required"
  const BeginContext: string := "postgres: begin tx"
  const RollbackContext: string := "postgres: rollback"
  const CommitContext: string := "postgres: commit"
  const RollbackAfterCommitContext: string := "postgres: rollback after commit failure"

  /** The state a transaction is left in by a commit that reports `fault`. */
  function AfterCommit(fault: Option<Error>): TxState {
    if fault.None? then Committed
    else if Is(fault.value, TxClosed) then RolledBack
    else Open
  }

  /**
   * A `pgx.Tx`. Whether its commit and rollback fail is fixed when it is
   * begun; a commit failure that does not report the transaction closed
   * leaves it open, so that the coordinator's own rollback has work to do.
   */
  class Tx {
    const mode: AccessMode
    const commitFault: Option<Error>
    const rollbackFault: Option<Error>
    var state: TxState
    var calls: seq<TxCall>

    constructor (mode: AccessMode, commitFault: Option<Error>, rollbackFault: Option<Error>)
      ensures this.mode == mode
      ensures this.commitFault == commitFault && this.rollbackFault == rollbackFault
      ensures state == Open && calls == []
    {
      this.mode := mode;
      this.commitFault := commitFault;
      this.rollbackFault := rollbackFault;
      state := Open;
      calls := [];
    }

    /** `tx.Commit`: on a finished transaction it reports `pgx.ErrTxClosed`. */
    method Commit() returns (err: Option<Error>)
      modifies this
      ensures calls == old(calls) + [CommitCall]
      ensures old(state) != Open ==> err == Some(Sentinel(TxClosed)) && state == old(state)
      ensures old(state) == Open ==> err == commitFault && state == AfterCommit(commitFault)
    {
      calls := calls + [CommitCall];
      if state != Open {
        err := Some(Sentinel(TxClosed));
      } else {
        err := commitFault;
        state := AfterCommit(commitFault);
      }
    }

    /**
     * `tx.Rollback`: an open transaction is always closed, even when the
     * rollback reports an error; a finished one reports `pgx.ErrTxClosed`.
     */
    method Rollback() returns (err: Option<Error>)
      modifies this
      ensures calls == old(calls) + [RollbackCall]
      ensures old(state) != Open ==> err == Some(Sentinel(TxClosed)) && state == old(state)
      ensures old(state) == Open ==> err == rollbackFault && state == RolledBack
    {
      calls := calls + [RollbackCall];
      if state != Open {
        err := Some(Sentinel(TxClosed));
      } else {
        err := rollbackFault;
        state := RolledBack;
      }
    }
  }

  /**
   * The `txStarter` a transaction manager begins transactions on. Whether
   * `BeginTx` fails, and how the transactions it hands out behave, is fixed
   * up front; `requested` and `begun` record what was asked and given.
   */
  class Pool {
    const beginFault: Option<Error>
    const commitFault: Option<Error>
    const rollbackFault: Option<Error>
    var requested: seq<AccessMode>
    var begun: seq<Tx>

    constructor (beginFault: Option<Error>, commitFault: Option<Error>, rollbackFault: Option<Error>)
      ensures this.beginFault == beginFault
      ensures this.commitFault == commitFault && this.rollbackFault == rollbackFault
      ensures requested == [] && begun == []
    {
      this.beginFault := beginFault;
      this.commitFault := commitFault;
      this.rollbackFault := rollbackFault;
      requested := [];
      begun := [];
    }

    method BeginTx(mode: AccessMode) returns (tx: Tx?, err: Option<Error>)
      modifies this
      ensures requested == old(requested) + [mode]
      ensures beginFault.Some? ==> tx == null && err == beginFault && begun == old(begun)
      ensures beginFault.None? ==>
        && err.None? && tx != null && fresh(tx)
        && tx.mode == mode && tx.state == Open && tx.calls == []
        && tx.commitFault == commitFault && tx.rollbackFault == rollbackFault
        && begun == old(begun) + [tx]
    {
      requested := requested + [mode];
      if beginFault.Some? {
        tx, err := null, beginFault;
      } else {
        tx := new Tx(mode, commitFault, rollbackFault);
        err := None;
        begun := begun + [tx];
      }
    }
  }

  /**
   * A `context.Context`: nil, the background context, a context carrying a
   * value under some other key, or one carrying a transaction handle.
   */
  datatype Context =
    | Nil
    | Background
    | WithValue(parent: Context)
    | WithTx(parent: Context, tx: Tx)

  /** `txFromContext`: the nearest transaction handle, none for a nil context. */
  function TxFromContext(ctx: Context): (r: Option<Tx>)
    ensures ctx.Nil? || ctx.Background? ==> r.None?
  {
    match ctx
    case Nil => None
    case Background => None
    case WithValue(parent) => TxFromContext(parent)
    case WithTx(_, tx) => Some(tx)
  }

  /** `pgx.Tx` or the pool: what a repository statement is sent to. */
  datatype Queryer = PoolQueryer(name: string) | TxQueryer(tx: Tx)

  /** `QueryerFromContext`: the context's transaction, else the fallback. */
  function QueryerFromContext(ctx: Context, fallback: Queryer): (q: Queryer)
    ensures TxFromContext(ctx).Some? ==> q == TxQueryer(TxFromContext(ctx).value)
    ensures TxFromContext(ctx).None? ==> q == fallback
  {
    match TxFromContext(ctx)
    case Some(tx) => TxQueryer(tx)
    case None => fallback
  }

  /**
   * `contextWithTx`: a derived context from which both the transaction lookup
   * and the queryer lookup yield `tx`, whatever the parent held.
   */
  function ContextWithTx(ctx: Context, tx: Tx): (r: Context)
    ensures TxFromContext(r) == Some(tx)
    ensures forall name :: QueryerFromContext(r, PoolQueryer(name)) == TxQueryer(tx)
  {
    WithTx(ctx, tx)
  }

  /** Values stored under other keys do not hide the transaction. */
  lemma {:induction false} OtherValuesKeepTx(ctx: Context, tx: Tx, depth: nat)
    ensures TxFromContext(Layered(ContextWithTx(ctx, tx), depth)) == Some(tx)
  {
    if depth > 0 {
      OtherValuesKeepTx(ctx, tx, depth - 1);
    }
  }

  /** `ctx` under `depth` layers of unrelated values. */
  function Layered(ctx: Context, depth: nat): Context {
    if depth == 0 then ctx else WithValue(Layered(ctx, depth - 1))
  }

  /** A unit of work: `func(ctx context.Context) error`. */
  type Work = Context -> Option<Error>

  /** The error `within` reports when the unit of work itself failed. */
  function WorkFailure(workErr: Error, rollbackErr: Option<Error>): Error {
    if rollbackErr.Some? && !Is(rollbackErr.value, TxClosed)
    then Joined(workErr, Wrapped(RollbackContext, rollbackErr.value))
    else workErr
  }

  /** The error `within` reports when the commit failed. */
  function CommitFailure(commitErr: Error, rollbackErr: Option<Error>): Error {
    if rollbackErr.Some? && !Is(rollbackErr.value, TxClosed)
    then Joined(Wrapped(CommitContext, commitErr), Wrapped(RollbackAfterCommitContext, rollbackErr.value))
    else Wrapped(CommitContext, commitErr)
  }

  /** Whatever the rollback reports, the unit of work's error still matches. */
  lemma WorkFailureKeepsCause(workErr: Error, rollbackErr: Option<Error>, s: Sentinel)
    requires Is(workErr, s)
    ensures Is(WorkFailure(workErr, rollbackErr), s)
  {
  }

  /** Whatever the rollback reports, the commit error still matches. */
  lemma CommitFailureKeepsCause(commitErr: Error, rollbackErr: Option<Error>, s: Sentinel)
    requires Is(commitErr, s)
    ensures Is(CommitFailure(commitErr, rollbackErr), s)
  {
  }

  /**
   * The error `within` returns, given the begin fault of the pool and the
   * transaction it began (null when it began none): the nil-function error,
   * the nested result passed through, the wrapped begin error, the joined
   * work and rollback errors, nil after a commit, or the commit error.
   */
  predicate WithinError(ctx: Context, fn: Option<Work>, beginFault: Option<Error>, began: Tx?, err: Option<Error>) {
    if fn.None? then err == Some(Message(FnRequired)) && began == null
    else if TxFromContext(ctx).Some? then err == fn.value(ctx) && began == null
    else if beginFault.Some? then err == Some(Wrapped(BeginContext, beginFault.value)) && began == null
    else
      && began != null
      && var work := fn.value(ContextWithTx(ctx, began));
         if work.Some? then err == Some(WorkFailure(work.value, began.rollbackFault))
         else if began.commitFault.None? then err.None?
         else if Is(began.commitFault.value, TxClosed) then err == Some(Wrapped(CommitContext, began.commitFault.value))
         else err == Some(CommitFailure(began.commitFault.value, began.rollbackFault))
  }

  /** `TransactionManager`. */
  class TransactionManager {
    const pool: Pool

    constructor (pool: Pool)
      ensures this.pool == pool
    {
      this.pool := pool;
    }

    /**
     * `within`: reuse the context's transaction, or begin one in `mode`, run
     * the unit of work on a context carrying it, and commit or roll back.
     * The deferred rollback, guarded by `committed`, runs last.
     */
    method Within(ctx: Context, mode: AccessMode, fn: Option<Work>)
      returns (err: Option<Error>, ghost began: Tx?, ghost ranOn: Option<Context>)
      modifies pool
      ensures WithinError(ctx, fn, pool.beginFault, began, err)
      // The unit of work always sees a transaction, so nested calls reuse it.
      ensures ranOn.Some? ==> TxFromContext(ranOn.value).Some?
      // A nil unit of work is refused before anything is begun.
      ensures fn.None? ==>
        && err == Some(Message(FnRequired)) && began == null && ranOn.None?
        && pool.requested == old(pool.requested) && pool.begun == old(pool.begun)
      // Nested: run on the same context, begin nothing, pass the result through.
      ensures fn.Some? && TxFromContext(ctx).Some? ==>
        && err == fn.value(ctx) && began == null && ranOn == Some(ctx)
        && pool.requested == old(pool.requested) && pool.begun == old(pool.begun)
      // Otherwise exactly one begin, in the requested mode.
      ensures fn.Some? && TxFromContext(ctx).None? ==>
        pool.requested == old(pool.requested) + [mode]
      ensures fn.Some? && TxFromContext(ctx).None? && pool.beginFault.Some? ==>
        && err == Some(Wrapped(BeginContext, pool.beginFault.value))
        && began == null && ranOn.None? && pool.begun == old(pool.begun)
      ensures began != null ==>
        && fn.Some? && TxFromContext(ctx).None? && pool.beginFault.None?
        && fresh(began) && began.mode == mode
        && began.commitFault == pool.commitFault && began.rollbackFault == pool.rollbackFault
        && pool.begun == old(pool.begun) + [began]
        && ranOn == Some(ContextWithTx(ctx, began))
        // A begun transaction is never left open.
        && began.state != Open
      // The unit of work failed: no commit, rolled back, its error preserved.
      ensures began != null && fn.value(ContextWithTx(ctx, began)).Some? ==>
        && CommitCall !in began.calls
        && began.state == RolledBack
        && err == Some(WorkFailure(fn.value(ContextWithTx(ctx, began)).value, began.rollbackFault))
      // The unit of work and the commit succeeded: no rollback at all.
      ensures began != null && fn.value(ContextWithTx(ctx, began)).None? && began.commitFault.None? ==>
        && err.None? && began.state == Committed && began.calls == [CommitCall]
      // The commit failed: a rollback is tried unless it reported the tx closed.
      ensures began != null && fn.value(ContextWithTx(ctx, began)).None? && began.commitFault.Some? ==>
        var c := began.commitFault.value;
        && began.state == RolledBack
        && (Is(c, TxClosed) ==>
              err == Some(Wrapped(CommitContext, c)) && began.calls == [CommitCall, RollbackCall])
        && (!Is(c, TxClosed) ==>
              && err == Some(CommitFailure(c, began.rollbackFault))
              && began.calls == [CommitCall, RollbackCall, RollbackCall])
    {
      began, ranOn := null, None;
      if fn.None? {
        return Some(Message(FnRequired)), null, None;
      }
      if TxFromContext(ctx).Some? {
        err := fn.value(ctx);
        return err, null, Some(ctx);
      }

      var tx, beginErr := pool.BeginTx(mode);
      if beginErr.Some? {
        return Some(Wrapped(BeginContext, beginErr.value)), null, None;
      }
      began := tx;

      var committed := false;
      var txCtx := ContextWithTx(ctx, tx);
      ranOn := Some(txCtx);

      var workErr := fn.value(txCtx);
      if workErr.Some? {
        var rbErr := tx.Rollback();
        err := Some(WorkFailure(workErr.value, rbErr));
      } else {
        var commitErr := tx.Commit();
        if commitErr.Some? {
          if !Is(commitErr.value, TxClosed) {
            var rbErr := tx.Rollback();
            err := Some(CommitFailure(commitErr.value, rbErr));
          } else {
            err := Some(Wrapped(CommitContext, commitErr.value));
          }
        } else {
          committed := true;
          err := None;
        }
      }

      // The deferred rollback.
      if !committed {
        var _ := tx.Rollback();
      }
    }
  }

  /** `NewTransactionManager`: a nil pool gives a nil manager. */
  method NewTransactionManager(pool: Pool?) returns (m: TransactionManager?)
    ensures (m == null) == (pool == null)
    ensures m != null ==> fresh(m) && m.pool == pool
  {
    if pool == null {
      m := null;
    } else {
      m := new TransactionManager(pool);
    }
  }

  /** `WithinReadOnly`: a nil manager just runs the unit of work. */
  method WithinReadOnly(m: TransactionManager?, ctx: Context, fn: Option<Work>)
    returns (err: Option<Error>, ghost began: Tx?)
    requires m == null ==> fn.Some?
    modifies if m == null then {} else {m.pool}
    ensures m == null ==> err == fn.value(ctx) && began == null
    ensures m != null && fn.Some? && TxFromContext(ctx).None? ==>
      m.pool.requested == old(m.pool.requested) + [ReadOnly]
    ensures m != null ==> WithinError(ctx, fn, m.pool.beginFault, began, err)
    ensures began != null ==> began.mode == ReadOnly && began.state != Open
  {
    if m == null {
      err, began := fn.value(ctx), null;
    } else {
      ghost var ranOn;
      err, began, ranOn := m.Within(ctx, ReadOnly, fn);
    }
  }

  /** `WithinReadWrite`: a nil manager just runs the unit of work. */
  method WithinReadWrite(m: TransactionManager?, ctx: Context, fn: Option<Work>)
    returns (err: Option<Error>, ghost began: Tx?)
    requires m == null ==> fn.Some?
    modifies if m == null then {} else {m.pool}
    ensures m == null ==> err == fn.value(ctx) && began == null
    ensures m != null && fn.Some? && TxFromContext(ctx).None? ==>
      m.pool.requested == old(m.pool.requested) + [ReadWrite]
    ensures m != null ==> WithinError(ctx, fn, m.pool.beginFault, began, err)
    ensures began != null ==> began.mode == ReadWrite && began.state != Open
  {
    if m == null {
      err, began := fn.value(ctx), null;
    } else {
      ghost var ranOn;
      err, began, ranOn := m.Within(ctx, ReadWrite, fn);
    }
  }
}

=== FILE: user_core.dfy ===
/**
 * The user use cases: the entity, the input rules, the in-memory repository
 * the service's own tests run against, and the service. Address parsing
 * (`mail.ParseAddress`) is a parameter of the service: it maps the trimmed
 * input to the bare address, or to None when the input is not an address.
 */
module UserCore {
  import opened Wrappers
  import opened Strings
  import opened Errors
  import opened Clock
  import opened Validation
  import opened Paging
  import opened UserErrors
  import opened Store
  import Transaction

  datatype User = User(
    id: string,
    email: string,
    name: string,
    status: string,
    createdAt: Time,
    updatedAt: Time)

  datatype ListUsersFilter = ListUsersFilter(limit: int, offset: int, status: Option<string>)

  datatype CreateUserInput = CreateUserInput(email: string, name: string)

  datatype UpdateUserInput = UpdateUserInput(id: string, name: Option<string>, status: Option<string>)

  datatype ListUsersInput = ListUsersInput(pageSize: int, pageToken: string, status: Option<string>)

  /** `mail.ParseAddress` reduced to what the service uses: the address part. */
  type AddressParser = string -> Option<string>

  /** A user sentinel as an error value. */
  function Fail(kind: Kind): Error {
    Sentinel(UserErr(kind))
  }

  /** The error a blank id gives: `fmt.Errorf("id: %w", ErrInvalidID)`. */
  const BlankId: Error := Wrapped("id", Fail(InvalidID))

  // ---------------------------------------------------------------------
  // Input rules

  /**
   * `normalizeEmail`: trim, refuse blank, parse, and lower-case the parsed
   * address.
   */
  function NormalizeEmail(raw: string, parse: AddressParser): (r: Result<string, Error>)
    ensures r.Ok? <==> !AllSpace(raw) && parse(TrimSpace(raw)).Some?
    ensures r.Ok? ==> r.value == ToLower(parse(TrimSpace(raw)).value)
    ensures r.Err? ==> r.error == Fail(InvalidEmail)
  {
    BlankIffAllSpace(raw);
    var trimmed := TrimSpace(raw);
    if trimmed == "" then Err(Fail(InvalidEmail))
    else
      match parse(trimmed)
      case None => Err(Fail(InvalidEmail))
      case Some(address) => Ok(ToLower(address))
  }

  /** A normalised address is already lower case, whatever the parser returned. */
  lemma NormalizedEmailIsLower(raw: string, parse: AddressParser)
    requires NormalizeEmail(raw, parse).Ok?
    ensures ToLower(NormalizeEmail(raw, parse).value) == NormalizeEmail(raw, parse).value
  {
    ToLowerIdempotent(parse(TrimSpace(raw)).value);
  }

  /**
   * Inputs that differ only in surrounding white space give the same
   * address.
   */
  lemma NormalizeEmailIgnoresPadding(raw: string, parse: AddressParser)
    ensures NormalizeEmail(TrimSpace(raw), parse) == NormalizeEmail(raw, parse)
  {
    TrimSpaceIdempotent(raw);
    BlankIffAllSpace(raw);
    BlankIffAllSpace(TrimSpace(raw));
  }

  /** The inline name rule: the trimmed name, or `ErrInvalidName` when blank. */
  function NormalizeName(raw: string): (r: Result<string, Error>)
    ensures r.Err? <==> AllSpace(raw)
    ensures r.Err? ==> r.error == Fail(InvalidName)
    ensures r.Ok? ==> r.value != "" && r.value == TrimSpace(raw)
  {
    BlankIffAllSpace(raw);
    match NormalizeRequired(raw)
    case None => Err(Fail(InvalidName))
    case Some(name) => Ok(name)
  }

  /** The user service's `normalizePageSize`. */
  function PageSize(pageSize: int): (r: Result<int, Error>)
    ensures r.Ok? ==> 1 <= r.value <= MaxPageSize
    ensures r.Err? <==> pageSize > MaxPageSize
    ensures r.Err? ==> r.error == Fail(InvalidPageSize)
    ensures pageSize <= 0 ==> r == Ok(DefaultPageSize)
    ensures 0 < pageSize <= MaxPageSize ==> r == Ok(pageSize)
  {
    match NormalizePageSize(pageSize)
    case None => Err(Fail(InvalidPageSize))
    case Some(size) => Ok(size)
  }

  /** The user service's `parsePageToken`. */
  function PageToken(token: string): (r: Result<nat, Error>)
    ensures r.Ok? <==> ParsePageToken(token).Some?
    ensures r.Ok? ==> r.value == ParsePageToken(token).value
    ensures r.Err? ==> r.error == Fail(InvalidPageToken)
  {
    match ParsePageToken(token)
    case None => Err(Fail(InvalidPageToken))
    case Some(offset) => Ok(offset)
  }

  // ---------------------------------------------------------------------
  // Store-level facts

  /** Some stored user already has `email`. */
  predicate EmailTaken(users: map<string, User>, email: string) {
    exists id :: id in users && users[id].email == email
  }

  /** No two stored users share an address. */
  predicate EmailsUnique(users: map<string, User>) {
    forall a, b :: a in users && b in users && a != b ==> users[a].email != users[b].email
  }

  /** The users of `all` that the optional status filter keeps. */
  function WithStatus(all: seq<User>, status: Option<string>): (r: seq<User>)
    ensures |r| <= |all|
    ensures forall u :: u in r ==> u in all && (status.None? || u.status == status.value)
    ensures forall u :: u in all && (status.None? || u.status == status.value) ==> u in r
  {
    if all == [] then []
    else
      var last := all[|all| - 1];
      WithStatus(all[..|all| - 1], status) + (if status.None? || last.status == status.value then [last] else [])
  }

  /** Extending the input by one record extends the filtered sequence by that record when it is kept. */
  lemma WithStatusStep(all: seq<User>, i: nat, status: Option<string>)
    requires i < |all|
    ensures WithStatus(all[..i + 1], status) == WithStatus(all[..i], status) + (if status.None? || all[i].status == status.value then [all[i]] else [])
  {
    assert all[..i + 1][..i] == all[..i];
  }

  /** Adding a user whose address is not taken keeps addresses unique. */
  lemma InsertKeepsEmailsUnique(users: map<string, User>, u: User)
    requires EmailsUnique(users) && u.id !in users && !EmailTaken(users, u.email)
    ensures EmailsUnique(users[u.id := u])
  {
    var after := users[u.id := u];
    forall a, b | a in after && b in after && a != b
      ensures after[a].email != after[b].email
    {
      if a == u.id {
        assert users[b].email != u.email;
      } else if b == u.id {
        assert users[a].email != u.email;
      }
    }
  }

  // ---------------------------------------------------------------------
  // Update merge

  /**
   * What `UpdateUser` makes of the stored user: the supplied name (trimmed,
   * not blank) and status (one of the two values), then the update time.
   * The address cannot be changed.
   */
  function MergeUser(existing: User, input: UpdateUserInput, now: Time): Result<User, Error> {
    if input.name.Some? && NormalizeName(input.name.value).Err? then Err(Fail(InvalidName))
    else if input.status.Some? && !IsValidStatus(input.status.value) then Err(Fail(InvalidStatus))
    else
      Ok(existing.(
        name := if input.name.Some? then NormalizeName(input.name.value).value else existing.name,
        status := if input.status.Some? then input.status.value else existing.status,
        updatedAt := now))
  }

  /**
   * An update keeps id, address and creation time, stamps `now`, and changes
   * only the supplied fields; it fails exactly on a blank name or an
   * unknown status, the name checked first.
   */
  lemma MergeUserSpec(existing: User, input: UpdateUserInput, now: Time)
    ensures var r := MergeUser(existing, input, now);
      && (r.Err? <==> (input.name.Some? && AllSpace(input.name.value))
                      || (input.status.Some? && !IsValidStatus(input.status.value)))
      && (input.name.Some? && AllSpace(input.name.value) ==> r == Err(Fail(InvalidName)))
      && (r.Err? && !(input.name.Some? && AllSpace(input.name.value)) ==> r == Err(Fail(InvalidStatus)))
      && (r.Ok? ==>
            && r.value.id == existing.id && r.value.email == existing.email
            && r.value.createdAt == existing.createdAt && r.value.updatedAt == now
            && r.value.name == (if input.name.Some? then TrimSpace(input.name.value) else existing.name)
            && r.value.status == (if input.status.Some? then input.status.value else existing.status)
            && (IsValidStatus(existing.status) ==> IsValidStatus(r.value.status)))
  {
  }

  /** Storing a merged user over the original keeps addresses unique. */
  lemma MergeKeepsEmailsUnique(users: map<string, User>, id: string, input: UpdateUserInput, now: Time)
    requires EmailsUnique(users) && id in users
    requires MergeUser(users[id], input, now).Ok?
    ensures EmailsUnique(users[id := MergeUser(users[id], input, now).value])
  {
    var u := MergeUser(users[id], input, now).value;
    var after := users[id := u];
    forall a, b | a in after && b in after && a != b
      ensures after[a].email != after[b].email
    {
      assert after[a].email == users[a].email && after[b].email == users[b].email;
    }
  }

  // ---------------------------------------------------------------------
  // The in-memory repository

  const IdPrefix: string := "user-"

  /** The id of the `k`-th user created: `"user-" + strconv.Itoa(k)`. */
  function IdFor(k: nat): string {
    SequentialId(IdPrefix, k)
  }

  /**
   * The fake repository of the user service's tests. Unlike the company
   * one, its `Update` stores whatever it is given: address uniqueness is
   * kept by the service, not by `Valid`.
   */
  class MemoryRepository {
    var users: map<string, User>
    var order: seq<string>
    var sequence: nat

    ghost predicate Valid()
      reads this
    {
      && Distinct(order)
      && (forall id :: id in users <==> id in order)
      && (forall id :: id in users ==> users[id].id == id)
      && (forall id :: id in users ==> exists k :: 1 <= k <= sequence && IdFor(k) == id)
    }

    /** The stored users in insertion order. */
    ghost function Listing(): (r: seq<User>)
      reads this
      requires Valid()
      ensures |r| == |order|
    {
      InOrder(users, order)
    }

    constructor ()
      ensures Valid() && users == map[] && order == [] && sequence == 0
    {
      users, order, sequence := map[], [], 0;
    }

    /** `Create`: refuse a used address, otherwise store under the next id. */
    method Create(u: User) returns (r: Result<User, Error>)
      requires Valid()
      modifies this
      ensures Valid()
      ensures EmailTaken(old(users), u.email) ==>
        r == Err(Fail(EmailAlreadyExists)) && users == old(users) && order == old(order)
      ensures !EmailTaken(old(users), u.email) ==>
        && r.Ok? && r.value == u.(id := r.value.id)
        && r.value.id !in old(users)
        && users == old(users)[r.value.id := r.value]
        && order == old(order) + [r.value.id]
    {
      if EmailTaken(users, u.email) {
        return Err(Fail(EmailAlreadyExists));
      }
      var id := IdFor(sequence + 1);
      forall other | other in users ensures other != id {
        var k :| 1 <= k <= sequence && IdFor(k) == other;
        if other == id {
          SequentialIdInjective(IdPrefix, k, sequence + 1);
        }
      }
      assert id !in order;
      sequence := sequence + 1;
      var stored := u.(id := id);
      users := users[id := stored];
      order := order + [id];
      r := Ok(stored);
      assert IdFor(sequence) == id;
    }

    /** `Update`: replace the stored user wholesale if it exists. */
    method Update(u: User) returns (r: Result<User, Error>)
      requires Valid()
      modifies this
      ensures Valid()
      ensures order == old(order) && sequence == old(sequence)
      ensures u.id !in old(users) ==> r == Err(Fail(UserNotFound)) && users == old(users)
      ensures u.id in old(users) ==> r == Ok(u) && users == old(users)[u.id := u]
    {
      if u.id !in users {
        return Err(Fail(UserNotFound));
      }
      users := users[u.id := u];
      r := Ok(u);
    }

    /** `Delete`: drop the user from the map and from the order list. */
    method Delete(id: string) returns (err: Option<Error>)
      requires Valid()
      modifies this
      ensures Valid()
      ensures sequence == old(sequence)
      ensures id !in old(users) ==>
        err == Some(Fail(UserNotFound)) && users == old(users) && order == old(order)
      ensures id in old(users) ==>
        && err.None?
        && users == old(users) - {id}
        && order == Without(old(order), id)
    {
      if id !in users {
        return Some(Fail(UserNotFound));
      }
      var idx := IndexOf(order, id);
      WithoutAt(order, idx);
      WithoutKeepsDistinct(order, idx);
      users := users - {id};
      order := order[..idx] + order[idx + 1..];
      err := None;
    }

    /** `FindByID`. */
    method FindByID(id: string) returns (r: Result<User, Error>)
      ensures id in users ==> r == Ok(users[id])
      ensures id !in users ==> r == Err(Fail(UserNotFound))
    {
      if id in users {
        r := Ok(users[id]);
      } else {
        r := Err(Fail(UserNotFound));
      }
    }

    /** `FindByEmail`: the user with `email`, if any. */
    method FindByEmail(email: string) returns (r: Result<User, Error>)
      requires Valid()
      ensures r.Ok? <==> EmailTaken(users, email)
      ensures r.Ok? ==> r.value.id in users && users[r.value.id] == r.value && r.value.email == email
      ensures r.Err? ==> r.error == Fail(UserNotFound)
    {
      if EmailTaken(users, email) {
        var id :| id in users && users[id].email == email;
        r := Ok(users[id]);
      } else {
        r := Err(Fail(UserNotFound));
      }
    }

    /** The loop of `List` that keeps, in order, the users with the wanted status. */
    method Matching(status: Option<string>) returns (filtered: seq<User>)
      requires forall id :: id in order ==> id in users
      ensures filtered == WithStatus(InOrder(users, order), status)
    {
      ghost var all := InOrder(users, order);
      filtered := [];
      var i := 0;
      while i < |order|
        invariant 0 <= i <= |order|
        invariant filtered == WithStatus(all[..i], status)
      {
        var u := users[order[i]];
        assert u == all[i];
        WithStatusStep(all, i, status);
        if status.None? || u.status == status.value {
          filtered := filtered + [u];
        }
        i := i + 1;
      }
      assert all[..i] == all;
    }

    /**
     * `List`: the users in insertion order that match the status filter,
     * cut to the window `[offset, offset + limit)`, with the end offset as
     * the next token while users remain.
     */
    method List(filter: ListUsersFilter) returns (page: Page<User>)
      requires Valid()
      requires filter.limit >= 0 && filter.offset >= 0
      ensures page == OffsetWindow(WithStatus(Listing(), filter.status), filter.limit, filter.offset)
    {
      var filtered := Matching(filter.status);
      page := TakeWindow(filtered, filter.limit, filter.offset);
    }
  }

  // ---------------------------------------------------------------------
  // The service

  /**
   * The user `Service` over the in-memory repository. The clock is the
   * `now` argument; `txMode` tells which transaction the call would run in
   * (None when it fails before opening one).
   */
  class Service {
    const repo: MemoryRepository
    const parse: AddressParser

    constructor (repo: MemoryRepository, parse: AddressParser)
      ensures this.repo == repo && this.parse == parse
    {
      this.repo := repo;
      this.parse := parse;
    }

    /** `ensureEmailNotExists`: `ErrEmailAlreadyExists` exactly when the address is used. */
    method EnsureEmailNotExists(email: string) returns (err: Option<Error>)
      requires repo.Valid()
      ensures err.None? <==> !EmailTaken(repo.users, email)
      ensures err.Some? ==> err.value == Fail(EmailAlreadyExists)
    {
      var found := repo.FindByEmail(email);
      match found {
        case Ok(_) => err := Some(Fail(EmailAlreadyExists));
        case Err(e) => err := if Is(e, UserErr(UserNotFound)) then None else Some(e);
      }
    }

    /**
     * `CreateUser`: address first, then name, then the uniqueness check and
     * the insert inside a read-write transaction. Addresses stay unique.
     */
    method CreateUser(input: CreateUserInput, now: Time)
      returns (r: Result<User, Error>, ghost txMode: Option<Transaction.AccessMode>)
      requires repo.Valid()
      modifies repo
      ensures repo.Valid()
      ensures EmailsUnique(old(repo.users)) ==> EmailsUnique(repo.users)
      ensures NormalizeEmail(input.email, parse).Err? ==>
        r == Err(Fail(InvalidEmail)) && txMode.None? && repo.users == old(repo.users)
          && repo.order == old(repo.order)
      ensures NormalizeEmail(input.email, parse).Ok? && NormalizeName(input.name).Err? ==>
        r == Err(Fail(InvalidName)) && txMode.None? && repo.users == old(repo.users)
          && repo.order == old(repo.order)
      ensures NormalizeEmail(input.email, parse).Ok? && NormalizeName(input.name).Ok? ==>
        var email := NormalizeEmail(input.email, parse).value;
        && txMode == Some(Transaction.ReadWrite)
        && (EmailTaken(old(repo.users), email) ==>
              r == Err(Fail(EmailAlreadyExists)) && repo.users == old(repo.users)
                && repo.order == old(repo.order))
        && (!EmailTaken(old(repo.users), email) ==>
              && r.Ok?
              && r.value == User(r.value.id, email, NormalizeName(input.name).value, StatusActive, now, now)
              && r.value.id !in old(repo.users)
              && repo.users == old(repo.users)[r.value.id := r.value]
              && repo.order == old(repo.order) + [r.value.id])
    {
      txMode := None;
      var email := NormalizeEmail(input.email, parse);
      if email.Err? {
        return Err(Fail(InvalidEmail)), None;
      }
      var name := NormalizeName(input.name);
      if name.Err? {
        return Err(name.error), None;
      }

      txMode := Some(Transaction.ReadWrite);
      var taken := EnsureEmailNotExists(email.value);
      if taken.Some? {
        return Err(taken.value), txMode;
      }
      ghost var before := repo.users;
      var user := User("", email.value, name.value, StatusActive, now, now);
      r := repo.Create(user);
      if EmailsUnique(before) {
        InsertKeepsEmailsUnique(before, r.value);
      }
    }

    /** `UpdateUser`: load, merge name and status, save. Addresses stay unique. */
    method UpdateUser(input: UpdateUserInput, now: Time)
      returns (r: Result<User, Error>, ghost txMode: Option<Transaction.AccessMode>)
      requires repo.Valid()
      modifies repo
      ensures repo.Valid()
      ensures repo.order == old(repo.order)
      ensures EmailsUnique(old(repo.users)) ==> EmailsUnique(repo.users)
      ensures IsBlank(input.id) ==> r == Err(BlankId) && txMode.None? && repo.users == old(repo.users)
      ensures !IsBlank(input.id) ==> txMode == Some(Transaction.ReadWrite)
      ensures !IsBlank(input.id) && input.id !in old(repo.users) ==>
        r == Err(Fail(UserNotFound)) && repo.users == old(repo.users)
      ensures !IsBlank(input.id) && input.id in old(repo.users) ==>
        && r == MergeUser(old(repo.users)[input.id], input, now)
        && repo.users == (if r.Ok? then old(repo.users)[input.id := r.value] else old(repo.users))
    {
      if IsBlank(input.id) {
        return Err(BlankId), None;
      }
      txMode := Some(Transaction.ReadWrite);
      ghost var before := repo.users;

      var found := repo.FindByID(input.id);
      if found.Err? {
        return Err(found.error), txMode;
      }
      var existing := found.value;

      if input.name.Some? {
        var name := NormalizeName(input.name.value);
        if name.Err? {
          return Err(name.error), txMode;
        }
        existing := existing.(name := name.value);
      }

      if input.status.Some? {
        if !IsValidStatus(input.status.value) {
          return Err(Fail(InvalidStatus)), txMode;
        }
        existing := existing.(status := input.status.value);
      }

      existing := existing.(updatedAt := now);
      assert MergeUser(before[input.id], input, now) == Ok(existing);
      if EmailsUnique(before) {
        MergeKeepsEmailsUnique(before, input.id, input, now);
      }
      r := repo.Update(existing);
    }

    /** `DeleteUser`. */
    method DeleteUser(id: string) returns (err: Option<Error>, ghost txMode: Option<Transaction.AccessMode>)
      requires repo.Valid()
      modifies repo
      ensures repo.Valid()
      ensures IsBlank(id) ==>
        err == Some(BlankId) && txMode.None? && repo.users == old(repo.users) && repo.order == old(repo.order)
      ensures !IsBlank(id) ==> txMode == Some(Transaction.ReadWrite)
      ensures !IsBlank(id) && id !in old(repo.users) ==>
        err == Some(Fail(UserNotFound)) && repo.users == old(repo.users) && repo.order == old(repo.order)
      ensures !IsBlank(id) && id in old(repo.users) ==>
        err.None? && repo.users == old(repo.users) - {id} && repo.order == Without(old(repo.order), id)
    {
      if IsBlank(id) {
        return Some(BlankId), None;
      }
      txMode := Some(Transaction.ReadWrite);
      err := repo.Delete(id);
    }

    /** `GetUser`. */
    method GetUser(id: string) returns (r: Result<User, Error>, ghost txMode: Option<Transaction.AccessMode>)
      ensures IsBlank(id) ==> r == Err(BlankId) && txMode.None?
      ensures !IsBlank(id) ==> txMode == Some(Transaction.ReadOnly)
      ensures !IsBlank(id) && id in repo.users ==> r == Ok(repo.users[id])
      ensures !IsBlank(id) && id !in repo.users ==> r == Err(Fail(UserNotFound))
    {
      if IsBlank(id) {
        return Err(BlankId), None;
      }
      txMode := Some(Transaction.ReadOnly);
      r := repo.FindByID(id);
    }

    /**
     * `ListUsers`: page size, then token, then status are checked before the
     * repository is asked, with the normalised size and parsed offset.
     */
    method ListUsers(input: ListUsersInput)
      returns (r: Result<Page<User>, Error>, ghost txMode: Option<Transaction.AccessMode>)
      requires repo.Valid()
      ensures PageSize(input.pageSize).Err? ==> r == Err(Fail(InvalidPageSize)) && txMode.None?
      ensures PageSize(input.pageSize).Ok? && PageToken(input.pageToken).Err? ==>
        r == Err(Fail(InvalidPageToken)) && txMode.None?
      ensures PageSize(input.pageSize).Ok? && PageToken(input.pageToken).Ok? ==>
        && (input.status.Some? && !IsValidStatus(input.status.value) ==> r == Err(Fail(InvalidStatus)) && txMode.None?)
        && (input.status.None? || IsValidStatus(input.status.value) ==>
              && txMode == Some(Transaction.ReadOnly)
              && r == Ok(OffsetWindow(WithStatus(repo.Listing(), input.status),
                                      PageSize(input.pageSize).value, PageToken(input.pageToken).value)))
      ensures r.Ok? ==> |r.value.items| <= MaxPageSize
    {
      var limit := PageSize(input.pageSize);
      if limit.Err? {
        return Err(limit.error), None;
      }
      var offset := PageToken(input.pageToken);
      if offset.Err? {
        return Err(offset.error), None;
      }
      if input.status.Some? && !IsValidStatus(input.status.value) {
        return Err(Fail(InvalidStatus)), None;
      }
      txMode := Some(Transaction.ReadOnly);
      var page := repo.List(ListUsersFilter(limit.value, offset.value, input.status));
      r := Ok(page);
    }
  }
}

=== FILE: user_postgres.dfy ===
/**
 * The PostgreSQL user repository. Unlike the other two repositories it
 * sends every statement straight to the pool it was built with, so a
 * transaction carried by the context never reaches it. "No rows" becomes
 * `ErrUserNotFound` and a unique violation `ErrEmailAlreadyExists`.
 */
module UserPostgres {
  import opened Wrappers
  import opened Strings
  import opened Errors
  import opened Clock
  import opened Transaction
  import opened Sql
  import opened Paging
  import opened UserErrors
  import UserCore

  type User = UserCore.User

  function Fail(kind: Kind): Error {
    UserCore.Fail(kind)
  }

  /**
   * `scanUser`: "no rows" becomes `ErrUserNotFound`, any other scan error is
   * passed on, and the columns become the user.
   */
  function ScanUser(row: Row<User>): (r: Result<User, Error>)
    ensures row.Columns? <==> r.Ok?
    ensures row.Columns? ==> r.value == row.columns
    ensures row.ScanError? && Is(row.err, NoRows) ==> r == Err(Fail(UserNotFound))
    ensures row.ScanError? && !Is(row.err, NoRows) ==> r == Err(row.err)
  {
    match row
    case ScanError(e) => if Is(e, NoRows) then Err(Fail(UserNotFound)) else Err(e)
    case Columns(u) => Ok(u)
  }

  /** `translatePgError`: a unique violation anywhere in the chain is a duplicate email. */
  function TranslateUserPgError(err: Error): (r: Error)
    ensures AsPg(err).Some? && AsPg(err).value.code == UniqueViolation ==> r == Fail(EmailAlreadyExists)
    ensures !(AsPg(err).Some? && AsPg(err).value.code == UniqueViolation) ==> r == err
  {
    match AsPg(err)
    case Some(pg) => if pg.code == UniqueViolation then Fail(EmailAlreadyExists) else err
    case None => err
  }

  /** A single-row statement's result: scan, then translate any error. */
  function FromRow(row: Row<User>): Result<User, Error> {
    match ScanUser(row)
    case Ok(u) => Ok(u)
    case Err(e) => Err(TranslateUserPgError(e))
  }

  /**
   * The error table of the single-row statements: a missing row is
   * `ErrUserNotFound`, a unique violation `ErrEmailAlreadyExists`, any other
   * failure is passed on unchanged.
   */
  lemma FromRowErrors(row: Row<User>)
    ensures FromRow(row).Ok? <==> row.Columns?
    ensures row.ScanError? && Is(row.err, NoRows) ==> FromRow(row) == Err(Fail(UserNotFound))
    ensures row.ScanError? && !Is(row.err, NoRows) && AsPg(row.err).Some? && AsPg(row.err).value.code == UniqueViolation
      ==> FromRow(row) == Err(Fail(EmailAlreadyExists))
    ensures row.ScanError? && !Is(row.err, NoRows) && !(AsPg(row.err).Some? && AsPg(row.err).value.code == UniqueViolation)
      ==> FromRow(row) == Err(row.err)
  {
  }

  const InsertColumns: seq<string> := ["email", "name", "status", "created_at", "updated_at"]
  const UpdateColumns: seq<string> := ["name", "status", "updated_at"]

  /** The INSERT of `Create`: every field but the id, which the database assigns. */
  function CreateStatement(u: User): Statement {
    Statement(InsertReturning(Users, InsertColumns),
              [Text(u.email), Text(u.name), Text(u.status), At(u.createdAt), At(u.updatedAt)])
  }

  /** The UPDATE of `Update`: name, status and update time, keyed by id. */
  function UpdateStatement(u: User): Statement {
    Statement(UpdateReturning(Users, UpdateColumns, "id"),
              [Text(u.name), Text(u.status), At(u.updatedAt), Text(u.id)])
  }

  /**
   * An update never writes the email or the creation time: the statement
   * does not depend on either, and neither column is among those it sets.
   */
  lemma UpdateNeverWritesEmail(u: User, email: string, t: Time)
    ensures UpdateStatement(u) == UpdateStatement(u.(email := email, createdAt := t))
    ensures "email" !in UpdateColumns && "created_at" !in UpdateColumns
  {
    assert UpdateColumns[0] == "name" && UpdateColumns[1] == "status" && UpdateColumns[2] == "updated_at";
    assert "email" != "name" && "email" != "status" && "email" != "updated_at";
  }

  /**
   * The list query of `List`: an optional `status = $1` condition, then the
   * LIMIT (one more than the page) and OFFSET placeholders numbered after
   * the filter arguments.
   */
  function ListStatement(filter: UserCore.ListUsersFilter): Statement {
    var filterArgs := if filter.status.Some? then [Text(filter.status.value)] else [];
    var conditions := if filter.status.Some? then ["status = " + Placeholder(1)] else [];
    Statement(SelectPage(Users, WhereClause(conditions), Placeholder(|filterArgs| + 1), Placeholder(|filterArgs| + 2)),
              filterArgs + [Int(filter.limit + 1), Int(filter.offset)])
  }

  /** The exact fragments for a status filter: ` WHERE status = $1`, `$2`, `$3`. */
  lemma ListStatementWithStatus(status: string, limit: int, offset: int)
    ensures var st := ListStatement(UserCore.ListUsersFilter(limit, offset, Some(status)));
      && st.command.whereClause == " WHERE status = $1"
      && st.command.limitPlaceholder == "$2"
      && st.command.offsetPlaceholder == "$3"
      && st.args == [Text(status), Int(limit + 1), Int(offset)]
  {
    assert Itoa(1) == "1" && Itoa(2) == "2" && Itoa(3) == "3";
    assert JoinWith(["status = $1"], " AND ") == "status = $1";
  }

  /** The exact fragments without a filter: no WHERE, `$1`, `$2`. */
  lemma ListStatementWithoutStatus(limit: int, offset: int)
    ensures var st := ListStatement(UserCore.ListUsersFilter(limit, offset, None));
      && st.command.whereClause == ""
      && st.command.limitPlaceholder == "$1"
      && st.command.offsetPlaceholder == "$2"
      && st.args == [Int(limit + 1), Int(offset)]
  {
    assert Itoa(1) == "1" && Itoa(2) == "2";
  }

  /**
   * The query text and arguments `List` assembles step by step: the status
   * condition, when given, takes the first placeholder.
   */
  method BuildListStatement(filter: UserCore.ListUsersFilter) returns (statement: Statement)
    ensures statement == ListStatement(filter)
  {
    var limitWithBuffer := filter.limit + 1;
    var args: seq<Arg> := [];
    var conditions: seq<string> := [];

    if filter.status.Some? {
      var placeholder := Placeholder(|args| + 1);
      conditions := conditions + ["status = " + placeholder];
      args := args + [Text(filter.status.value)];
    }
    ghost var expected := ListStatement(filter);

    var whereClause := "";
    if |conditions| > 0 {
      whereClause := " WHERE " + JoinWith(conditions, " AND ");
    }
    assert whereClause == expected.command.whereClause;

    var limitPlaceholder := Placeholder(|args| + 1);
    args := args + [Int(limitWithBuffer)];
    var offsetPlaceholder := Placeholder(|args| + 1);
    args := args + [Int(filter.offset)];

    assert args == expected.args;
    statement := Statement(SelectPage(Users, whereClause, limitPlaceholder, offsetPlaceholder), args);
  }

  /**
   * `UserRepository` over a pool and the engine that answers it. The
   * context is accepted but never consulted for a transaction.
   */
  class UserRepository {
    const pool: Queryer
    const db: Database<User>

    constructor (pool: Queryer, db: Database<User>)
      ensures this.pool == pool && this.db == db
    {
      this.pool := pool;
      this.db := db;
    }

    /** `Create`. */
    method Create(ctx: Context, u: User) returns (r: Result<User, Error>, issued: Request)
      ensures issued == Request(pool, CreateStatement(u))
      ensures r == FromRow(db.queryRow(issued))
    {
      issued := Request(pool, CreateStatement(u));
      var created := ScanUser(db.queryRow(issued));
      if created.Err? {
        return Err(TranslateUserPgError(created.error)), issued;
      }
      r := created;
    }

    /** `Update`. */
    method Update(ctx: Context, u: User) returns (r: Result<User, Error>, issued: Request)
      ensures issued == Request(pool, UpdateStatement(u))
      ensures r == FromRow(db.queryRow(issued))
    {
      issued := Request(pool, UpdateStatement(u));
      var updated := ScanUser(db.queryRow(issued));
      if updated.Err? {
        return Err(TranslateUserPgError(updated.error)), issued;
      }
      r := updated;
    }

    /** `Delete`: `ErrUserNotFound` exactly when no row was affected. */
    method Delete(ctx: Context, id: string) returns (err: Option<Error>, issued: Request)
      ensures issued == Request(pool, Statement(DeleteById(Users), [Text(id)]))
      ensures db.exec(issued).Err? ==> err == Some(TranslateUserPgError(db.exec(issued).error))
      ensures db.exec(issued) == Ok(0) ==> err == Some(Fail(UserNotFound))
      ensures err.None? <==> db.exec(issued).Ok? && db.exec(issued).value > 0
    {
      issued := Request(pool, Statement(DeleteById(Users), [Text(id)]));
      var tag := db.exec(issued);
      if tag.Err? {
        return Some(TranslateUserPgError(tag.error)), issued;
      }
      if tag.value == 0 {
        return Some(Fail(UserNotFound)), issued;
      }
      err := None;
    }

    /** `FindByID`. */
    method FindByID(ctx: Context, id: string) returns (r: Result<User, Error>, issued: Request)
      ensures issued == Request(pool, Statement(SelectWhere(Users, ["id"]), [Text(id)]))
      ensures r == FromRow(db.queryRow(issued))
    {
      issued := Request(pool, Statement(SelectWhere(Users, ["id"]), [Text(id)]));
      var found := ScanUser(db.queryRow(issued));
      if found.Err? {
        return Err(TranslateUserPgError(found.error)), issued;
      }
      r := found;
    }

    /** `FindByEmail`. */
    method FindByEmail(ctx: Context, email: string) returns (r: Result<User, Error>, issued: Request)
      ensures issued == Request(pool, Statement(SelectWhere(Users, ["email"]), [Text(email)]))
      ensures r == FromRow(db.queryRow(issued))
    {
      issued := Request(pool, Statement(SelectWhere(Users, ["email"]), [Text(email)]));
      var found := ScanUser(db.queryRow(issued));
      if found.Err? {
        return Err(TranslateUserPgError(found.error)), issued;
      }
      r := found;
    }

    /**
     * `List`: the limit and offset guards, then one query for `limit + 1`
     * rows; more than `limit` rows means a next page starting at
     * `offset + limit`.
     */
    method List(ctx: Context, filter: UserCore.ListUsersFilter)
      returns (r: Result<Page<User>, Error>, issued: Option<Request>)
      ensures filter.limit <= 0 ==> r == Err(Fail(InvalidPageSize)) && issued.None?
      ensures filter.limit > 0 && filter.offset < 0 ==> r == Err(Fail(InvalidPageToken)) && issued.None?
      ensures filter.limit > 0 && filter.offset >= 0 ==>
        && issued == Some(Request(pool, ListStatement(filter)))
        && var outcome := QueryOutcome(db.query(issued.value), ScanUser, TranslateUserPgError);
           && (outcome.Err? ==> r == Err(outcome.error))
           && (outcome.Ok? ==> r == Ok(FencepostOver(outcome.value, filter.limit, filter.offset)))
    {
      if filter.limit <= 0 {
        return Err(Fail(InvalidPageSize)), None;
      }
      if filter.offset < 0 {
        return Err(Fail(InvalidPageToken)), None;
      }

      var statement := BuildListStatement(filter);
      var request := Request(pool, statement);
      issued := Some(request);

      var answer := db.query(request);
      r := ReadOverPage(answer, ScanUser, TranslateUserPgError, filter.limit, filter.offset);
    }
  }

  /**
   * The user repository ignores the ambient transaction: whatever the
   * context carries, its statements go to the pool, which differs from the
   * queryer the other repositories would pick inside a transaction.
   */
  lemma BypassesAmbientTx(ctx: Context, pool: Queryer)
    requires pool.PoolQueryer? && TxFromContext(ctx).Some?
    ensures QueryerFromContext(ctx, pool) != pool
  {
  }
}

=== FILE: validation.dfy ===
/**
 * Input rules the three services share: the entity status values, trimmed
 * required text, and the lower-case code pattern used for company codes and
 * employee codes. Each service reports a failure with its own sentinel.
 */
module Validation {
  import opened Wrappers
  import opened Strings

  const StatusActive: string := "active"
  const StatusInactive: string := "inactive"

  /** `isValidStatus`: exactly the two declared statuses. */
  predicate IsValidStatus(status: string) {
    status == StatusActive || status == StatusInactive
  }

  /**
   * The trim-and-require rule of `normalizeName`, `normalizeCompanyID` and
   * `normalizeUserID`: the trimmed text, or None when nothing is left.
   */
  function NormalizeRequired(raw: string): (r: Option<string>)
    ensures r.None? <==> AllSpace(raw)
    ensures r.Some? ==> r.value != [] && TrimSpace(r.value) == r.value
  {
    BlankIffAllSpace(raw);
    var trimmed := TrimSpace(raw);
    if trimmed == "" then None
    else
      TrimSpaceIdempotent(raw);
      Some(trimmed)
  }

  /**
   * The rule of `normalizeCode` and `normalizeEmployeeCode`: trim, reject
   * blank, lower-case, then require `^[a-z0-9][a-z0-9_-]*$`.
   */
  function NormalizeCodeText(raw: string): (r: Option<string>)
    ensures r.Some? ==> MatchesCodePattern(r.value)
    ensures r.Some? ==> r.value == ToLower(TrimSpace(raw))
    ensures r.None? <==> !MatchesCodePattern(ToLower(TrimSpace(raw)))
  {
    var trimmed := TrimSpace(raw);
    if trimmed == "" then None
    else
      var lower := ToLower(trimmed);
      if !MatchesCodePattern(lower) then None else Some(lower)
  }

  /** A normalised code normalises to itself. */
  lemma NormalizeCodeIdempotent(raw: string)
    requires NormalizeCodeText(raw).Some?
    ensures NormalizeCodeText(NormalizeCodeText(raw).value) == NormalizeCodeText(raw)
  {
    var code := NormalizeCodeText(raw).value;
    CodePatternIsNormal(code);
  }

  /** A code with an inner space, such as "Invalid Code", is refused. */
  lemma CodeWithSpaceRejected(raw: string, i: nat)
    requires 0 < i < |TrimSpace(raw)| - 1 && TrimSpace(raw)[i] == ' '
    ensures NormalizeCodeText(raw).None?
  {
    var lower := ToLower(TrimSpace(raw));
    assert lower[i] == ' ';
  }

  /** Upper-case input is accepted in its lower-case form. */
  lemma CodeCaseInsensitive(raw: string)
    ensures NormalizeCodeText(raw) == NormalizeCodeText(ToLower(raw))
  {
    var t := TrimSpace(raw);
    var u := TrimSpace(ToLower(raw));
    TrimLowerCommute(raw);
    assert u == ToLower(t);
    ToLowerIdempotent(t);
  }

  /** Lower-casing keeps white space where it is, so it commutes with trimming. */
  lemma TrimLowerCommute(s: string)
    ensures TrimSpace(ToLower(s)) == ToLower(TrimSpace(s))
  {
    TrimLeftLowerCommute(s);
    TrimRightLowerCommute(TrimLeft(s));
  }

  lemma {:induction false} TrimLeftLowerCommute(s: string)
    ensures TrimLeft(ToLower(s)) == ToLower(TrimLeft(s))
    decreases |s|
  {
    if s != [] {
      assert ToLower(s)[1..] == ToLower(s[1..]);
      assert IsSpace(ToLower(s)[0]) == IsSpace(s[0]);
      TrimLeftLowerCommute(s[1..]);
    }
  }

  lemma {:induction false} TrimRightLowerCommute(s: string)
    ensures TrimRight(ToLower(s)) == ToLower(TrimRight(s))
    decreases |s|
  {
    if s != [] {
      assert ToLower(s)[..|s| - 1] == ToLower(s[..|s| - 1]);
      assert IsSpace(ToLower(s)[|s| - 1]) == IsSpace(s[|s| - 1]);
      TrimRightLowerCommute(s[..|s| - 1]);
    }
  }
}

=== FILE: wrappers.dfy ===
/** Option and Result, the failure-carrying values used across the model. */
module Wrappers {

  /** A Go pointer that may be nil, or a value that may be absent. */
  datatype Option<+T> = None | Some(value: T)

  /** A Go `(value, error)` pair where exactly one side is meaningful. */
  datatype Result<+T, +E> = Ok(value: T) | Err(error: E)
}
